=== FILE: README.md ===
# Paint-by-numbers generator: a Dafny model

This project models the image pipeline of a Unity app that turns a photo into
a paint-by-numbers template, and proves properties of that model. The pipeline
has these stages:

1. Smooth the photo with a median filter and scale it to a working size
   (`ImageUtils`).
2. Reduce it to k colours with k-means (`KAvarage.KMeans`) and recolour every
   pixel with its closest centroid (`KAvarage.StartGeneration`).
3. Remove speckles (`KAvarage.ReplaceSmallParticles`). The 8-connected flood
   fill cuts the image into single-colour chunks. Every chunk below a size
   threshold is repainted with the colour of a nearby, similar large chunk.
4. Draw one outline mask per visible colour and layer the masks
   (`MainViewModel.CreateLinesAsync`, `CombineTextures`, `DraftCombineResult`).
5. Stamp each large chunk's palette number at its centre (`WriteNumber`).
   The digit glyphs are laid side by side on a strip
   (`CombineTexturesHorizontally`).
6. Look services up by type name (`ServiceLocator`).

Modules, one per file:

- `Wrappers`: `Option` and `Result`.
  - `Option.None` stands for a null reference.
  - `Result.Err` carries the message of the exception the source would throw.
- `Colors`: `ColorDistance`, `AverageColor`, `AreColorsSimilar` and the grayscale weights.
- `Grid`: positions and images.
  - Pixels are stored in `GetPixels` order, so the pixel at (x, y) sits at index `y*width + x`.
  - The column-by-column scan (x outer, y inner) is used by `ScanTexture`, `StartGeneration`, `AnalysePallet` and `CreateLinesAsync`.
- `Segmentation`: the flood fill and the size classification. `KAvarage` and `WriteNumber` share both.
- `Denoise`: `FindNearestLargeChunkColor` and the small-chunk repaint.
- `KMeans`: clustering, recolouring and `StartGeneration`.
- `Labels`: `FindChunkCenter`, the palette-number lookup and the decimal digits of a number.
- `Glyphs`: the glyph strip and the stamp.
- `WriteNumber`: `FindLargeChunks`, `WriteLargeChunks` and `GenerateFinalImage`.
- `Outline`: `AnalysePallet`, the outline masks, `CombineTextures` and `DraftCombineResult`.
- `Filters`: the median filter and the size computed by `UpscaleTexture`.
- `Services`: `ServiceLocator`.

Modelling conventions:

- A colour is four reals.
- Textures are immutable images. Every in-place loop of the source becomes a loop that builds a new image, with an invariant that describes the part written so far.
- Randomness, cancellation and the font are parameters:
  - the shuffle of k-means;
  - the ±1 jitters of `FindChunkCenter`;
  - the sampled chunk distances of `FindNearestLargeChunkColor`;
  - the cancellation token's state at each check;
  - the digit textures.
- C#'s truncating integer division is written out (`Labels.TruncDiv`).
- Creating a `Texture2D` with a non-positive side is an `Err`.

The model follows the code in these places, where a reader might expect
otherwise:

- A chunk is "large" for the final stamp when it has more than the threshold (`group.Count > maxSize`). In small-particle removal it is large at or above the threshold.
- k-means returns `min(k, n)` centroids (`Take(k)`), not always k.
- The median window is `(2*(size/2)+1)` pixels wide. An even `size` therefore gives a window one pixel wider than `size`.
- A palette miss in `DrawNumberOnTexture` is not skipped: the chunk is stamped with the number the code computes for the miss. See Findings.
- A missing digit glyph makes `config.First` throw rather than skip the stamp. The model assumes every digit has a glyph (`FontValid`).

## Model

| member | source | states |
|---|---|---|
| Colors.ColorDistance | Assets/Scripts/Generate/ImageUtils.cs:226-229 | the squared RGB distance is never negative and is zero for colours whose RGB parts agree |
| Colors.ColorDistanceSymmetric | Assets/Scripts/Generate/ImageUtils.cs:226-229 | the distance from a to b equals the distance from b to a |
| Colors.ColorDistanceIgnoresAlpha | Assets/Scripts/Generate/ImageUtils.cs:226-229 | changing a colour's alpha leaves its distance to any colour unchanged |
| Colors.AverageColor | Assets/Scripts/Generate/ImageUtils.cs:231-237 | there is no average (LINQ throws) exactly for the empty list; otherwise alpha is 1 and each channel times the count is that channel's sum |
| Colors.AverageWithinBounds | Assets/Scripts/Generate/ImageUtils.cs:231-237 | a channel's mean lies between any lower and upper bound of that channel over the list |
| Colors.AverageOfConstant | Assets/Scripts/Generate/ImageUtils.cs:231-237 | averaging copies of one colour gives that colour with alpha 1 |
| Colors.Max3 | Assets/Scripts/Generate/ImageUtils.cs:241 | `Mathf.Max` of three values is one of them and no smaller than any |
| Colors.Dominant | Assets/Scripts/Generate/ImageUtils.cs:241-253 | the chosen channel holds the maximum, and red, then green, wins a tie |
| Colors.AreColorsSimilar | Assets/Scripts/Generate/ImageUtils.cs:239-255 | similar exactly when the two colours differ by less than the tolerance on the first colour's dominant channel; the final `return false` is unreachable |
| Colors.SimilarityIsAsymmetric | Assets/Scripts/Generate/ImageUtils.cs:239-255 | a pair of colours that is similar one way round and not the other |
| Colors.SimilarToItself | Assets/Scripts/Generate/ImageUtils.cs:239-255 | a colour is similar to itself exactly when the tolerance is positive |
| Grid.ColumnMajor | Assets/Scripts/Generate/KAvarage.cs:58-71 | the x-outer, y-inner scan lists every pixel once, the pixel at (x, y) at position x*height + y |
| Grid.FromColumnMajorAt | Assets/Scripts/Generate/KAvarage.cs:38-46 | writing a scan back with `SetPixel` in the same loop order puts scan entry x*height + y at pixel (x, y) |
| Grid.ColumnMajorRoundTrip | Assets/Scripts/Generate/KAvarage.cs:38-46 | scanning column by column and writing back in the same order gives back the original pixels |
| Grid.Put | Assets/Scripts/Generate/KAvarage.cs:381 | a buffer write at `y*width + x` changes that position's pixel and no other |
| Segmentation.Fill | Assets/Scripts/Generate/KAvarage.cs:322-354 | the fill from an unvisited seed returns a region: an 8-connected list of distinct pixels of the seed's colour, grown from the seed, with every same-coloured neighbour included; it visits nothing visited before |
| Segmentation.VisitNeighbours | Assets/Scripts/Generate/KAvarage.cs:335-353 | after the dx/dy loop every in-image neighbour of the dequeued pixel that has the region's colour is visited; newly visited pixels are enqueued in order |
| Segmentation.Segment | Assets/Scripts/Generate/KAvarage.cs:317-371 | the row-major scan yields regions that are pairwise disjoint and cover every pixel, each seeded at its first pixel in scan order |
| Segmentation.RegionsAgree | Assets/Scripts/Generate/KAvarage.cs:330-354 | two regions through the same pixel have the same colour and the same pixels, so a pixel's chunk does not depend on where the scan starts |
| Segmentation.RegionSizeAgrees | Assets/Scripts/Generate/KAvarage.cs:356 | two regions through the same pixel have the same size |
| Segmentation.RegionConnected | Assets/Scripts/Generate/KAvarage.cs:330-354 | any two pixels of a region are joined by a walk of adjacent pixels inside it |
| Segmentation.ClassifySizes | Assets/Scripts/Generate/KAvarage.cs:356-368 | every chunk in the small list has fewer than `maxSize` pixels and every chunk in the large list has at least that many |
| Segmentation.ClassifyPartitions | Assets/Scripts/Generate/KAvarage.cs:356-368 | the small and large lists together hold exactly the input chunks (as multisets) |
| Segmentation.ClassifyKeepsDisjoint | Assets/Scripts/Generate/KAvarage.cs:356-368 | splitting disjoint chunks leaves each list disjoint and the two lists apart |
| Segmentation.ClassifyKeepsOrder | Assets/Scripts/Generate/KAvarage.cs:356-368 | splitting a list in row-major seed order keeps both halves in that order, each seed still its chunk's first pixel |
| Segmentation.LargeOnly | Assets/Scripts/Generate/WriteNumber.cs:109-114 | a chunk is kept exactly when it has more than `maxSize` pixels |
| Segmentation.LargeOnlyIsLargeHalf | Assets/Scripts/Generate/WriteNumber.cs:109-114 | keeping chunks above m is the large half of the small/large split at m + 1 |
| Segmentation.MinSize | Assets/Scripts/Generate/KAvarage.cs:303 | `(int)(scale * (width * height))` truncates toward zero: within one of the product, on the side of zero |
| Denoise.PrecedesIsStrictTotal | Assets/Scripts/Generate/KAvarage.cs:399 | nearer, then bigger, then earlier in the list is irreflexive, asymmetric, total and transitive |
| Denoise.InsertRanked | Assets/Scripts/Generate/KAvarage.cs:399 | inserting a new index into a sorted list keeps it sorted |
| Denoise.RankBelow | Assets/Scripts/Generate/KAvarage.cs:399 | the sort of the first m indices is sorted and holds each of them once |
| Denoise.Rank | Assets/Scripts/Generate/KAvarage.cs:399 | `OrderBy(Distance).ThenByDescending(Count)` yields a ranking: every chunk once, in the stable sort order |
| Denoise.RankingUnique | Assets/Scripts/Generate/KAvarage.cs:399 | any two sorted lists of the same indices are equal, so the stable sort has one answer |
| Denoise.Limit | Assets/Scripts/Generate/KAvarage.cs:400-411 | the loop looks at sorted positions up to the first x with x > n/10, and never past the list |
| Denoise.ScanRanked | Assets/Scripts/Generate/KAvarage.cs:400-413 | the colour returned is that of the first similar chunk among the looked-at positions, or the small chunk's own colour if there is none |
| Denoise.NearestLargeChunkColor | Assets/Scripts/Generate/KAvarage.cs:391-413 | the result is the small chunk's own colour or the colour of a large chunk similar to it |
| Denoise.NearestIsFirstSimilar | Assets/Scripts/Generate/KAvarage.cs:399-412 | for any correct sort, the result is the colour of the first similar chunk within the looked-at prefix |
| Denoise.NearestDefaultsToOwnColor | Assets/Scripts/Generate/KAvarage.cs:400-413 | when no looked-at chunk is similar, the small chunk keeps its colour |
| Denoise.Distances | Assets/Scripts/Generate/KAvarage.cs:393-398 | one sampled distance per large chunk, in list order |
| Denoise.Paint | Assets/Scripts/Generate/KAvarage.cs:379-382 | pixels of the group get the new colour and every other pixel is unchanged |
| Denoise.SplitBySize | Assets/Scripts/Generate/KAvarage.cs:311-371 | small chunks are regions below the threshold and large chunks are regions at or above it; all are pairwise disjoint and together cover the image; each list keeps the scan order: seeds in row-major order, each seed the first pixel of its chunk |
| Denoise.RepaintStep | Assets/Scripts/Generate/KAvarage.cs:375-382 | painting small chunk i over the first i repainted chunks repaints i + 1 and touches nothing else |
| Denoise.RepaintSmall | Assets/Scripts/Generate/KAvarage.cs:373-388 | the small chunks up to the one where cancellation is first seen carry their nearest similar colour; every other pixel is unchanged |
| Denoise.ReplaceSmallParticles | Assets/Scripts/Generate/KAvarage.cs:297-309 | segments at the truncated threshold, then repaints. The result has the input's size. The small and large lists are regions on their sides of the threshold, each list disjoint, the two apart, together covering the image, and each in row-major seed order. The output is the repaint (`Repainted`) of the small chunks handled before cancellation |
| Denoise.ReplaceKeepsColors | Assets/Scripts/Generate/KAvarage.cs:373-413 | small-particle removal invents no colour: every output pixel has some input pixel's colour |
| KMeans.ClosestFrom | Assets/Scripts/Generate/KAvarage.cs:284-292 | the scan from i with the best so far ends on the first centroid at the least distance |
| KMeans.Closest | Assets/Scripts/Generate/KAvarage.cs:279-295 | the first centroid at the least distance, or 0 when there are no centroids |
| KMeans.AssignAll | Assets/Scripts/Generate/KAvarage.cs:145-153 | every colour is assigned its closest centroid |
| KMeans.MembersAreAssigned | Assets/Scripts/Generate/KAvarage.cs:159-161 | every member of a cluster is a colour assigned to it |
| KMeans.MemberAssigned | Assets/Scripts/Generate/KAvarage.cs:159-161 | member m of a cluster is some colour assigned to that cluster |
| KMeans.AssignedAreMembers | Assets/Scripts/Generate/KAvarage.cs:159-161 | every colour assigned to a cluster is a member of it |
| KMeans.RecomputeMovesToMean | Assets/Scripts/Generate/KAvarage.cs:155-173 | a cluster with no members keeps its centroid; any other centroid moves to the mean of its members |
| KMeans.RecomputeInRange | Assets/Scripts/Generate/KAvarage.cs:155-173 | if every centroid lies within the colours' channel ranges, so does every centroid after the update |
| KMeans.PickedInRange | Assets/Scripts/Generate/KAvarage.cs:130 | centroids taken from a shuffle of the colours lie within their ranges |
| KMeans.PickedAreInputColors | Assets/Scripts/Generate/KAvarage.cs:130 | every initial centroid, taken from a permutation of the colours, is one of the input colours |
| KMeans.TakeCount | Assets/Scripts/Generate/KAvarage.cs:130 | `Take(k)` yields k items when there are enough, all n when there are fewer, and none for a negative k |
| KMeans.Iterate | Assets/Scripts/Generate/KAvarage.cs:143-173 | one iteration reassigns every colour to its closest centroid and then moves the centroids, keeping them in range |
| KMeans.MembersEmptyIff | Assets/Scripts/Generate/KAvarage.cs:159-163 | a cluster has no members exactly when no colour is assigned to it, so `clusterColors.Count > 0` tests for an assigned colour |
| KMeans.RecomputeIdempotent | Assets/Scripts/Generate/KAvarage.cs:155-171 | updating the centroids twice for the same assignment gives the same centroids as updating once |
| KMeans.RunStep | Assets/Scripts/Generate/KAvarage.cs:140-179 | in the reference run, pass t + 1 reassigns and moves the centroids from the state pass t ended in |
| KMeans.StableIsFixedPoint | Assets/Scripts/Generate/KAvarage.cs:179 | from the second pass on, a pass that changes no assignment leaves the centroids where they were, and one more pass would change nothing, so the early exit loses nothing |
| KMeans.GoesOn | Assets/Scripts/Generate/KAvarage.cs:140-179 | the loop gets past count n + 1 when it got past every earlier count and does not stop at n |
| KMeans.FirstStopUnique | Assets/Scripts/Generate/KAvarage.cs:140-179 | only one count can be the first at which the exit test holds, so the iteration count is determined by the inputs |
| KMeans.EarlyExitMeansStable | Assets/Scripts/Generate/KAvarage.cs:140-179 | stopping first at n means: no pass before n was cancelled, every pass before n changed an assignment, and unless 100 passes ran or the next check was cancelled, pass n changed no assignment |
| KMeans.Converge | Assets/Scripts/Generate/KAvarage.cs:131-179 | the centroids and assignment are those of the reference run (all assignments starting at 0) after the number of passes made, and that number is the first at which the exit test holds: the cap of 100, a cancellation seen at the top of the next pass, or a pass that changed no assignment; the centroids stay in range |
| KMeans.KMeans | Assets/Scripts/Generate/KAvarage.cs:127-182 | `min(k, n)` centroids, starting from the first of a shuffle, and the reference run stopped at the first count where the exit test holds |
| KMeans.ApplyPalette | Assets/Scripts/Generate/KAvarage.cs:33-46 | each pixel becomes the closest palette colour, at least as near as any other; an empty palette fails on a non-empty image |
| KMeans.ApplyPaletteUsesPalette | Assets/Scripts/Generate/KAvarage.cs:33-46 | a recoloured image holds palette colours only |
| KMeans.UsesPaletteTransfers | Assets/Scripts/Generate/KAvarage.cs:49-50 | an image that only copies colours of a palette image is a palette image |
| KMeans.CleanPass | Assets/Scripts/Generate/KAvarage.cs:49-50 | one `ReplaceSmallParticles` pass over a palette image at the given size fraction and tolerance: it returns the pass's small and large chunks and the count handled, with everything `ReplaceSmallParticles` promises about them (`Cleaned`: regions on their sides of the threshold, disjoint, apart, covering the image, in seed order, handled until cancellation, and the output is their repaint); the output is a same-size palette image |
| KMeans.StartGeneration | Assets/Scripts/Generate/KAvarage.cs:18-56 | the palette is the centroid list of k-means run on the column-major pixels from the first `min(k, n)` shuffled ones, stopped at the first iteration where it converges, runs out or is cancelled; the quantised image is the palette recolouring (`ApplyPalette`), which fails exactly for an empty palette and a non-empty image; the first pass cleans the quantised image at size fraction 0.0000165 and tolerance 0.1, the second cleans that pass's output at 0.00001 and 0.6 (each `Cleaned`), and the result is the second pass's output, a same-size image using only palette colours |
| Labels.TruncDiv | Assets/Scripts/Generate/WriteNumber.cs:218-219 | C# integer division rounds toward zero, for either sign of the dividend |
| Labels.BoundingBox | Assets/Scripts/Generate/WriteNumber.cs:201-212 | the box holds every pixel of the group |
| Labels.BoundingBoxTight | Assets/Scripts/Generate/WriteNumber.cs:201-212 | each of the box's four edges is reached by some pixel |
| Labels.MeanInBox | Assets/Scripts/Generate/WriteNumber.cs:244-256 | the truncated mean of the coordinates lies within the bounding box |
| Labels.Wrap32 | Assets/Scripts/Generate/WriteNumber.cs:244-254 | a value stored in a C# `int` lies in [-2^31, 2^31) and equals the exact value when that is in range |
| Labels.WrapAdd | Assets/Scripts/Generate/WriteNumber.cs:249-250 | adding to an `int` that already wrapped gives the wrap of the exact sum |
| Labels.SumX32Wraps | Assets/Scripts/Generate/WriteNumber.cs:244-249 | the `int` sum of the x coordinates, accumulated pixel by pixel, is the wrap of the exact sum |
| Labels.SumY32Wraps | Assets/Scripts/Generate/WriteNumber.cs:245-250 | the `int` sum of the y coordinates, accumulated pixel by pixel, is the wrap of the exact sum |
| Labels.WrappedMeanAgrees | Assets/Scripts/Generate/WriteNumber.cs:244-254 | when both exact sums fit in an `int`, the mean the code computes is the exact truncated mean |
| Labels.WrappedMeanLeavesBox | Assets/Scripts/Generate/WriteNumber.cs:244-254 | when the x sum of a group of non-negative coordinates wraps to at most minus the pixel count, the computed mean has a negative x and lies outside the group's bounding box |
| Labels.WholeImageChunkWraps | Assets/Scripts/Generate/WriteNumber.cs:244-254 | for the 11,250,000 pixels of a 3500×3500 image less its central 1000×1000 square, the x sum 19,681,875,000 wraps to -1,792,961,480, giving mean x -159 where the exact mean is 1749 |
| Labels.Jittered | Assets/Scripts/Generate/WriteNumber.cs:214-256 | the attempts from i on give a group pixel or the mean |
| Labels.JitteredTakesFirstHit | Assets/Scripts/Generate/WriteNumber.cs:214-242 | the centre is the first jittered candidate that lies in the group |
| Labels.JitteredFallsBack | Assets/Scripts/Generate/WriteNumber.cs:242-256 | when no remaining candidate lies in the group, the mean is returned |
| Labels.FindChunkCenter | Assets/Scripts/Generate/WriteNumber.cs:193-257 | fails exactly on an empty group; otherwise it gives the bounding-box midpoint when that is in the group, always a point of the box, and a group pixel or the mean |
| Labels.CenterOutsideIsMean | Assets/Scripts/Generate/WriteNumber.cs:214-256 | a centre outside the group is the mean, and then neither the midpoint nor any of the ten candidates was in the group |
| Labels.FirstSimilar | Assets/Scripts/Generate/WriteNumber.cs:265 | `FirstOrDefault` finds the first palette index whose colour the chunk is similar to, or none exactly when none is similar |
| Labels.IndexOf | Assets/Scripts/Generate/WriteNumber.cs:270 | `List.IndexOf` returns the first position holding the colour, or -1 exactly when the colour is absent |
| Labels.AsWrittenNumber | Assets/Scripts/Generate/WriteNumber.cs:265-270 | the number passed to `GenerateCombinedTexture` as written: the first similar index plus 1 or, on a miss, the index of `default(Color)` plus 1 |
| Labels.MissIsLabelledZero | Assets/Scripts/Generate/WriteNumber.cs:265-270 | a black chunk under a white-only palette is labelled 0 instead of being skipped |
| Labels.LabelNumber | Assets/Scripts/Generate/WriteNumber.cs:265-270 | the 1-based number of the first palette colour the chunk is similar to, or none exactly when no palette colour is similar |
| Labels.LabelNumberAgrees | Assets/Scripts/Generate/WriteNumber.cs:265-270 | when a similar palette colour exists, the corrected and the as-written numbers agree |
| Labels.SimilarEntriesShareNumber | Assets/Scripts/Generate/WriteNumber.cs:265 | two palette colours that share a dominant channel value both get the first one's number |
| Labels.Digits | Assets/Scripts/Generate/WriteNumber.cs:296 | `ToString()` gives at least one digit, each below 10, with no leading zero except for 0 itself |
| Labels.DigitsRoundTrip | Assets/Scripts/Generate/WriteNumber.cs:296 | reading the digits back gives the number |
| Labels.DigitsCanonical | Assets/Scripts/Generate/WriteNumber.cs:296 | every digit list without a leading zero is the digit list of its value |
| Glyphs.DrawNumber | Assets/Scripts/Generate/WriteNumber.cs:275-288 | the buffer becomes `StampOver` of the glyph: each pixel under the 10×10 window that lies within the buffer's whole rows takes the glyph's pixel when its alpha exceeds 0.1; every other pixel is unchanged |
| Glyphs.StampOver | Assets/Scripts/Generate/WriteNumber.cs:275-288 | one stamp: same length, and every index holds what the window rule gives it (`Stamped`) |
| Glyphs.StampAll | Assets/Scripts/Generate/WriteNumber.cs:120-128 | the stamps of the first k chunks applied in list order; the buffer keeps its length |
| Glyphs.StampAllPrefix | Assets/Scripts/Generate/WriteNumber.cs:120-128 | stamping k chunks depends only on the first k centres and strips |
| Glyphs.UninkedKeeps | Assets/Scripts/Generate/WriteNumber.cs:120-128 | a pixel no stamp inks keeps its colour through all of them |
| Glyphs.StampAllInk | Assets/Scripts/Generate/WriteNumber.cs:120-128 | after all stamps a pixel is unchanged or has alpha above 0.1 |
| Glyphs.LastStampWins | Assets/Scripts/Generate/WriteNumber.cs:120-128 | a pixel inked by stamp j and by no later stamp holds stamp j's glyph pixel: later chunks overwrite earlier ones |
| Glyphs.SetPixel | Assets/Scripts/Generate/WriteNumber.cs:334 | `SetPixel` in the default repeat wrap mode writes the wrapped position and nothing else |
| Glyphs.Blit | Assets/Scripts/Generate/WriteNumber.cs:324-337 | the canvas with the glyph laid row by row (`BlitRows`); every pixel is the canvas's or a visible glyph pixel; when the glyph fits at its offset, each visible glyph pixel lands at offset + x and everything else keeps the canvas |
| Glyphs.BlitLine | Assets/Scripts/Generate/WriteNumber.cs:326-336 | one row of the glyph: the canvas laid with rows up to y becomes the canvas laid with rows up to y + 1 |
| Glyphs.MaxHeight | Assets/Scripts/Generate/WriteNumber.cs:309 | no texture is taller than the maximum |
| Glyphs.LastGlyphEndsStrip | Assets/Scripts/Generate/WriteNumber.cs:308 | the last glyph's offset plus its width is the strip's total width |
| Glyphs.OffsetMonotone | Assets/Scripts/Generate/WriteNumber.cs:339 | offsets never decrease when each width plus the spacing is non-negative |
| Glyphs.FitWhenSpacingCovered | Assets/Scripts/Generate/WriteNumber.cs:308-339 | if each width plus the spacing is non-negative, every glyph fits inside the strip |
| Glyphs.Blank | Assets/Scripts/Generate/WriteNumber.cs:313-318 | the cleared strip is transparent everywhere |
| Glyphs.LayGlyph | Assets/Scripts/Generate/WriteNumber.cs:322-340 | laying glyph i over the strip extends the layered picture from i glyphs to i + 1 |
| Glyphs.CombineTexturesHorizontally | Assets/Scripts/Generate/WriteNumber.cs:304-344 | none for an empty list; otherwise it fails exactly when the total width or the height is not positive; on success the strip is the clear canvas with each glyph laid at its offset in order (`StripUpTo`), of size total width by tallest height, every pixel from the glyphs or clear, and when the glyphs fit, each pixel is the last visible glyph pixel over it |
| WriteNumber.GlyphList | Assets/Scripts/Generate/WriteNumber.cs:296-299 | one glyph per decimal digit, in order |
| WriteNumber.GenerateCombinedTexture | Assets/Scripts/Generate/WriteNumber.cs:291-302 | the digit strip of the number: it fails exactly when its size is not positive, and otherwise is `StripOf`, the digit glyphs laid left to right at spacing -180 |
| WriteNumber.StripOf | Assets/Scripts/Generate/WriteNumber.cs:291-344 | the strip for n exists exactly when the glyphs' total width and their height are positive, and then has that size |
| WriteNumber.NumberStrip | Assets/Scripts/Generate/WriteNumber.cs:270 | the strip the stamp of n reads: `StripOf` at spacing -180 whenever that exists |
| WriteNumber.StampSize | Assets/Scripts/Generate/WriteNumber.cs:270-272 | the upscaled strip fails when the strip's width is not positive, and any size it gives is positive on both sides |
| WriteNumber.LabelChunk | Assets/Scripts/Generate/WriteNumber.cs:259-289 | every chunk is stamped with the number the code computes, a palette miss included: the result is `StampOver` at the centre of the upscaled strip of `IndexOf(clr) + 1`, so only pixels under the window change, each to a glyph pixel with alpha above 0.1; it fails exactly when the digit strip or its upscaled copy cannot be created |
| WriteNumber.LabelChunkIntended | Assets/Scripts/Generate/WriteNumber.cs:265-289 | the corrected lookup: a chunk similar to no palette colour leaves the pixels as they were; any other chunk fails exactly when its strip cannot be created, and otherwise is `StampOver` at the centre of the strip of its 1-based palette number |
| WriteNumber.WriteLargeChunks | Assets/Scripts/Generate/WriteNumber.cs:120-128 | fails exactly when some chunk is empty or its strip or upscaled strip cannot be created; otherwise the buffer is `StampAll`: each chunk's number strip stamped at its centre, in list order; pixels under no chunk's stamp are unchanged and every changed pixel has alpha above 0.1 |
| WriteNumber.StampChunks | Assets/Scripts/Generate/WriteNumber.cs:122-127 | the loop stops at the first chunk that cannot be labelled and otherwise yields the stamps of all chunks in order |
| WriteNumber.StampChunk | Assets/Scripts/Generate/WriteNumber.cs:124-126 | one pass: fails exactly for an empty or unlabelable chunk, and otherwise adds chunk k's stamp to the first k |
| WriteNumber.AllHoldIff | Assets/Scripts/Generate/WriteNumber.cs:122-127 | the loop gets past every chunk exactly when no chunk fails |
| WriteNumber.StampsFrame | Assets/Scripts/Generate/WriteNumber.cs:120-128 | all stamps keep every pixel outside the chunks' windows and write only pixels with alpha above 0.1 |
| WriteNumber.CentersAt | Assets/Scripts/Generate/WriteNumber.cs:124 | the k-th centre in the stamped list is that chunk's `FindChunkCenter` |
| WriteNumber.NumberStripsAt | Assets/Scripts/Generate/WriteNumber.cs:126 | the k-th strip in the stamped list is that of the number looked up for the chunk's colour |
| WriteNumber.FindLargeChunks | Assets/Scripts/Generate/WriteNumber.cs:65-118 | the kept chunks are disjoint regions above the threshold in row-major seed order, and a pixel lies in one exactly when its region is above the threshold |
| WriteNumber.GenerateFinalImage | Assets/Scripts/Generate/WriteNumber.cs:31-49 | the stamped chunks are disjoint regions of the quantised image above 0.0000165 of its pixel count, in row-major seed order, and every pixel whose region is above that size lies in one; the result fails exactly when one of them cannot be labelled, and otherwise is the line image stamped with every chunk's number in that order (`StampAll`): its size, unchanged under no stamp, and changed only to pixels with alpha above 0.1 |
| Outline.FirstOccurrences | Assets/Scripts/Model/MainViewModel.cs:161-164 | the list built by `if (!Contains) Add` has no duplicates and is no longer than the input |
| Outline.FirstOccurrencesKeeps | Assets/Scripts/Model/MainViewModel.cs:161-164 | a colour is in the list exactly when it occurs in the input |
| Outline.FirstOccurrencesOrdered | Assets/Scripts/Model/MainViewModel.cs:161-164 | the colours are listed in order of first occurrence |
| Outline.AnalysePallet | Assets/Scripts/Model/MainViewModel.cs:153-168 | each colour of the image once, in order of first appearance in the x-outer scan, and nothing else |
| Outline.CollectFirst | Assets/Scripts/Model/MainViewModel.cs:156-166 | the scan loop appends a colour exactly when it is not yet listed, giving the first occurrences in scan order |
| Outline.PalletCovers | Assets/Scripts/Model/MainViewModel.cs:153-168 | the first occurrences of the scan hold every colour of the image and no other |
| Outline.MarkTarget | Assets/Scripts/Model/MainViewModel.cs:210-232 | a target pixel turns white, and every visible non-target pixel within the half thickness (Chebyshev) of it turns grey; all others are unchanged |
| Outline.OutlinedTexture | Assets/Scripts/Model/MainViewModel.cs:191-241 | the mask equals the reference outline at every pixel, with half thickness `thickness / 2` truncated |
| Outline.OutlineColors | Assets/Scripts/Model/MainViewModel.cs:210-228 | a mask pixel is white exactly at the target colour; a grey pixel is a visible non-target pixel |
| Outline.OutlineByDistance | Assets/Scripts/Model/MainViewModel.cs:199-229 | a mask pixel is grey exactly when it is a visible non-target pixel within Chebyshev distance `thickness/2` of a target pixel, and clear exactly when it is neither white nor grey |
| Outline.ThinOutlineHasNoGrey | Assets/Scripts/Model/MainViewModel.cs:199-218 | a thickness of -1, 0 or 1 draws no grey border |
| Outline.BorderIsGrey | Assets/Scripts/Model/MainViewModel.cs:214-228 | with thickness at least 2, every visible non-target pixel next to a target pixel is grey |
| Outline.VisibleKeeps | Assets/Scripts/Model/MainViewModel.cs:180 | a colour passes the `a > 0` filter exactly when it occurs and is visible |
| Outline.AddLayer | Assets/Scripts/Model/MainViewModel.cs:182-183 | adding a colour's mask keeps the keys and masks paired |
| Outline.LayersOf | Assets/Scripts/Model/MainViewModel.cs:175-186 | the dictionary's keys are the visible colours in order of first appearance, each paired with its mask |
| Outline.CreateLines | Assets/Scripts/Model/MainViewModel.cs:170-189 | one mask per visible colour of the image, each colour once, in order of first appearance in the scan |
| Outline.TopIsLastVisible | Assets/Scripts/Model/MainViewModel.cs:251-261 | a combined pixel is the last layer's visible pixel there |
| Outline.TopOfInvisible | Assets/Scripts/Model/MainViewModel.cs:249-261 | where no layer is visible, the combined pixel is clear |
| Outline.LayOver | Assets/Scripts/Model/MainViewModel.cs:252-260 | writing one layer's visible pixels over the canvas adds that layer to the stack, and fails exactly when the layer has a visible pixel past the canvas's end |
| Outline.CombineTextures | Assets/Scripts/Model/MainViewModel.cs:243-267 | none for no layers; it fails exactly when the first layer has an empty side or some layer has a visible pixel past the end of the canvas (invisible extra pixels are ignored); otherwise it has the first layer's size and each pixel is the topmost visible layer pixel |
| Outline.DraftCombineResult | Assets/Scripts/Model/MainViewModel.cs:269-288 | a visible non-white line pixel shows, else a visible colour pixel, else clear; it fails exactly when the colour image has an empty side or a visible non-white line pixel lies past its end |
| Filters.InsertSorted | Assets/Scripts/Generate/ImageUtils.cs:98 | inserting into a list sorted by grayscale keeps it sorted |
| Filters.SortByGrayCorrect | Assets/Scripts/Generate/ImageUtils.cs:98 | the sort by grayscale is sorted and a permutation of its input |
| Filters.CountSort | Assets/Scripts/Generate/ImageUtils.cs:98 | sorting keeps how many colours are darker and lighter than a level |
| Filters.MedianRank | Assets/Scripts/Generate/ImageUtils.cs:95-100 | the median is a window colour with at most half the window darker and at most half lighter |
| Filters.Window | Assets/Scripts/Generate/ImageUtils.cs:113-125 | the window holds `(2*half+1)^2` samples, at least one |
| Filters.WindowNearby | Assets/Scripts/Generate/ImageUtils.cs:117-124 | every window sample is a pixel within `half` (Chebyshev) of the centre, clamped at the borders |
| Filters.FilteredIsNearby | Assets/Scripts/Generate/ImageUtils.cs:113-128 | each filtered pixel has the colour of some pixel within `half` of it |
| Filters.UniformWindow | Assets/Scripts/Generate/ImageUtils.cs:95-128 | a window of one colour has that colour as its median |
| Filters.MedianFilter | Assets/Scripts/Generate/ImageUtils.cs:86-139 | each pixel becomes its window's median, except from the row where a column's cancellation check fires, which stays clear; that cleared part is the discarded work buffer, since a cancelled run throws before `SetPixels` |
| Filters.RoundHalfEven | Assets/Scripts/Generate/ImageUtils.cs:198-203 | `Mathf.RoundToInt` is within one half of its argument, and halves go to the even integer |
| Filters.UpscaleSize | Assets/Scripts/Generate/ImageUtils.cs:190-206 | the strictly longer side takes the target, and the other side is the aspect-scaled target rounded; it fails for a zero height or a side that rounds to zero, and succeeds when the scaled side exceeds one half |
| Filters.SquareFollowsHeight | Assets/Scripts/Generate/ImageUtils.cs:192-204 | a square texture scales to the target height on both sides |
| Services.Get | Assets/Scripts/Core/ServiceLocator.cs:12-21 | succeeds exactly when the type's name is registered and the cast succeeds; a missing name gives the not-registered message |
| Services.Register | Assets/Scripts/Core/ServiceLocator.cs:23-33 | fails exactly when the name is taken, leaving the registry unchanged; otherwise it adds just that name, keeps every other entry and announces the type |
| Services.Unregister | Assets/Scripts/Core/ServiceLocator.cs:35-45 | fails exactly when the name is absent, leaving the registry unchanged; otherwise it removes just that name |
| Services.RegisterThenGet | Assets/Scripts/Core/ServiceLocator.cs:10-33 | a registered service is found and returned by `Get` of its type |
| Services.UnregisterUndoesRegister | Assets/Scripts/Core/ServiceLocator.cs:23-45 | registering and then unregistering a type restores the registry |
| Services.RegisterKeepsOthers | Assets/Scripts/Core/ServiceLocator.cs:23-33 | a registration does not change `Get` for any other name |
| Services.SameNameCollides | Assets/Scripts/Core/ServiceLocator.cs:10-33 | two types with the same simple name in different namespaces share a key: the second counts as registered, cannot be registered and fails its cast |
| Services.DuplicateKeepsFirst | Assets/Scripts/Core/ServiceLocator.cs:23-33 | a duplicate registration keeps the first service |

## Left out

- Unity's `Color ==` and `!=` compare with a small tolerance. The model compares colours exactly. This affects the flood fills, the outline mask tests against the target colour, and the `== Color.white` test of `DraftCombineResult`. `List.Contains`, `IndexOf` and `Dictionary` keys use `Color.Equals`, which is exact, so they are modelled as they are.
- Colour channels and the size fractions are exact reals, not 32-bit floats. Integer overflow of `int` sums and products is not modelled, except the coordinate sums of the mean fallback (see Findings).
- The `Parallel.For` loops are modelled as sequential loops in index order:
  - In k-means, the median filter and `DraftCombineResult`, every iteration writes its own slots.
  - In `CreateOutlinedTextureAsync`, the concurrent writes are white on target pixels and grey on non-target pixels, so they never conflict.
- Randomness is a parameter:
  - the k-means shuffle (`OrderBy(random.Next())`);
  - the jitters of `FindChunkCenter`;
  - the 20 sampled points of `GetRandom`.
- The font is a parameter. So is the bilinear resampling of the digit strip to the 10×10 stamp: the stamp reads the strip through a sampling function, and only the size computation of `UpscaleTexture` is modelled.
- Progress reporting (`UpdateOperation`), `Texture2D.Apply`, `CloneTexture`, the UniTask scheduling, and the views and UI are not modelled. Cancellation is the token's state at each check. The exception it raises in `RunOnThreadPool` is not modelled.
- `ApplyGaussianBlur` and the rest of `ImageUtils` outside the named helpers are not part of this model. The same goes for the commented-out k-means variants and the unused `WriteNumSmallParticles` and `WriteNumAsyncReplaceSmallParticles`.
- `Services.Register`: the `ServiceRegistered` event is modelled only as the type handed back on success. Casts model only exact runtime types and `null`; inheritance is left out.
- `Outline.LayersOf`: the keys come out in insertion order. `Dictionary.Values` enumerates in that order when nothing is removed, and the model relies on this.
- `Filters.MedianRank`: `Array.Sort` is not stable. The model sorts with one stable insertion sort, and the colour it picks at the middle is one of the colours Unity could pick. With equal grayscale values, the source may return a different colour of the same rank.
- `Filters.UpscaleSize`: the aspect ratio is computed in reals rather than in float. A rounding tie that float arithmetic would break differently is not modelled.
- `WriteNumber.NumberStrip`: where no strip exists it gives an empty texture. `LabelChunk` fails in that case before stamping, so the stand-in is never stamped.
- `WriteNumber.GenerateCombinedTexture`: a digit missing from the font makes `config.First` throw. The model assumes every digit has a glyph (`FontValid`).
- `Denoise.NearestLargeChunkColor`: the cut-off `x > sorted.Count * 0.1f` uses the exact tenth. The float value of `0.1f` gives the same comparison for the list sizes an image can have.
- Labels.FindChunkCenter: its mean fallback uses the exact mean (`Mean`), not the `int` sums the code accumulates. The wrapped version is `WrappedMean`, and the overflow is listed under Findings.

## Findings

| source | as written | input that shows it | evidently intended | confidence | as-written member | corrected member |
|---|---|---|---|---|---|---|
| Assets/Scripts/Generate/WriteNumber.cs:265-270 | `FirstOrDefault` over a list of `Color` structs returns `default(Color)` on a miss, and `clr == null` never holds for a struct. So a chunk with no similar palette colour is stamped with `IndexOf(default(Color)) + 1`, which is 0 when the palette lacks transparent black. `LabelChunk` then stamps the strip of that number (`StampOver`), where `LabelChunkIntended` returns the pixels unchanged. | palette `[white]` and an opaque black chunk: no entry is similar, so the stamp reads "0" | skip the stamp when no palette colour is similar | not executed | Labels.AsWrittenNumber, Labels.MissIsLabelledZero, WriteNumber.LabelChunk | Labels.LabelNumber, WriteNumber.LabelChunkIntended |
| Assets/Scripts/Generate/WriteNumber.cs:244-254 | the mean fallback sums the coordinates in C# `int`. On the app's 3500×3500 working size (`_defaultResolution`, Assets/Scripts/Model/MainViewModel.cs:34) a large chunk's x sum passes 2^31 and wraps, so the mean can land left of the image | the 3500×3500 image less its central 1000×1000 square, reached when neither the midpoint nor any jittered candidate is in the chunk: the x sum 19,681,875,000 wraps to -1,792,961,480, the centre becomes (-159, -159), outside the chunk's box, and the number is stamped off the image | sum in a 64-bit `long`, so the mean stays in the chunk's bounding box | not executed | Labels.WrappedMean, Labels.WrappedMeanLeavesBox, Labels.WholeImageChunkWraps | Labels.Mean, Labels.MeanInBox, Labels.FindChunkCenter |

In the app's own pipeline the palette passed to `WriteNumber` holds every chunk colour exactly, and a colour is similar to itself at tolerance 0.05, so the miss shows only when the palette and the quantised image do not come from the same run.

=== FILE: colors.dfy ===
/** Colour arithmetic of ImageUtils: squared RGB distance, channel-wise mean,
    the dominant-channel similarity test and Unity's grayscale weights.
    Unity's float channels are modelled as exact reals. */
module Colors {
  import opened Wrappers

  /** Unity's `Color`: red, green, blue and alpha channels. */
  datatype Color = Color(r: real, g: real, b: real, a: real)

  /** The three colour channels; alpha is never one of them. */
  datatype Channel = R | G | B

  function Get(c: Color, ch: Channel): real {
    match ch
    case R => c.r
    case G => c.g
    case B => c.b
  }

  /** `default(Color)`, which is also `Color.clear`: every channel zero. */
  const Clear: Color := Color(0.0, 0.0, 0.0, 0.0)

  /** `Color.white`. */
  const White: Color := Color(1.0, 1.0, 1.0, 1.0)

  /** `Color.grey`. */
  const Grey: Color := Color(0.5, 0.5, 0.5, 1.0)

  /** True when the two colours agree on red, green and blue (alpha aside). */
  predicate SameRgb(c1: Color, c2: Color) {
    c1.r == c2.r && c1.g == c2.g && c1.b == c2.b
  }

  function Abs(v: real): real {
    if v < 0.0 then -v else v
  }

  function Square(v: real): (s: real)
    ensures s >= 0.0
  {
    v * v
  }

  /** `ImageUtils.ColorDistance`: the sum of the squared red, green and blue
      differences. It never goes below zero and is zero for colours whose RGB
      parts agree, whatever their alpha channels hold. */
  function ColorDistance(c1: Color, c2: Color): (d: real)
    ensures d >= 0.0
    ensures SameRgb(c1, c2) ==> d == 0.0
  {
    Square(c1.r - c2.r) + Square(c1.g - c2.g) + Square(c1.b - c2.b)
  }

  lemma ColorDistanceSymmetric(c1: Color, c2: Color)
    ensures ColorDistance(c1, c2) == ColorDistance(c2, c1)
  {
    assert Square(c1.r - c2.r) == Square(c2.r - c1.r);
    assert Square(c1.g - c2.g) == Square(c2.g - c1.g);
    assert Square(c1.b - c2.b) == Square(c2.b - c1.b);
  }

  lemma ColorDistanceIgnoresAlpha(c1: Color, c2: Color, alpha: real)
    ensures ColorDistance(c1.(a := alpha), c2) == ColorDistance(c1, c2)
  {
  }

  /** The sum of one channel over a list of colours. */
  function Sum(cs: seq<Color>, ch: Channel): real
    decreases |cs|
  {
    if |cs| == 0 then 0.0 else Sum(cs[..|cs| - 1], ch) + Get(cs[|cs| - 1], ch)
  }

  /** `ImageUtils.AverageColor`: the channel-wise mean of red, green and blue.
      `new Color(r, g, b)` sets alpha to 1. LINQ's `Average` throws on an empty
      list; the model returns None there. */
  function AverageColor(cs: seq<Color>): (avg: Option<Color>)
    ensures avg.None? <==> |cs| == 0
    ensures avg.Some? ==> avg.value.a == 1.0
    ensures avg.Some? ==> forall ch :: Get(avg.value, ch) * (|cs| as real) == Sum(cs, ch)
  {
    if |cs| == 0 then None
    else
      var n := |cs| as real;
      Some(Color(Sum(cs, R) / n, Sum(cs, G) / n, Sum(cs, B) / n, 1.0))
  }

  lemma {:induction false} SumBounds(cs: seq<Color>, ch: Channel, lo: real, hi: real)
    requires forall i :: 0 <= i < |cs| ==> lo <= Get(cs[i], ch) <= hi
    ensures (|cs| as real) * lo <= Sum(cs, ch) <= (|cs| as real) * hi
    decreases |cs|
  {
    if |cs| > 0 {
      SumBounds(cs[..|cs| - 1], ch, lo, hi);
    }
  }

  /** The mean of a channel lies between the least and the greatest value that
      channel takes in the list. */
  lemma AverageWithinBounds(cs: seq<Color>, ch: Channel, lo: real, hi: real)
    requires |cs| > 0
    requires forall i :: 0 <= i < |cs| ==> lo <= Get(cs[i], ch) <= hi
    ensures lo <= Get(AverageColor(cs).value, ch) <= hi
  {
    SumBounds(cs, ch, lo, hi);
    var n := |cs| as real;
    var m := Get(AverageColor(cs).value, ch);
    assert m * n == Sum(cs, ch);
  }

  /** Averaging copies of one colour gives back its RGB with alpha 1. */
  lemma AverageOfConstant(cs: seq<Color>, c: Color)
    requires |cs| > 0
    requires forall i :: 0 <= i < |cs| ==> cs[i] == c
    ensures AverageColor(cs) == Some(c.(a := 1.0))
  {
    forall ch: Channel
      ensures Get(AverageColor(cs).value, ch) == Get(c, ch)
    {
      AverageWithinBounds(cs, ch, Get(c, ch), Get(c, ch));
    }
  }

  function Max3(x: real, y: real, z: real): (m: real)
    ensures m == x || m == y || m == z
    ensures x <= m && y <= m && z <= m
  {
    if x >= y && x >= z then x else if y >= z then y else z
  }

  /** The channel holding the colour's largest value; on a tie the first of red,
      green, blue wins. */
  function Dominant(c: Color): (ch: Channel)
    ensures forall k :: Get(c, k) <= Get(c, ch)
    ensures ch != R ==> c.r < Get(c, ch)
    ensures ch == B ==> c.g < c.b
  {
    if c.r >= c.g && c.r >= c.b then R else if c.g >= c.b then G else B
  }

  /** `ImageUtils.AreColorsSimilar`: only the first colour's dominant channel is
      compared, strictly below the tolerance. The last branch of the source,
      `return false`, is never taken: some channel always equals the maximum. */
  function AreColorsSimilar(color: Color, other: Color, tolerance: real): (similar: bool)
    ensures similar <==> Abs(Get(color, Dominant(color)) - Get(other, Dominant(color))) < tolerance
  {
    var dominate := Max3(color.g, color.b, color.r);
    if color.r == dominate then Abs(color.r - other.r) < tolerance
    else if color.g == dominate then Abs(color.g - other.g) < tolerance
    else if color.b == dominate then Abs(color.b - other.b) < tolerance
    else false
  }

  /** The similarity test is not symmetric: pure red is similar to a magenta
      whose red is 0.95, but that magenta, dominated by blue, is not similar
      to pure red. */
  lemma SimilarityIsAsymmetric()
    ensures AreColorsSimilar(Color(1.0, 0.0, 0.0, 1.0), Color(0.95, 0.0, 1.0, 1.0), 0.1)
    ensures !AreColorsSimilar(Color(0.95, 0.0, 1.0, 1.0), Color(1.0, 0.0, 0.0, 1.0), 0.1)
  {
  }

  /** Every colour is similar to itself exactly when the tolerance is positive. */
  lemma SimilarToItself(c: Color, tolerance: real)
    ensures AreColorsSimilar(c, c, tolerance) <==> tolerance > 0.0
  {
  }

  /** Unity's `Color.grayscale`. */
  function Grayscale(c: Color): real {
    0.299 * c.r + 0.587 * c.g + 0.114 * c.b
  }
}

=== FILE: denoise.dfy ===
/** Small-particle removal, `KAvarage.ReplaceSmallParticles`: every region
    smaller than a threshold is repainted with the colour of a nearby large
    region whose colour is similar, or keeps its own colour when none of the
    nearest few qualifies. The distance from a small region to a large one is
    sampled at random in the source; here it is a parameter. */
module Denoise {
  import opened Colors
  import opened Grid
  import opened Segmentation

  /** The order `OrderBy(Distance).ThenByDescending(Group.Count)` puts large
      chunks in: nearer first, then bigger first, then list order, because
      LINQ's sort is stable. */
  predicate Precedes(large: seq<Chunk<Color>>, dist: seq<real>, i: nat, j: nat) {
    && |dist| == |large| && i < |large| && j < |large|
    && (|| dist[i] < dist[j]
        || (dist[i] == dist[j] && |large[i].group| > |large[j].group|)
        || (dist[i] == dist[j] && |large[i].group| == |large[j].group| && i < j))
  }

  lemma PrecedesIsStrictTotal(large: seq<Chunk<Color>>, dist: seq<real>, i: nat, j: nat, k: nat)
    requires |dist| == |large| && i < |large| && j < |large| && k < |large|
    ensures !Precedes(large, dist, i, i)
    ensures Precedes(large, dist, i, j) ==> !Precedes(large, dist, j, i)
    ensures i != j ==> Precedes(large, dist, i, j) || Precedes(large, dist, j, i)
    ensures Precedes(large, dist, i, j) && Precedes(large, dist, j, k) ==> Precedes(large, dist, i, k)
  {
  }

  /** A list of chunk indices in strictly increasing `Precedes` order. */
  predicate Ranked(large: seq<Chunk<Color>>, dist: seq<real>, order: seq<nat>) {
    && (forall k :: 0 <= k < |order| ==> order[k] < |large|)
    && (forall k, l :: 0 <= k < l < |order| ==> Precedes(large, dist, order[k], order[l]))
  }

  /** The sorted list: every chunk index exactly once, in `Precedes` order. */
  predicate IsRanking(large: seq<Chunk<Color>>, dist: seq<real>, order: seq<nat>) {
    && Ranked(large, dist, order)
    && |order| == |large|
    && (forall j: nat :: j < |large| ==> j in order)
  }

  /** One insertion step of the sort. */
  function Insert(large: seq<Chunk<Color>>, dist: seq<real>, order: seq<nat>, i: nat): (r: seq<nat>)
    ensures |r| == |order| + 1
    decreases |order|
  {
    if |order| == 0 then [i]
    else if Precedes(large, dist, i, order[0]) then [i] + order
    else [order[0]] + Insert(large, dist, order[1..], i)
  }

  /** Inserting adds exactly the one index. */
  lemma {:induction false} InsertPermutes(large: seq<Chunk<Color>>, dist: seq<real>, order: seq<nat>, i: nat)
    ensures multiset(Insert(large, dist, order, i)) == multiset(order) + multiset{i}
    decreases |order|
  {
    if |order| > 0 && !Precedes(large, dist, i, order[0]) {
      InsertPermutes(large, dist, order[1..], i);
      assert order == [order[0]] + order[1..];
    }
  }

  /** Inserting a new index into a ranked list keeps it ranked. */
  lemma {:induction false} InsertRanked(large: seq<Chunk<Color>>, dist: seq<real>, order: seq<nat>, i: nat)
    requires |dist| == |large| && i < |large| && i !in order
    requires Ranked(large, dist, order)
    ensures Ranked(large, dist, Insert(large, dist, order, i))
    decreases |order|
  {
    if |order| == 0 {
    } else if Precedes(large, dist, i, order[0]) {
      assert forall l :: 0 <= l < |order| ==> Precedes(large, dist, i, order[l]) by {
        forall l | 0 < l < |order| {
          PrecedesIsStrictTotal(large, dist, i, order[0], order[l]);
        }
      }
    } else {
      var tail := Insert(large, dist, order[1..], i);
      assert order == [order[0]] + order[1..];
      InsertRanked(large, dist, order[1..], i);
      InsertPermutes(large, dist, order[1..], i);
      PrecedesIsStrictTotal(large, dist, i, order[0], i);
      assert forall l :: 0 <= l < |tail| ==> Precedes(large, dist, order[0], tail[l]) by {
        forall l | 0 <= l < |tail|
          ensures Precedes(large, dist, order[0], tail[l])
        {
          assert tail[l] in multiset(tail);
          if tail[l] != i {
            assert tail[l] in order[1..];
          }
        }
      }
    }
  }

  lemma AddedMember<T>(r: seq<T>, prev: seq<T>, x: T)
    requires multiset(r) == multiset(prev) + multiset{x}
    ensures forall j :: j in r <==> j in prev || j == x
  {
    forall j
      ensures j in r <==> j in prev || j == x
    {
      assert j in r <==> j in multiset(r);
      assert j in prev <==> j in multiset(prev);
    }
  }

  /** Inserting index m - 1 into a sort of the indices below m - 1 sorts the
      indices below m. */
  lemma InsertNext(large: seq<Chunk<Color>>, dist: seq<real>, prev: seq<nat>, m: nat) returns (r: seq<nat>)
    requires |dist| == |large| && 0 < m <= |large|
    requires Ranked(large, dist, prev) && |prev| == m - 1
    requires forall k :: 0 <= k < |prev| ==> prev[k] < m - 1
    requires forall j :: 0 <= j < m - 1 ==> j in prev
    ensures m - 1 !in prev && r == Insert(large, dist, prev, m - 1) && |r| == m
    ensures forall k :: 0 <= k < |r| ==> r[k] < m
    ensures forall j :: 0 <= j < m ==> j in r
  {
    assert m - 1 !in prev;
    r := Insert(large, dist, prev, m - 1);
    InsertPermutes(large, dist, prev, m - 1);
    AddedMember(r, prev, m - 1);
    assert |r| == m by {
      assert |multiset(r)| == |multiset(prev)| + 1;
    }
    forall k | 0 <= k < |r|
      ensures r[k] < m
    {
      assert r[k] in r;
    }
    forall j | 0 <= j < m
      ensures j in r
    {
      if j < m - 1 {
        assert j in prev;
      }
    }
  }

  /** Insertion sort of the indices below m. */
  function RankBelow(large: seq<Chunk<Color>>, dist: seq<real>, m: nat): (r: seq<nat>)
    requires |dist| == |large| && m <= |large|
    ensures Ranked(large, dist, r) && |r| == m
    ensures forall k :: 0 <= k < |r| ==> r[k] < m
    ensures forall j :: 0 <= j < m ==> j in r
  {
    if m == 0 then []
    else
      var prev := RankBelow(large, dist, m - 1);
      assert m - 1 !in prev by {
        var r' := InsertNext(large, dist, prev, m);
      }
      var r := Insert(large, dist, prev, m - 1);
      InsertRanked(large, dist, prev, m - 1);
      assert |r| == m && (forall k :: 0 <= k < |r| ==> r[k] < m) && (forall j :: 0 <= j < m ==> j in r) by {
        var r' := InsertNext(large, dist, prev, m);
      }
      r
  }

  /** The sorted list of large-chunk indices. */
  function Rank(large: seq<Chunk<Color>>, dist: seq<real>): (order: seq<nat>)
    requires |dist| == |large|
    ensures IsRanking(large, dist, order)
  {
    RankBelow(large, dist, |large|)
  }

  lemma BothEmptyOrNeither(a: seq<nat>, b: seq<nat>)
    requires forall j: nat :: j in a <==> j in b
    ensures |a| == 0 <==> |b| == 0
  {
    if |a| > 0 {
      assert a[0] in a;
    }
    if |b| > 0 {
      assert b[0] in b;
    }
  }

  /** Sorting by a strict total order has exactly one answer: any ranking is
      the one `Rank` computes. */
  lemma {:induction false} RankingUnique(large: seq<Chunk<Color>>, dist: seq<real>, a: seq<nat>, b: seq<nat>)
    requires Ranked(large, dist, a) && Ranked(large, dist, b)
    requires forall j: nat :: j in a <==> j in b
    ensures a == b
    decreases |a|
  {
    BothEmptyOrNeither(a, b);
    if |a| > 0 {
      assert a[0] == b[0] by {
        assert a[0] in a && b[0] in b;
        var i :| 0 <= i < |b| && b[i] == a[0];
        var j :| 0 <= j < |a| && a[j] == b[0];
        if i > 0 && j > 0 {
          assert false;
        }
      }
      forall j: nat
        ensures j in a[1..] <==> j in b[1..]
      {
        if j in a[1..] {
          var k :| 1 <= k < |a| && a[k] == j;
          PrecedesIsStrictTotal(large, dist, j, j, j);
          assert j in a;
          var i :| 0 <= i < |b| && b[i] == j;
          assert b[1..][i - 1] == j;
        }
        if j in b[1..] {
          var k :| 1 <= k < |b| && b[k] == j;
          PrecedesIsStrictTotal(large, dist, j, j, j);
          assert j in b;
          var i :| 0 <= i < |a| && a[i] == j;
          assert a[1..][i - 1] == j;
        }
      }
      RankingUnique(large, dist, a[1..], b[1..]);
    }
  }

  /** How many of the sorted chunks are looked at: the loop stops after
      position x once x > 0.1 * n, so positions 0 .. n/10 + 1 at most. */
  function Limit(n: nat): (lim: nat)
    ensures lim <= n
    ensures lim == n || 10 * (lim - 1) > n
    ensures forall x: nat :: x + 1 < lim ==> 10 * x <= n
  {
    if n / 10 + 2 < n then n / 10 + 2 else n
  }

  /** The chunk at sorted position k passes the similarity test. */
  predicate Accepts(smallColor: Color, large: seq<Chunk<Color>>, order: seq<nat>, tolerance: real, k: nat)
    requires k < |order| && order[k] < |large|
  {
    AreColorsSimilar(smallColor, large[order[k]].color, tolerance)
  }

  /** The loop of `FindNearestLargeChunkColor` from sorted position x on. */
  function ScanRanked(smallColor: Color, large: seq<Chunk<Color>>, order: seq<nat>, tolerance: real, x: nat): (c: Color)
    requires forall k :: 0 <= k < |order| ==> order[k] < |large|
    requires x < Limit(|order|) || x == |order|
    ensures (forall k :: x <= k < Limit(|order|) ==> !Accepts(smallColor, large, order, tolerance, k)) ==> c == smallColor
    ensures forall k :: (x <= k < Limit(|order|) && Accepts(smallColor, large, order, tolerance, k)
                         && forall l :: x <= l < k ==> !Accepts(smallColor, large, order, tolerance, l))
                         ==> c == large[order[k]].color
    ensures c == smallColor || exists k :: x <= k < |order| && c == large[order[k]].color && Accepts(smallColor, large, order, tolerance, k)
    decreases |order| - x
  {
    if x >= |order| then smallColor
    else if AreColorsSimilar(smallColor, large[order[x]].color, tolerance) then
      assert Accepts(smallColor, large, order, tolerance, x);
      large[order[x]].color
    else if 10 * x > |order| then smallColor
    else ScanRanked(smallColor, large, order, tolerance, x + 1)
  }

  /** `FindNearestLargeChunkColor`: the first chunk, in the sorted order, whose
      colour is similar to the small chunk's, among the first `Limit` of them;
      the small chunk's own colour when there is none. */
  function NearestLargeChunkColor(smallColor: Color, large: seq<Chunk<Color>>, dist: seq<real>, tolerance: real): (c: Color)
    requires |dist| == |large|
    ensures c == smallColor || exists j :: 0 <= j < |large| && c == large[j].color && AreColorsSimilar(smallColor, c, tolerance)
  {
    ScanRanked(smallColor, large, Rank(large, dist), tolerance, 0)
  }

  /** Whatever sorted list the chunks are put in, the colour chosen is that of
      the first similar chunk within the looked-at prefix. */
  lemma NearestIsFirstSimilar(smallColor: Color, large: seq<Chunk<Color>>, dist: seq<real>, tolerance: real,
                              order: seq<nat>, k: nat)
    requires |dist| == |large| && IsRanking(large, dist, order)
    requires k < Limit(|large|) && Accepts(smallColor, large, order, tolerance, k)
    requires forall l :: 0 <= l < k ==> !Accepts(smallColor, large, order, tolerance, l)
    ensures NearestLargeChunkColor(smallColor, large, dist, tolerance) == large[order[k]].color
  {
    RankingUnique(large, dist, order, Rank(large, dist));
  }

  /** When none of the looked-at chunks is similar, the small chunk keeps its
      own colour. */
  lemma NearestDefaultsToOwnColor(smallColor: Color, large: seq<Chunk<Color>>, dist: seq<real>, tolerance: real,
                                  order: seq<nat>)
    requires |dist| == |large| && IsRanking(large, dist, order)
    requires forall k :: 0 <= k < Limit(|large|) ==> !Accepts(smallColor, large, order, tolerance, k)
    ensures NearestLargeChunkColor(smallColor, large, dist, tolerance) == smallColor
  {
    RankingUnique(large, dist, order, Rank(large, dist));
  }

  /** The distances sampled for small chunk i, one per large chunk. */
  function Distances(dist: (nat, nat) -> real, i: nat, n: nat): (ds: seq<real>)
    ensures |ds| == n && forall j :: 0 <= j < n ==> ds[j] == dist(i, j)
  {
    seq(n, j requires 0 <= j < n => dist(i, j))
  }

  /** Writes one colour over every pixel of a group. */
  method Paint(img: Image<Color>, group: seq<Pos>, color: Color) returns (out: Image<Color>)
    requires img.Valid()
    requires forall p :: p in group ==> img.Contains(p)
    ensures out.width == img.width && out.height == img.height && out.Valid()
    ensures forall p :: img.Contains(p) ==> At(out, p) == if p in group then color else At(img, p)
  {
    out := img;
    var k := 0;
    while k < |group|
      invariant 0 <= k <= |group|
      invariant out.width == img.width && out.height == img.height && out.Valid()
      invariant forall p :: img.Contains(p) ==> At(out, p) == if p in group[..k] then color else At(img, p)
    {
      var q := group[k];
      assert q in group;
      IdxInRange(img.width, img.height, q);
      var before := out;
      out := out.(pixels := out.pixels[Idx(img.width, q) := color]);
      forall p | img.Contains(p)
        ensures At(out, p) == if p in group[..k + 1] then color else At(img, p)
      {
        assert group[..k + 1] == group[..k] + [q];
        if p != q {
          IdxInRange(img.width, img.height, p);
          if Idx(img.width, p) == Idx(img.width, q) {
            IdxInjective(img.width, p, q);
          }
          assert At(out, p) == At(before, p);
        }
      }
      k := k + 1;
    }
    assert group[..k] == group;
  }

  /** The colour small chunk i is repainted with. */
  function Recolor(small: seq<Chunk<Color>>, large: seq<Chunk<Color>>, dist: (nat, nat) -> real, tolerance: real, i: nat): Color
    requires i < |small|
  {
    NearestLargeChunkColor(small[i].color, large, Distances(dist, i, |large|), tolerance)
  }

  /** The first `done` small chunks carry their new colour and every other
      pixel is as before. */
  ghost predicate Repainted(img: Image<Color>, out: Image<Color>, small: seq<Chunk<Color>>, large: seq<Chunk<Color>>,
                            dist: (nat, nat) -> real, tolerance: real, done: nat)
    requires img.Valid() && out.Valid() && out.width == img.width && out.height == img.height
  {
    && done <= |small|
    && (forall i, p :: 0 <= i < done && p in small[i].group && img.Contains(p) ==>
          At(out, p) == Recolor(small, large, dist, tolerance, i))
    && (forall p :: img.Contains(p) && (forall i :: 0 <= i < done ==> p !in small[i].group) ==> At(out, p) == At(img, p))
  }

  /** The segmentation and split of `AsyncReplaceSmallParticles`: chunks with
      fewer than `minSize` pixels are small, the rest large, and together they
      partition the image. Both lists keep the scan's row-major order of
      first pixels. */
  method SplitBySize(img: Image<Color>, minSize: int) returns (small: seq<Chunk<Color>>, large: seq<Chunk<Color>>)
    requires img.Valid()
    ensures forall i :: 0 <= i < |small| ==> IsRegion(img, small[i]) && |small[i].group| < minSize
    ensures forall i :: 0 <= i < |large| ==> IsRegion(img, large[i]) && |large[i].group| >= minSize
    ensures Disjoint(small) && Disjoint(large) && Apart(small, large)
    ensures SeedsOrdered(small) && SeedsFirst(small) && SeedsOrdered(large) && SeedsFirst(large)
    ensures forall p :: img.Contains(p) ==>
      (exists i :: 0 <= i < |small| && p in small[i].group) || (exists i :: 0 <= i < |large| && p in large[i].group)
  {
    var chunks := Segment(img);
    var split := Classify(chunks, minSize);
    ClassifyKeepsDisjoint(chunks, minSize);
    ClassifyKeepsOrder(chunks, minSize);
    ClassifySizes(chunks, minSize);
    ClassifyMembers(chunks, minSize);
    small, large := split.0, split.1;
    forall i | 0 <= i < |small|
      ensures IsRegion(img, small[i])
    {
      assert small[i] in small;
    }
    forall i | 0 <= i < |large|
      ensures IsRegion(img, large[i])
    {
      assert large[i] in large;
    }
    forall p | img.Contains(p)
      ensures (exists i :: 0 <= i < |small| && p in small[i].group) || (exists i :: 0 <= i < |large| && p in large[i].group)
    {
      var k :| 0 <= k < |chunks| && p in chunks[k].group;
      assert chunks[k] in chunks;
      if chunks[k] in small {
        var i :| 0 <= i < |small| && small[i] == chunks[k];
      } else {
        var i :| 0 <= i < |large| && large[i] == chunks[k];
      }
    }
  }

  /** Painting small chunk i over the first i repainted ones repaints i + 1. */
  lemma RepaintStep(img: Image<Color>, before: Image<Color>, out: Image<Color>, small: seq<Chunk<Color>>,
                    large: seq<Chunk<Color>>, dist: (nat, nat) -> real, tolerance: real, i: nat)
    requires img.Valid() && before.Valid() && before.width == img.width && before.height == img.height
    requires out.Valid() && out.width == img.width && out.height == img.height
    requires i < |small| && Disjoint(small)
    requires Repainted(img, before, small, large, dist, tolerance, i)
    requires forall p :: img.Contains(p) ==>
      At(out, p) == if p in small[i].group then Recolor(small, large, dist, tolerance, i) else At(before, p)
    ensures Repainted(img, out, small, large, dist, tolerance, i + 1)
  {
    forall j, p | 0 <= j < i && p in small[j].group && img.Contains(p)
      ensures At(out, p) == Recolor(small, large, dist, tolerance, j)
    {
      assert p !in small[i].group;
    }
  }

  /** The repaint loop of `AsyncReplaceSmallParticles`: small chunks in order,
      each painted with its nearest similar large colour; the loop returns
      after the chunk at which cancellation is observed. */
  method RepaintSmall(img: Image<Color>, small: seq<Chunk<Color>>, large: seq<Chunk<Color>>, tolerance: real,
                      dist: (nat, nat) -> real, cancelled: nat -> bool)
    returns (out: Image<Color>, done: nat)
    requires img.Valid() && Disjoint(small)
    requires forall i, p :: 0 <= i < |small| && p in small[i].group ==> img.Contains(p)
    ensures out.width == img.width && out.height == img.height && out.Valid()
    ensures Repainted(img, out, small, large, dist, tolerance, done)
    ensures done == |small| || (done > 0 && cancelled(done - 1))
    ensures forall i :: 0 <= i < done - 1 ==> !cancelled(i)
  {
    out := img;
    var i := 0;
    done := |small|;
    while i < |small|
      invariant 0 <= i <= |small|
      invariant out.width == img.width && out.height == img.height && out.Valid()
      invariant forall j :: 0 <= j < i ==> !cancelled(j)
      invariant Repainted(img, out, small, large, dist, tolerance, i)
    {
      var nearest := Recolor(small, large, dist, tolerance, i);
      forall p | p in small[i].group
        ensures out.Contains(p)
      {
        assert img.Contains(p);
      }
      var before := out;
      out := Paint(out, small[i].group, nearest);
      RepaintStep(img, before, out, small, large, dist, tolerance, i);
      if cancelled(i) {
        done := i + 1;
        return;
      }
      i := i + 1;
    }
  }

  /** The outcome of one small-particle pass: the cleaned image, the small
      and large chunks it split the input into, and how many small chunks it
      repainted before cancellation was seen. */
  datatype Cleaning = Cleaning(out: Image<Color>, small: seq<Chunk<Color>>, large: seq<Chunk<Color>>, done: nat)

  /** What `ReplaceSmallParticles(img, scale, tolerance)` leaves: the image
      segmented at the truncated threshold and split in scan order into
      `small` and `large`, and the first `done` small chunks, up to the first
      cancellation, repainted into `out`. */
  ghost predicate Cleaned(img: Image<Color>, out: Image<Color>, small: seq<Chunk<Color>>, large: seq<Chunk<Color>>, done: nat,
                          scale: real, tolerance: real, dist: (nat, nat) -> real, cancelled: nat -> bool)
    requires img.Valid()
  {
    && out.width == img.width && out.height == img.height && out.Valid()
    && (forall i :: 0 <= i < |small| ==> IsRegion(img, small[i]) && |small[i].group| < MinSize(scale, img.width, img.height))
    && (forall i :: 0 <= i < |large| ==> IsRegion(img, large[i]) && |large[i].group| >= MinSize(scale, img.width, img.height))
    && Disjoint(small) && Disjoint(large) && Apart(small, large)
    && SeedsOrdered(small) && SeedsFirst(small) && SeedsOrdered(large) && SeedsFirst(large)
    && (forall p :: img.Contains(p) ==>
          (exists i :: 0 <= i < |small| && p in small[i].group) || (exists i :: 0 <= i < |large| && p in large[i].group))
    && (done == |small| || (done > 0 && cancelled(done - 1)))
    && (forall i :: 0 <= i < done - 1 ==> !cancelled(i))
    && Repainted(img, out, small, large, dist, tolerance, done)
  }

  /** `ReplaceSmallParticles` with `AsyncReplaceSmallParticles`: segment, split
      at the truncated size threshold `(int)(scale * width * height)`, then
      repaint the small chunks. `dist(i, j)` is the sampled distance from small
      chunk i to large chunk j; `cancelled(i)` is the token's state after small
      chunk i. */
  method ReplaceSmallParticles(img: Image<Color>, scale: real, tolerance: real,
                               dist: (nat, nat) -> real, cancelled: nat -> bool)
    returns (out: Image<Color>, small: seq<Chunk<Color>>, large: seq<Chunk<Color>>, done: nat)
    requires img.Valid()
    ensures out.width == img.width && out.height == img.height && out.Valid()
    ensures forall i :: 0 <= i < |small| ==> IsRegion(img, small[i]) && |small[i].group| < MinSize(scale, img.width, img.height)
    ensures forall i :: 0 <= i < |large| ==> IsRegion(img, large[i]) && |large[i].group| >= MinSize(scale, img.width, img.height)
    ensures Disjoint(small) && Disjoint(large) && Apart(small, large)
    ensures SeedsOrdered(small) && SeedsFirst(small) && SeedsOrdered(large) && SeedsFirst(large)
    ensures forall p :: img.Contains(p) ==>
      (exists i :: 0 <= i < |small| && p in small[i].group) || (exists i :: 0 <= i < |large| && p in large[i].group)
    ensures done == |small| || (done > 0 && cancelled(done - 1))
    ensures forall i :: 0 <= i < done - 1 ==> !cancelled(i)
    ensures Repainted(img, out, small, large, dist, tolerance, done)
  {
    small, large := SplitBySize(img, MinSize(scale, img.width, img.height));
    out, done := RepaintSmall(img, small, large, tolerance, dist, cancelled);
  }

  /** Small-particle removal invents no colour: every output pixel has the
      colour of some input pixel. */
  lemma ReplaceKeepsColors(img: Image<Color>, out: Image<Color>, small: seq<Chunk<Color>>, large: seq<Chunk<Color>>,
                           done: nat, tolerance: real, dist: (nat, nat) -> real)
    requires img.Valid() && out.Valid() && out.width == img.width && out.height == img.height
    requires forall i :: 0 <= i < |small| ==> IsRegion(img, small[i])
    requires forall i :: 0 <= i < |large| ==> IsRegion(img, large[i])
    requires Repainted(img, out, small, large, dist, tolerance, done)
    ensures forall p :: img.Contains(p) ==> exists q :: img.Contains(q) && At(out, p) == At(img, q)
  {
    forall p | img.Contains(p)
      ensures exists q :: img.Contains(q) && At(out, p) == At(img, q)
    {
      if i :| 0 <= i < done && p in small[i].group {
        var c := Recolor(small, large, dist, tolerance, i);
        if c == small[i].color {
          assert At(img, small[i].group[0]) == c;
        } else {
          var j :| 0 <= j < |large| && c == large[j].color && AreColorsSimilar(small[i].color, c, tolerance);
          assert At(img, large[j].group[0]) == c;
        }
      } else {
        assert At(out, p) == At(img, p);
      }
    }
  }
}

=== FILE: filters.dfy ===
/** `ImageUtils`' median filter and the size computation of its upscale.
    The filter replaces each pixel by the median, by grayscale, of the
    square window around it; window coordinates are clamped into the
    texture. */
module Filters {
  import opened Wrappers
  import opened Colors
  import opened Grid
  import opened Labels

  /* ---------- Ordering by grayscale ---------- */

  predicate SortedByGray(t: seq<Color>) {
    forall i, j :: 0 <= i < j < |t| ==> Grayscale(t[i]) <= Grayscale(t[j])
  }

  /** One insertion step: `c` goes before the first element at least as
      bright. */
  function InsertByGray(t: seq<Color>, c: Color): (r: seq<Color>)
    ensures |r| == |t| + 1
    decreases |t|
  {
    if |t| == 0 then [c]
    else if Grayscale(c) <= Grayscale(t[0]) then [c] + t
    else [t[0]] + InsertByGray(t[1..], c)
  }

  lemma {:induction false} InsertPermutes(t: seq<Color>, c: Color)
    ensures multiset(InsertByGray(t, c)) == multiset(t) + multiset{c}
    decreases |t|
  {
    if |t| > 0 && Grayscale(c) > Grayscale(t[0]) {
      InsertPermutes(t[1..], c);
      assert t == [t[0]] + t[1..];
    }
  }

  lemma {:induction false} InsertSorted(t: seq<Color>, c: Color)
    requires SortedByGray(t)
    ensures SortedByGray(InsertByGray(t, c))
    decreases |t|
  {
    if |t| > 0 && Grayscale(c) > Grayscale(t[0]) {
      var rest := InsertByGray(t[1..], c);
      InsertSorted(t[1..], c);
      InsertPermutes(t[1..], c);
      forall k | 0 <= k < |rest|
        ensures Grayscale(t[0]) <= Grayscale(rest[k])
      {
        assert rest[k] in multiset(rest);
        if rest[k] != c {
          assert rest[k] in multiset(t[1..]);
          var j :| 0 <= j < |t[1..]| && t[1..][j] == rest[k];
          assert t[j + 1] == rest[k];
        }
      }
    }
  }

  /** The sort of `FindMedianColor`, as an insertion sort by grayscale. */
  function SortByGray(s: seq<Color>): (t: seq<Color>)
    ensures |t| == |s|
    decreases |s|
  {
    if |s| == 0 then [] else InsertByGray(SortByGray(s[..|s| - 1]), s[|s| - 1])
  }

  /** The sort orders by grayscale and only rearranges. */
  lemma {:induction false} SortByGrayCorrect(s: seq<Color>)
    ensures SortedByGray(SortByGray(s))
    ensures multiset(SortByGray(s)) == multiset(s)
    decreases |s|
  {
    if |s| > 0 {
      var init := s[..|s| - 1];
      SortByGrayCorrect(init);
      InsertSorted(SortByGray(init), s[|s| - 1]);
      InsertPermutes(SortByGray(init), s[|s| - 1]);
      assert s == init + [s[|s| - 1]];
    }
  }

  /* ---------- Counting by grayscale ---------- */

  /** How many colours are darker than g. */
  function CountBelow(s: seq<Color>, g: real): (n: nat)
    ensures n <= |s|
    decreases |s|
  {
    if |s| == 0 then 0 else (if Grayscale(s[0]) < g then 1 else 0) + CountBelow(s[1..], g)
  }

  /** How many colours are brighter than g. */
  function CountAbove(s: seq<Color>, g: real): (n: nat)
    ensures n <= |s|
    decreases |s|
  {
    if |s| == 0 then 0 else (if Grayscale(s[0]) > g then 1 else 0) + CountAbove(s[1..], g)
  }

  lemma {:induction false} CountAppend(a: seq<Color>, b: seq<Color>, g: real)
    ensures CountBelow(a + b, g) == CountBelow(a, g) + CountBelow(b, g)
    ensures CountAbove(a + b, g) == CountAbove(a, g) + CountAbove(b, g)
    decreases |a|
  {
    if |a| > 0 {
      CountAppend(a[1..], b, g);
      assert (a + b)[0] == a[0] && (a + b)[1..] == a[1..] + b;
      assert CountBelow(a + b, g) == (if Grayscale(a[0]) < g then 1 else 0) + CountBelow(a[1..] + b, g);
      assert CountAbove(a + b, g) == (if Grayscale(a[0]) > g then 1 else 0) + CountAbove(a[1..] + b, g);
    } else {
      assert a + b == b;
    }
  }

  lemma {:induction false} CountInsert(t: seq<Color>, c: Color, g: real)
    ensures CountBelow(InsertByGray(t, c), g) == CountBelow(t, g) + (if Grayscale(c) < g then 1 else 0)
    ensures CountAbove(InsertByGray(t, c), g) == CountAbove(t, g) + (if Grayscale(c) > g then 1 else 0)
    decreases |t|
  {
    if |t| > 0 {
      if Grayscale(c) <= Grayscale(t[0]) {
        assert ([c] + t)[1..] == t;
      } else {
        CountInsert(t[1..], c, g);
        assert ([t[0]] + InsertByGray(t[1..], c))[1..] == InsertByGray(t[1..], c);
      }
    }
  }

  /** Sorting keeps the counts. */
  lemma {:induction false} CountSort(s: seq<Color>, g: real)
    ensures CountBelow(SortByGray(s), g) == CountBelow(s, g)
    ensures CountAbove(SortByGray(s), g) == CountAbove(s, g)
    decreases |s|
  {
    if |s| > 0 {
      var init := s[..|s| - 1];
      CountSort(init, g);
      CountInsert(SortByGray(init), s[|s| - 1], g);
      CountAppend(init, [s[|s| - 1]], g);
      assert s == init + [s[|s| - 1]];
    }
  }

  lemma {:induction false} NoneBelow(s: seq<Color>, g: real)
    requires forall i :: 0 <= i < |s| ==> g <= Grayscale(s[i])
    ensures CountBelow(s, g) == 0
    decreases |s|
  {
    if |s| > 0 {
      NoneBelow(s[1..], g);
    }
  }

  lemma {:induction false} NoneAbove(s: seq<Color>, g: real)
    requires forall i :: 0 <= i < |s| ==> Grayscale(s[i]) <= g
    ensures CountAbove(s, g) == 0
    decreases |s|
  {
    if |s| > 0 {
      NoneAbove(s[1..], g);
    }
  }

  /* ---------- The median ---------- */

  /** `FindMedianColor`: the middle element, index length / 2, of the
      colours sorted by grayscale. */
  function Median(w: seq<Color>): Color
    requires |w| > 0
  {
    SortByGray(w)[|w| / 2]
  }

  /** In a sorted list at most m colours are darker than entry m. */
  lemma SortedBelow(t: seq<Color>, m: int)
    requires SortedByGray(t) && 0 <= m < |t|
    ensures CountBelow(t, Grayscale(t[m])) <= m
  {
    var g := Grayscale(t[m]);
    var hi := t[m..];
    assert CountBelow(hi, g) == 0 by {
      forall i | 0 <= i < |hi|
        ensures g <= Grayscale(hi[i])
      {
        assert hi[i] == t[m + i];
      }
      NoneBelow(hi, g);
    }
    assert CountBelow(t, g) == CountBelow(t[..m], g) + CountBelow(hi, g) by {
      assert t == t[..m] + hi;
      CountAppend(t[..m], hi, g);
    }
  }

  /** In a sorted list at most |t| - 1 - m colours are brighter than entry m. */
  lemma SortedAbove(t: seq<Color>, m: int)
    requires SortedByGray(t) && 0 <= m < |t|
    ensures CountAbove(t, Grayscale(t[m])) <= |t| - 1 - m
  {
    var g := Grayscale(t[m]);
    var lo := t[..m + 1];
    assert CountAbove(lo, g) == 0 by {
      forall i | 0 <= i < |lo|
        ensures Grayscale(lo[i]) <= g
      {
        assert lo[i] == t[i];
      }
      NoneAbove(lo, g);
    }
    assert CountAbove(t, g) == CountAbove(lo, g) + CountAbove(t[m + 1..], g) by {
      assert t == lo + t[m + 1..];
      CountAppend(lo, t[m + 1..], g);
    }
  }

  /** The median is one of the window's colours, at most half of them
      (length / 2) are darker and the others are at most as many as the
      rest. This holds whatever order the sort gives colours of equal
      grayscale. */
  lemma MedianRank(w: seq<Color>)
    requires |w| > 0
    ensures Median(w) in w
    ensures CountBelow(w, Grayscale(Median(w))) <= |w| / 2
    ensures CountAbove(w, Grayscale(Median(w))) <= |w| - 1 - |w| / 2
  {
    var t := SortByGray(w);
    SortByGrayCorrect(w);
    assert t[|w| / 2] in multiset(w);
    CountSort(w, Grayscale(t[|w| / 2]));
    SortedBelow(t, |w| / 2);
    SortedAbove(t, |w| / 2);
  }

  /* ---------- The window ---------- */

  /** `size / 2`, truncated toward zero as C# does. */
  function HalfSize(size: int): int {
    TruncDiv(size, 2)
  }

  /** The pixel at (x + dx, y + dy), coordinates clamped into the texture. */
  function Sample(img: Image<Color>, x: int, y: int, dx: int, dy: int): Color
    requires img.Valid() && img.width > 0 && img.height > 0
  {
    At(img, Pos(Clamp(x + dx, 0, img.width - 1), Clamp(y + dy, 0, img.height - 1)))
  }

  /** The `(2*half + 1)^2` samples around (x, y), dx outer and dy inner. With
      a negative half the loops run zero times and the array keeps its
      default transparent entries. */
  function Window(img: Image<Color>, x: int, y: int, half: int): (w: seq<Color>)
    requires img.Valid() && img.Contains(Pos(x, y))
    ensures |w| == (2 * half + 1) * (2 * half + 1) > 0
  {
    var n := 2 * half + 1;
    assert n * n > 0 by {
      if n < 0 {
        MulMonotone(1, -n, -n);
      } else {
        MulMonotone(1, n, n);
      }
    }
    if half < 0 then seq(n * n, _ => Clear)
    else seq(n * n, i requires 0 <= i < n * n => Sample(img, x, y, i / n - half, i % n - half))
  }

  /** With a non-negative half every sample is a pixel of the texture
      within `half` columns and rows of (x, y). */
  lemma WindowNearby(img: Image<Color>, x: int, y: int, half: int, i: int)
    requires img.Valid() && img.Contains(Pos(x, y)) && half >= 0
    requires 0 <= i < |Window(img, x, y, half)|
    ensures exists q :: img.Contains(q) && Chebyshev(Pos(x, y), q) <= half && Window(img, x, y, half)[i] == At(img, q)
  {
    var n := 2 * half + 1;
    ColumnPosInRange(n, n, i);
    var dx, dy := i / n - half, i % n - half;
    var q := Pos(Clamp(x + dx, 0, img.width - 1), Clamp(y + dy, 0, img.height - 1));
    assert img.Contains(q) && Chebyshev(Pos(x, y), q) <= half;
  }

  /** A filtered pixel is the colour of a pixel near it. */
  lemma FilteredIsNearby(img: Image<Color>, p: Pos, half: int)
    requires img.Valid() && img.Contains(p) && half >= 0
    ensures exists q :: img.Contains(q) && Chebyshev(p, q) <= half && Median(Window(img, p.x, p.y, half)) == At(img, q)
  {
    var w := Window(img, p.x, p.y, half);
    MedianRank(w);
    var i :| 0 <= i < |w| && w[i] == Median(w);
    WindowNearby(img, p.x, p.y, half, i);
  }

  /** A window without other colours filters to its own colour. */
  lemma UniformWindow(img: Image<Color>, p: Pos, half: int, c: Color)
    requires img.Valid() && img.Contains(p)
    requires forall i :: 0 <= i < |Window(img, p.x, p.y, half)| ==> Window(img, p.x, p.y, half)[i] == c
    ensures Median(Window(img, p.x, p.y, half)) == c
  {
    MedianRank(Window(img, p.x, p.y, half));
  }

  /* ---------- The filter ---------- */

  /** Column x stopped at or before row y: the cancellation check that
      breaks out of a column's loop fired there. */
  ghost predicate Stopped(cancelled: (int, int) -> bool, p: Pos) {
    exists y :: 0 <= y <= p.y && cancelled(p.x, y)
  }

  /** What `ApplyMedianFilterAsync` writes at p. */
  ghost function Filtered(img: Image<Color>, size: int, cancelled: (int, int) -> bool, p: Pos): Color
    requires img.Valid() && img.Contains(p)
  {
    if Stopped(cancelled, p) then Clear else Median(Window(img, p.x, p.y, HalfSize(size)))
  }

  /** `ApplyMedianFilterAsync`: each pixel becomes the median of its window.
      A column whose cancellation check fires keeps transparent pixels from
      that row on. That partial buffer is what the loop leaves behind, not a
      visible texture: a cancelled token makes the awaited thread-pool task
      throw before `SetPixels`, so the texture keeps its old pixels. */
  method MedianFilter(img: Image<Color>, size: int, cancelled: (int, int) -> bool) returns (out: Image<Color>)
    requires img.Valid()
    ensures out.width == img.width && out.height == img.height && out.Valid()
    ensures forall p :: img.Contains(p) ==> At(out, p) == Filtered(img, size, cancelled, p)
  {
    var half := HalfSize(size);
    out := Image(img.width, img.height, seq(img.width * img.height, _ => Clear));
    forall p | img.Contains(p)
      ensures At(out, p) == Clear
    {
      IdxInRange(img.width, img.height, p);
    }
    var x := 0;
    while x < img.width
      invariant 0 <= x <= img.width
      invariant out.width == img.width && out.height == img.height && out.Valid()
      invariant forall p :: img.Contains(p) ==>
        At(out, p) == (if p.x < x then Filtered(img, size, cancelled, p) else Clear)
    {
      var y := 0;
      while y < img.height && !cancelled(x, y)
        invariant 0 <= y <= img.height
        invariant forall r :: 0 <= r < y ==> !cancelled(x, r)
        invariant out.width == img.width && out.height == img.height && out.Valid()
        invariant forall p :: img.Contains(p) ==>
          At(out, p) == (if p.x < x || (p.x == x && p.y < y) then Filtered(img, size, cancelled, p) else Clear)
      {
        var median := Median(Window(img, x, y, half));
        assert !Stopped(cancelled, Pos(x, y));
        out := Put(out, Pos(x, y), median);
        y := y + 1;
      }
      forall p | img.Contains(p) && p.x == x && p.y >= y
        ensures Filtered(img, size, cancelled, p) == Clear
      {
        assert cancelled(x, y);
      }
      x := x + 1;
    }
  }

  /* ---------- Upscale size ---------- */

  /** `Mathf.RoundToInt`: to the nearest integer, halves to the even one. */
  function RoundHalfEven(v: real): (n: int)
    ensures -0.5 <= v - n as real <= 0.5
    ensures v - n as real == 0.5 || v - n as real == -0.5 ==> n % 2 == 0
  {
    var f := v.Floor;
    var frac := v - f as real;
    if frac < 0.5 then f
    else if frac > 0.5 then f + 1
    else if f % 2 == 0 then f else f + 1
  }

  /** The texture size `UpscaleTexture` creates for a target resolution: the
      longer side, width when it is strictly longer, takes its target and the
      other follows the aspect ratio, rounded. A side that comes out
      non-positive cannot become a texture; so does every size computed
      from a zero height, whose aspect ratio is infinite or undefined. */
  function UpscaleSize(width: nat, height: nat, target: Pos): (r: Result<Pos>)
    ensures height == 0 ==> r.Err?
    ensures r.Ok? ==> r.value.x > 0 && r.value.y > 0
    ensures width > height ==> r.Ok? ==> r.value.x == target.x
    ensures width > height ==> r.Ok? ==>
      -0.5 <= (target.x * height) as real / width as real - r.value.y as real <= 0.5
    ensures width <= height ==> r.Ok? ==> r.value.y == target.y
    ensures width <= height ==> r.Ok? ==>
      -0.5 <= (target.y * width) as real / height as real - r.value.x as real <= 0.5
    ensures height > 0 && width > height && target.x > 0 && (target.x * height) as real / width as real > 0.5 ==> r.Ok?
    ensures height > 0 && width <= height && target.y > 0 && (target.y * width) as real / height as real > 0.5 ==> r.Ok?
  {
    if height == 0 then Err("Texture has out of range width / height") else
    var size :=
      if width > height then Pos(target.x, RoundHalfEven((target.x * height) as real / width as real))
      else Pos(RoundHalfEven((target.y * width) as real / height as real), target.y);
    if size.x <= 0 || size.y <= 0 then Err("Texture has out of range width / height") else Ok(size)
  }

  /** A square texture scales to the target height, and its width follows
      the same rounding of the same value. */
  lemma SquareFollowsHeight(side: nat, target: Pos)
    requires side > 0 && target.y > 0
    ensures UpscaleSize(side, side, target) == Ok(Pos(target.y, target.y))
  {
    assert (target.y * side) as real / side as real == target.y as real;
  }
}

=== FILE: glyphs.dfy ===
/** Drawing numbers: `CombineTexturesHorizontally` lays digit glyphs side by
    side on a transparent strip, and `DrawNumberOnTexture` stamps a
    `FontSize` by `FontSize` glyph onto a flat pixel buffer. The bilinear
    upscale between the two is not modelled: the stamp reads its glyph
    through a sampling function. */
module Glyphs {
  import opened Wrappers
  import opened Colors
  import opened Grid

  /** `fontSize`: the side of the stamp window. */
  const FontSize: int := 10

  /** `fontSize / 2`: how far the window starts left of and above the centre. */
  const Half: int := 5

  /** A glyph pixel is stamped only when its alpha exceeds this. */
  const AlphaCutoff: real := 0.1

  /** The stamp-local coordinates of flat index i of a buffer `width` wide,
      for a stamp centred on `pos`. */
  function Local(width: int, pos: Pos, i: nat): Pos
    requires width > 0
  {
    Pos(i % width - pos.x + Half, i / width - pos.y + Half)
  }

  /** Index i lies inside both the buffer's whole rows (`pixels.Length /
      width` of them) and the stamp window. */
  predicate Covered(n: nat, width: int, pos: Pos, i: nat) {
    && width > 0
    && i < (n / width) * width
    && 0 <= Local(width, pos, i).x < FontSize
    && 0 <= Local(width, pos, i).y < FontSize
  }

  /** The colour index i of the buffer has after the stamp. */
  function Stamped(pixels: seq<Color>, width: int, pos: Pos, glyph: (int, int) -> Color, i: nat): Color
    requires i < |pixels|
  {
    if Covered(|pixels|, width, pos, i) && glyph(Local(width, pos, i).x, Local(width, pos, i).y).a > AlphaCutoff
    then glyph(Local(width, pos, i).x, Local(width, pos, i).y)
    else pixels[i]
  }

  /** The whole buffer after the stamp. */
  function StampOver(pixels: seq<Color>, width: int, pos: Pos, glyph: (int, int) -> Color): (out: seq<Color>)
    ensures |out| == |pixels|
    ensures forall i :: 0 <= i < |out| ==> out[i] == Stamped(pixels, width, pos, glyph, i)
  {
    seq(|pixels|, i requires 0 <= i < |pixels| => Stamped(pixels, width, pos, glyph, i))
  }

  /** Stamp `glyph` centred on `pos` writes a glyph pixel on index i of a
      buffer of n. */
  predicate Inked(n: nat, width: int, pos: Pos, glyph: (int, int) -> Color, i: nat) {
    Covered(n, width, pos, i) && glyph(Local(width, pos, i).x, Local(width, pos, i).y).a > AlphaCutoff
  }

  /** The buffer once the first k stamps are drawn in order: stamp j is
      centred on `centers[j]` and reads the texture `strips[j]` through
      `sample`; a later stamp is drawn over an earlier one. */
  function StampAll(pixels: seq<Color>, width: int, centers: seq<Pos>, strips: seq<Image<Color>>,
                    sample: Image<Color> -> ((int, int) -> Color), k: nat): (out: seq<Color>)
    requires k <= |centers| && k <= |strips|
    ensures |out| == |pixels|
    decreases k
  {
    if k == 0 then pixels
    else StampOver(StampAll(pixels, width, centers, strips, sample, k - 1), width, centers[k - 1], sample(strips[k - 1]))
  }

  /** Only the first k stamps matter after k stamps. */
  lemma {:induction false} StampAllPrefix(pixels: seq<Color>, width: int, centers: seq<Pos>, strips: seq<Image<Color>>,
                                          centers': seq<Pos>, strips': seq<Image<Color>>,
                                          sample: Image<Color> -> ((int, int) -> Color), k: nat)
    requires k <= |centers| && k <= |strips| && k <= |centers'| && k <= |strips'|
    requires centers[..k] == centers'[..k] && strips[..k] == strips'[..k]
    ensures StampAll(pixels, width, centers, strips, sample, k) == StampAll(pixels, width, centers', strips', sample, k)
    decreases k
  {
    if k > 0 {
      assert centers[k - 1] == centers[..k][k - 1] == centers'[k - 1];
      assert strips[k - 1] == strips[..k][k - 1] == strips'[k - 1];
      assert centers[..k - 1] == centers[..k][..k - 1];
      assert centers'[..k - 1] == centers'[..k][..k - 1];
      assert strips[..k - 1] == strips[..k][..k - 1];
      assert strips'[..k - 1] == strips'[..k][..k - 1];
      StampAllPrefix(pixels, width, centers, strips, centers', strips', sample, k - 1);
    }
  }

  /** Where no stamp writes a glyph pixel, the buffer shows through. */
  lemma {:induction false} UninkedKeeps(pixels: seq<Color>, width: int, centers: seq<Pos>, strips: seq<Image<Color>>,
                                        sample: Image<Color> -> ((int, int) -> Color), k: nat, i: nat)
    requires k <= |centers| && k <= |strips| && i < |pixels|
    requires forall j :: 0 <= j < k ==> !Inked(|pixels|, width, centers[j], sample(strips[j]), i)
    ensures StampAll(pixels, width, centers, strips, sample, k)[i] == pixels[i]
    decreases k
  {
    if k > 0 {
      UninkedKeeps(pixels, width, centers, strips, sample, k - 1, i);
    }
  }

  /** Stamping changes a pixel only to a glyph pixel whose alpha exceeds
      0.1. */
  lemma {:induction false} StampAllInk(pixels: seq<Color>, width: int, centers: seq<Pos>, strips: seq<Image<Color>>,
                                       sample: Image<Color> -> ((int, int) -> Color), k: nat, i: nat)
    requires k <= |centers| && k <= |strips| && i < |pixels|
    ensures StampAll(pixels, width, centers, strips, sample, k)[i] == pixels[i]
         || StampAll(pixels, width, centers, strips, sample, k)[i].a > AlphaCutoff
    decreases k
  {
    if k > 0 {
      StampAllInk(pixels, width, centers, strips, sample, k - 1, i);
    }
  }

  /** Elsewhere the last stamp that writes a glyph pixel on index i decides
      its colour. */
  lemma {:induction false} LastStampWins(pixels: seq<Color>, width: int, centers: seq<Pos>, strips: seq<Image<Color>>,
                                         sample: Image<Color> -> ((int, int) -> Color), k: nat, i: nat, j: nat)
    requires j < k <= |centers| && k <= |strips| && i < |pixels|
    requires Inked(|pixels|, width, centers[j], sample(strips[j]), i)
    requires forall l :: j < l < k ==> !Inked(|pixels|, width, centers[l], sample(strips[l]), i)
    ensures StampAll(pixels, width, centers, strips, sample, k)[i]
         == sample(strips[j])(Local(width, centers[j], i).x, Local(width, centers[j], i).y)
    decreases k
  {
    if k - 1 > j {
      LastStampWins(pixels, width, centers, strips, sample, k - 1, i, j);
    }
  }

  /** Window cell (x, y) lands on a pixel of the buffer: where it lands and
      that the cell is that pixel's local position. */
  lemma CellIndex(n: nat, width: int, pos: Pos, x: int, y: int)
    requires width > 0 && 0 <= x < FontSize && 0 <= y < FontSize
    requires 0 <= pos.x + x - Half < width && 0 <= pos.y + y - Half < n / width
    ensures 0 <= (pos.y + y - Half) * width + (pos.x + x - Half) < (n / width) * width <= n
    ensures Local(width, pos, (pos.y + y - Half) * width + (pos.x + x - Half)) == Pos(x, y)
  {
    var px, py := pos.x + x - Half, pos.y + y - Half;
    IdxInRange(width, n / width, Pos(px, py));
    DivModUnique(py * width + px, width, py, px);
  }

  /** Two indices with the same local position are the same index. */
  lemma LocalInjective(width: int, pos: Pos, i: nat, j: nat)
    requires width > 0 && Local(width, pos, i) == Local(width, pos, j)
    ensures i == j
  {
    assert i == (i / width) * width + i % width;
    assert j == (j / width) * width + j % width;
  }

  /** Cell (x, y) of the window comes before cell (a, b) in the stamp's scan,
      columns outer and rows inner. */
  predicate CellBefore(a: int, b: int, x: int, y: int) {
    a < x || (a == x && b < y)
  }

  /** The buffer after the stamp has visited every cell before (x, y). */
  ghost predicate StampedUpTo(pixels: seq<Color>, out: seq<Color>, width: int, pos: Pos,
                              glyph: (int, int) -> Color, x: int, y: int)
  {
    && |out| == |pixels|
    && forall i :: 0 <= i < |out| ==>
         out[i] == (if Covered(|pixels|, width, pos, i) && CellBefore(Local(width, pos, i).x, Local(width, pos, i).y, x, y)
                    then Stamped(pixels, width, pos, glyph, i) else pixels[i])
  }

  /** A covered index is where its own window cell lands. */
  lemma CoveredLands(n: nat, width: int, pos: Pos, i: nat)
    requires Covered(n, width, pos, i)
    ensures 0 <= pos.x + Local(width, pos, i).x - Half < width
    ensures 0 <= pos.y + Local(width, pos, i).y - Half < n / width
  {
    if i / width >= n / width {
      MulMonotone(n / width, i / width, width);
    }
  }

  /** One cell of the stamp. */
  method StampCell(pixels: seq<Color>, out: seq<Color>, width: int, pos: Pos, glyph: (int, int) -> Color,
                   x: int, y: int) returns (out': seq<Color>)
    requires 0 <= x < FontSize && 0 <= y < FontSize
    requires StampedUpTo(pixels, out, width, pos, glyph, x, y)
    ensures StampedUpTo(pixels, out', width, pos, glyph, x, y + 1)
  {
    var pixelX := pos.x + x - Half;
    var pixelY := pos.y + y - Half;
    if pixelX >= 0 && pixelX < width && pixelY >= 0 && pixelY < |pixels| / width {
      CellIndex(|pixels|, width, pos, x, y);
      var k := pixelY * width + pixelX;
      var pixel := glyph(x, y);
      if pixel.a > AlphaCutoff {
        out' := out[k := pixel];
      } else {
        out' := out;
      }
      forall i | 0 <= i < |out'|
        ensures out'[i] == (if Covered(|pixels|, width, pos, i) && CellBefore(Local(width, pos, i).x, Local(width, pos, i).y, x, y + 1)
                            then Stamped(pixels, width, pos, glyph, i) else pixels[i])
      {
        if i != k && Local(width, pos, i) == Pos(x, y) {
          LocalInjective(width, pos, i, k);
        }
      }
    } else {
      out' := out;
      forall i | 0 <= i < |out'|
        ensures out'[i] == (if Covered(|pixels|, width, pos, i) && CellBefore(Local(width, pos, i).x, Local(width, pos, i).y, x, y + 1)
                            then Stamped(pixels, width, pos, glyph, i) else pixels[i])
      {
        if Covered(|pixels|, width, pos, i) {
          CoveredLands(|pixels|, width, pos, i);
        }
      }
    }
  }

  /** `DrawNumberOnTexture`'s copy loop: every cell of the window that lands
      on the buffer and whose glyph alpha exceeds 0.1 is written; nothing
      else changes. */
  method DrawNumber(pixels: seq<Color>, width: int, pos: Pos, glyph: (int, int) -> Color) returns (out: seq<Color>)
    ensures |out| == |pixels|
    ensures forall i :: 0 <= i < |out| ==> out[i] == Stamped(pixels, width, pos, glyph, i)
    ensures out == StampOver(pixels, width, pos, glyph)
    ensures forall i :: 0 <= i < |out| && !Covered(|pixels|, width, pos, i) ==> out[i] == pixels[i]
    ensures forall i :: 0 <= i < |out| && out[i] != pixels[i] ==> out[i].a > AlphaCutoff
  {
    out := pixels;
    var x := 0;
    while x < FontSize
      invariant 0 <= x <= FontSize
      invariant StampedUpTo(pixels, out, width, pos, glyph, x, 0)
    {
      var y := 0;
      while y < FontSize
        invariant 0 <= y <= FontSize
        invariant StampedUpTo(pixels, out, width, pos, glyph, x, y)
      {
        out := StampCell(pixels, out, width, pos, glyph, x, y);
        y := y + 1;
      }
      assert StampedUpTo(pixels, out, width, pos, glyph, x + 1, 0) by {
        forall i | 0 <= i < |out| && Covered(|pixels|, width, pos, i)
          ensures CellBefore(Local(width, pos, i).x, Local(width, pos, i).y, x, FontSize)
              == CellBefore(Local(width, pos, i).x, Local(width, pos, i).y, x + 1, 0)
        {
        }
      }
      x := x + 1;
    }
  }

  /** `Texture2D.SetPixel` on a texture in the default `Repeat` wrap mode: a
      coordinate outside the texture wraps around. */
  function SetPixel(img: Image<Color>, x: int, y: int, c: Color): (out: Image<Color>)
    requires img.Valid() && img.width > 0 && img.height > 0
    ensures out.width == img.width && out.height == img.height && out.Valid()
    ensures forall q :: img.Contains(q) ==> At(out, q) == if q == Pos(x % img.width, y % img.height) then c else At(img, q)
  {
    Put(img, Pos(x % img.width, y % img.height), c)
  }

  /** Glyph `tex` placed with its left edge at column `ox` of the canvas:
      what canvas pixel q shows when it lies under an opaque glyph pixel. */
  function Over(canvas: Image<Color>, tex: Image<Color>, ox: int, q: Pos): Color
    requires canvas.Valid() && canvas.Contains(q) && tex.Valid()
  {
    var p := Pos(q.x - ox, q.y);
    if tex.Contains(p) && At(tex, p).a > 0.0 then At(tex, p) else At(canvas, q)
  }

  /** The glyph lies wholly inside the canvas at offset ox. */
  predicate Fits(canvas: Image<Color>, tex: Image<Color>, ox: int) {
    0 <= ox && ox + tex.width <= canvas.width && tex.height <= canvas.height
  }

  /** Pixel q shows a colour of the canvas or an opaque pixel of the glyph. */
  ghost predicate FromCanvasOrGlyph(canvas: Image<Color>, tex: Image<Color>, out: Image<Color>, q: Pos)
    requires canvas.Valid() && tex.Valid() && out.Valid() && canvas.Contains(q) && out.Contains(q)
  {
    At(out, q) == At(canvas, q) || exists p :: tex.Contains(p) && At(tex, p).a > 0.0 && At(out, q) == At(tex, p)
  }

  /** Canvas pixels before (x, y) in row order show the glyph over the
      canvas; the others still show the canvas. */
  ghost predicate InOrder(canvas: Image<Color>, tex: Image<Color>, ox: int, out: Image<Color>, x: int, y: int)
    requires canvas.Valid() && tex.Valid() && out.Valid() && out.width == canvas.width && out.height == canvas.height
  {
    forall q :: canvas.Contains(q) ==>
      At(out, q) == if q.y < y || (q.y == y && q.x - ox < x) then Over(canvas, tex, ox, q) else At(canvas, q)
  }

  /** The canvas after copying the glyph rows before `y`, and in row `y` the
      columns before `x`. */
  ghost predicate BlitUpTo(canvas: Image<Color>, tex: Image<Color>, ox: int, out: Image<Color>, x: int, y: int)
    requires canvas.Valid() && tex.Valid()
  {
    && out.width == canvas.width && out.height == canvas.height && out.Valid()
    && (forall q :: canvas.Contains(q) ==> FromCanvasOrGlyph(canvas, tex, out, q))
    && (Fits(canvas, tex, ox) ==> InOrder(canvas, tex, ox, out, x, y))
  }

  /** Writing an opaque glyph pixel keeps every canvas pixel a canvas or
      glyph colour. */
  lemma WriteKeepsOrigin(canvas: Image<Color>, tex: Image<Color>, out: Image<Color>, out': Image<Color>, w: Pos, p: Pos)
    requires canvas.Valid() && tex.Valid() && out.Valid() && out'.Valid()
    requires out.width == canvas.width && out.height == canvas.height
    requires out'.width == canvas.width && out'.height == canvas.height
    requires tex.Contains(p) && At(tex, p).a > 0.0
    requires forall q :: canvas.Contains(q) ==> At(out', q) == if q == w then At(tex, p) else At(out, q)
    requires forall q :: canvas.Contains(q) ==> FromCanvasOrGlyph(canvas, tex, out, q)
    ensures forall q :: canvas.Contains(q) ==> FromCanvasOrGlyph(canvas, tex, out', q)
  {
    forall q | canvas.Contains(q)
      ensures FromCanvasOrGlyph(canvas, tex, out', q)
    {
      if q != w {
        assert FromCanvasOrGlyph(canvas, tex, out, q);
      }
    }
  }

  /** Writing glyph pixel (x, y) at its place advances the row-order copy
      by one column. */
  lemma WriteAdvances(canvas: Image<Color>, tex: Image<Color>, ox: int, out: Image<Color>, out': Image<Color>, x: int, y: int)
    requires canvas.Valid() && tex.Valid() && out.Valid() && out'.Valid()
    requires out.width == canvas.width && out.height == canvas.height
    requires out'.width == canvas.width && out'.height == canvas.height
    requires Fits(canvas, tex, ox) && 0 <= x < tex.width && 0 <= y < tex.height
    requires At(tex, Pos(x, y)).a > 0.0
    requires forall q :: canvas.Contains(q) ==> At(out', q) == if q == Pos(ox + x, y) then At(tex, Pos(x, y)) else At(out, q)
    requires InOrder(canvas, tex, ox, out, x, y)
    ensures InOrder(canvas, tex, ox, out', x + 1, y)
  {
  }

  /** A transparent glyph pixel is not written and advances the copy too. */
  lemma SkipAdvances(canvas: Image<Color>, tex: Image<Color>, ox: int, out: Image<Color>, x: int, y: int)
    requires canvas.Valid() && tex.Valid() && out.Valid()
    requires out.width == canvas.width && out.height == canvas.height
    requires Fits(canvas, tex, ox) && 0 <= x < tex.width && 0 <= y < tex.height
    requires At(tex, Pos(x, y)).a <= 0.0
    requires InOrder(canvas, tex, ox, out, x, y)
    ensures InOrder(canvas, tex, ox, out, x + 1, y)
  {
  }

  /** Glyph pixel (x, y) written at column `ox + x` when its alpha is above
      zero, wrapping as `SetPixel` does. */
  function BlitCell(img: Image<Color>, tex: Image<Color>, ox: int, x: int, y: int): (out: Image<Color>)
    requires img.Valid() && img.width > 0 && img.height > 0 && tex.Valid()
    requires 0 <= x < tex.width && 0 <= y < tex.height
    ensures out.width == img.width && out.height == img.height && out.Valid()
  {
    if At(tex, Pos(x, y)).a > 0.0 then SetPixel(img, ox + x, y, At(tex, Pos(x, y))) else img
  }

  /** The first x pixels of glyph row y written in order. */
  function BlitRow(img: Image<Color>, tex: Image<Color>, ox: int, y: int, x: int): (out: Image<Color>)
    requires img.Valid() && img.width > 0 && img.height > 0 && tex.Valid()
    requires 0 <= x <= tex.width && 0 <= y < tex.height
    ensures out.width == img.width && out.height == img.height && out.Valid()
    decreases x
  {
    if x == 0 then img else BlitCell(BlitRow(img, tex, ox, y, x - 1), tex, ox, x - 1, y)
  }

  /** The first y rows of the glyph written in order: the copy `Blit`
      makes, including where a glyph that does not fit wraps around. */
  function BlitRows(img: Image<Color>, tex: Image<Color>, ox: int, y: int): (out: Image<Color>)
    requires img.Valid() && img.width > 0 && img.height > 0 && tex.Valid()
    requires 0 <= y <= tex.height
    ensures out.width == img.width && out.height == img.height && out.Valid()
    decreases y
  {
    if y == 0 then img else BlitRow(BlitRows(img, tex, ox, y - 1), tex, ox, y - 1, tex.width)
  }

  /** One glyph pixel: copied only when its alpha is above zero. */
  method BlitPixel(canvas: Image<Color>, tex: Image<Color>, ox: int, out: Image<Color>, x: int, y: int)
    returns (out': Image<Color>)
    requires canvas.Valid() && canvas.width > 0 && canvas.height > 0 && tex.Valid()
    requires 0 <= x < tex.width && 0 <= y < tex.height
    requires BlitUpTo(canvas, tex, ox, out, x, y)
    ensures BlitUpTo(canvas, tex, ox, out', x + 1, y)
    ensures out' == BlitCell(out, tex, ox, x, y)
  {
    var c := At(tex, Pos(x, y));
    if c.a > 0.0 {
      out' := SetPixel(out, ox + x, y, c);
      WriteStep(canvas, tex, ox, out, out', x, y);
    } else {
      out' := out;
      if Fits(canvas, tex, ox) {
        SkipAdvances(canvas, tex, ox, out, x, y);
      }
    }
  }

  /** Writing an opaque glyph pixel with `SetPixel` advances the copy. */
  lemma WriteStep(canvas: Image<Color>, tex: Image<Color>, ox: int, out: Image<Color>, out': Image<Color>, x: int, y: int)
    requires canvas.Valid() && canvas.width > 0 && canvas.height > 0 && tex.Valid()
    requires 0 <= x < tex.width && 0 <= y < tex.height && At(tex, Pos(x, y)).a > 0.0
    requires BlitUpTo(canvas, tex, ox, out, x, y)
    requires out' == SetPixel(out, ox + x, y, At(tex, Pos(x, y)))
    ensures BlitUpTo(canvas, tex, ox, out', x + 1, y)
  {
    var w := Pos((ox + x) % out.width, y % out.height);
    assert forall q :: canvas.Contains(q) ==> At(out', q) == if q == w then At(tex, Pos(x, y)) else At(out, q);
    WriteKeepsOrigin(canvas, tex, out, out', w, Pos(x, y));
    if Fits(canvas, tex, ox) {
      DivModUnique(ox + x, out.width, 0, ox + x);
      DivModUnique(y, out.height, 0, y);
      assert w == Pos(ox + x, y);
      WriteAdvances(canvas, tex, ox, out, out', x, y);
    }
  }

  /** The copy loop for one glyph of `CombineTexturesHorizontally`: rows
      outer, columns inner, opaque pixels only. Wherever the glyph fits, the
      canvas shows the glyph's opaque pixels over its old contents. */
  method Blit(canvas: Image<Color>, tex: Image<Color>, ox: int) returns (out: Image<Color>)
    requires canvas.Valid() && canvas.width > 0 && canvas.height > 0 && tex.Valid()
    ensures out.width == canvas.width && out.height == canvas.height && out.Valid()
    ensures forall q :: canvas.Contains(q) ==> FromCanvasOrGlyph(canvas, tex, out, q)
    ensures Fits(canvas, tex, ox) ==> forall q :: canvas.Contains(q) ==> At(out, q) == Over(canvas, tex, ox, q)
    ensures out == BlitRows(canvas, tex, ox, tex.height)
  {
    out := canvas;
    var y := 0;
    while y < tex.height
      invariant 0 <= y <= tex.height
      invariant BlitUpTo(canvas, tex, ox, out, 0, y)
      invariant out == BlitRows(canvas, tex, ox, y)
    {
      out := BlitLine(canvas, tex, ox, out, y);
      y := y + 1;
    }
  }

  /** One glyph row of `Blit`, columns left to right. */
  method BlitLine(canvas: Image<Color>, tex: Image<Color>, ox: int, start: Image<Color>, y: int) returns (out: Image<Color>)
    requires canvas.Valid() && canvas.width > 0 && canvas.height > 0 && tex.Valid() && 0 <= y < tex.height
    requires BlitUpTo(canvas, tex, ox, start, 0, y) && start == BlitRows(canvas, tex, ox, y)
    ensures BlitUpTo(canvas, tex, ox, out, 0, y + 1) && out == BlitRows(canvas, tex, ox, y + 1)
  {
    out := start;
    var x := 0;
    while x < tex.width
      invariant 0 <= x <= tex.width
      invariant BlitUpTo(canvas, tex, ox, out, x, y)
      invariant out == BlitRow(start, tex, ox, y, x)
    {
      out := BlitPixel(canvas, tex, ox, out, x, y);
      x := x + 1;
    }
    assert BlitUpTo(canvas, tex, ox, out, 0, y + 1);
  }

  /** The summed widths of a list of glyphs. */
  function SumWidths(ts: seq<Image<Color>>): int
    decreases |ts|
  {
    if |ts| == 0 then 0 else SumWidths(ts[..|ts| - 1]) + ts[|ts| - 1].width
  }

  /** The tallest glyph's height. */
  function MaxHeight(ts: seq<Image<Color>>): (h: nat)
    ensures forall i :: 0 <= i < |ts| ==> ts[i].height <= h
    decreases |ts|
  {
    if |ts| == 0 then 0
    else
      var h := MaxHeight(ts[..|ts| - 1]);
      assert forall i :: 0 <= i < |ts| - 1 ==> ts[i] == ts[..|ts| - 1][i];
      if ts[|ts| - 1].height > h then ts[|ts| - 1].height else h
  }

  /** The strip's width: the glyph widths plus a spacing between each pair. */
  function TotalWidth(ts: seq<Image<Color>>, spacing: int): int {
    SumWidths(ts) + spacing * (|ts| - 1)
  }

  /** The column where glyph i starts: `offsetX` after i glyphs. */
  function Offset(ts: seq<Image<Color>>, spacing: int, i: nat): int
    requires i <= |ts|
  {
    SumWidths(ts[..i]) + spacing * i
  }

  /** Each glyph starts its own width plus the spacing after the previous one. */
  lemma OffsetStep(ts: seq<Image<Color>>, spacing: int, i: nat)
    requires i < |ts|
    ensures Offset(ts, spacing, i + 1) == Offset(ts, spacing, i) + ts[i].width + spacing
  {
    assert ts[..i + 1][..i] == ts[..i];
  }

  /** The last glyph ends exactly at the strip's right edge. */
  lemma LastGlyphEndsStrip(ts: seq<Image<Color>>, spacing: int)
    requires |ts| > 0
    ensures Offset(ts, spacing, |ts| - 1) + ts[|ts| - 1].width == TotalWidth(ts, spacing)
  {
    assert ts[..|ts|] == ts;
    OffsetStep(ts, spacing, |ts| - 1);
  }

  /** Every glyph lies inside the strip. */
  ghost predicate AllFit(ts: seq<Image<Color>>, spacing: int) {
    forall i :: 0 <= i < |ts| ==> 0 <= Offset(ts, spacing, i) && Offset(ts, spacing, i) + ts[i].width <= TotalWidth(ts, spacing)
  }

  lemma {:induction false} OffsetMonotone(ts: seq<Image<Color>>, spacing: int, i: nat, j: nat)
    requires i <= j <= |ts|
    requires forall k :: 0 <= k < |ts| ==> ts[k].width + spacing >= 0
    ensures Offset(ts, spacing, i) <= Offset(ts, spacing, j)
    decreases j - i
  {
    if i < j {
      OffsetStep(ts, spacing, i);
      OffsetMonotone(ts, spacing, i + 1, j);
    }
  }

  /** When no spacing overlaps a glyph by more than its width, as with
      spacing -180 and glyphs at least 180 pixels wide, the glyphs never wrap
      around the strip. */
  lemma FitWhenSpacingCovered(ts: seq<Image<Color>>, spacing: int)
    requires forall k :: 0 <= k < |ts| ==> ts[k].width + spacing >= 0
    ensures AllFit(ts, spacing)
  {
    forall i | 0 <= i < |ts|
      ensures 0 <= Offset(ts, spacing, i) && Offset(ts, spacing, i) + ts[i].width <= TotalWidth(ts, spacing)
    {
      OffsetMonotone(ts, spacing, 0, i);
      assert Offset(ts, spacing, 0) == 0 by { assert ts[..0] == []; }
      LastGlyphEndsStrip(ts, spacing);
      if i < |ts| - 1 {
        OffsetStep(ts, spacing, i);
        OffsetMonotone(ts, spacing, i + 1, |ts| - 1);
      }
    }
  }

  /** What strip pixel q shows once the first n glyphs are laid: the opaque
      pixel of the last of them covering q, else transparent. */
  function Layer(ts: seq<Image<Color>>, spacing: int, n: nat, q: Pos): Color
    requires n <= |ts| && forall i :: 0 <= i < |ts| ==> ts[i].Valid()
  {
    if n == 0 then Clear
    else
      var p := Pos(q.x - Offset(ts, spacing, n - 1), q.y);
      if ts[n - 1].Contains(p) && At(ts[n - 1], p).a > 0.0 then At(ts[n - 1], p) else Layer(ts, spacing, n - 1, q)
  }

  /** Pixel q is transparent or an opaque pixel of one of the first n glyphs. */
  ghost predicate FromGlyphs(ts: seq<Image<Color>>, n: nat, img: Image<Color>, q: Pos)
    requires n <= |ts| && forall i :: 0 <= i < |ts| ==> ts[i].Valid()
    requires img.Valid() && img.Contains(q)
  {
    At(img, q) == Clear || exists i, p :: 0 <= i < n && ts[i].Contains(p) && At(ts[i], p).a > 0.0 && At(img, q) == At(ts[i], p)
  }

  /** A fully transparent texture. */
  function Blank(width: nat, height: nat): (img: Image<Color>)
    ensures img.width == width && img.height == height && img.Valid()
    ensures forall q :: img.Contains(q) ==> At(img, q) == Clear
  {
    var img := Image(width, height, seq(width * height, _ => Clear));
    forall q | img.Contains(q)
      ensures At(img, q) == Clear
    {
      IdxInRange(width, height, q);
    }
    img
  }

  /** The strip after the first i glyphs are copied, each at its offset, onto
      a transparent `TotalWidth` by `MaxHeight` texture. */
  function StripUpTo(ts: seq<Image<Color>>, spacing: int, i: nat): (img: Image<Color>)
    requires forall k :: 0 <= k < |ts| ==> ts[k].Valid()
    requires TotalWidth(ts, spacing) > 0 && MaxHeight(ts) > 0 && i <= |ts|
    ensures img.width == TotalWidth(ts, spacing) && img.height == MaxHeight(ts) && img.Valid()
    decreases i
  {
    if i == 0 then Blank(TotalWidth(ts, spacing) as nat, MaxHeight(ts))
    else BlitRows(StripUpTo(ts, spacing, i - 1), ts[i - 1], Offset(ts, spacing, i - 1), ts[i - 1].height)
  }

  /** `CombineTexturesHorizontally`: no glyphs give null; a strip whose
      width or height is not positive cannot be created; otherwise a
      transparent strip `TotalWidth` by `MaxHeight` receives each glyph's
      opaque pixels at its offset, later glyphs over earlier ones. */
  method CombineTexturesHorizontally(ts: seq<Image<Color>>, spacing: int) returns (r: Result<Option<Image<Color>>>)
    requires forall i :: 0 <= i < |ts| ==> ts[i].Valid()
    ensures |ts| == 0 ==> r == Ok(None)
    ensures |ts| > 0 ==> (r.Err? <==> TotalWidth(ts, spacing) <= 0 || MaxHeight(ts) == 0)
    ensures |ts| > 0 && r.Ok? ==> r.value.Some?
    ensures r.Ok? && r.value.Some? ==>
      r.value.value.width == TotalWidth(ts, spacing) && r.value.value.height == MaxHeight(ts) && r.value.value.Valid()
    ensures r.Ok? && r.value.Some? ==> forall q :: r.value.value.Contains(q) ==> FromGlyphs(ts, |ts|, r.value.value, q)
    ensures r.Ok? && r.value.Some? && AllFit(ts, spacing) ==>
      forall q :: r.value.value.Contains(q) ==> At(r.value.value, q) == Layer(ts, spacing, |ts|, q)
    ensures r.Ok? && r.value.Some? ==> r.value.value == StripUpTo(ts, spacing, |ts|)
  {
    if |ts| == 0 {
      return Ok(None);
    }
    var width := TotalWidth(ts, spacing);
    var height := MaxHeight(ts);
    if width <= 0 || height == 0 {
      return Err("invalid texture size");
    }
    var strip := Blank(width, height);
    var offsetX := 0;
    var i := 0;
    assert ts[..0] == [];
    while i < |ts|
      invariant 0 <= i <= |ts|
      invariant offsetX == Offset(ts, spacing, i)
      invariant strip.width == width && strip.height == height && strip.Valid()
      invariant forall q :: strip.Contains(q) ==> FromGlyphs(ts, i, strip, q)
      invariant AllFit(ts, spacing) ==> forall q :: strip.Contains(q) ==> At(strip, q) == Layer(ts, spacing, i, q)
      invariant strip == StripUpTo(ts, spacing, i)
    {
      strip := LayGlyph(ts, spacing, i, strip);
      OffsetStep(ts, spacing, i);
      offsetX := offsetX + ts[i].width + spacing;
      i := i + 1;
    }
    r := Ok(Some(strip));
  }

  /** One pass of the glyph loop: glyph i copied at its offset. */
  method LayGlyph(ts: seq<Image<Color>>, spacing: int, i: nat, strip: Image<Color>) returns (next: Image<Color>)
    requires forall k :: 0 <= k < |ts| ==> ts[k].Valid()
    requires i < |ts| && strip.Valid() && strip.width > 0 && strip.height > 0
    requires strip.width == TotalWidth(ts, spacing) && strip.height == MaxHeight(ts)
    requires forall q :: strip.Contains(q) ==> FromGlyphs(ts, i, strip, q)
    requires AllFit(ts, spacing) ==> forall q :: strip.Contains(q) ==> At(strip, q) == Layer(ts, spacing, i, q)
    ensures next.width == strip.width && next.height == strip.height && next.Valid()
    ensures forall q :: next.Contains(q) ==> FromGlyphs(ts, i + 1, next, q)
    ensures AllFit(ts, spacing) ==> forall q :: next.Contains(q) ==> At(next, q) == Layer(ts, spacing, i + 1, q)
    ensures next == BlitRows(strip, ts[i], Offset(ts, spacing, i), ts[i].height)
  {
    next := Blit(strip, ts[i], Offset(ts, spacing, i));
    forall q | next.Contains(q)
      ensures FromGlyphs(ts, i + 1, next, q)
    {
      assert strip.Contains(q);
      assert FromCanvasOrGlyph(strip, ts[i], next, q);
      if At(next, q) == At(strip, q) {
        assert FromGlyphs(ts, i, strip, q);
      }
    }
    if AllFit(ts, spacing) {
      assert Fits(strip, ts[i], Offset(ts, spacing, i));
    }
  }
}

=== FILE: grid.dfy ===
/** Pixel grids. Unity's `GetPixels` returns a texture's pixels row by row,
    the pixel at column x and row y sitting at index y*width + x; every flat
    buffer in the model uses that layout. Some loops of the source instead
    scan x outer and y inner, which lists the pixels column by column. */
module Grid {

  /** `Vector2Int`: a column and a row. */
  datatype Pos = Pos(x: int, y: int)

  /** A texture: its size and its pixels in `GetPixels` order. */
  datatype Image<C> = Image(width: nat, height: nat, pixels: seq<C>) {

    predicate Valid() {
      |pixels| == width * height
    }

    predicate Contains(p: Pos) {
      0 <= p.x < width && 0 <= p.y < height
    }
  }

  /** The flat index `y * width + x` of a position. */
  function Idx(width: int, p: Pos): int {
    p.y * width + p.x
  }

  lemma MulMonotone(a: int, b: int, c: int)
    requires 0 <= a <= b && 0 <= c
    ensures a * c <= b * c
  {
  }

  lemma IdxInRange(width: nat, height: nat, p: Pos)
    requires 0 <= p.x < width && 0 <= p.y < height
    ensures 0 <= Idx(width, p) < width * height
  {
    MulMonotone(p.y, height - 1, width);
    assert (height - 1) * width == height * width - width;
  }

  /** Distinct in-row positions have distinct flat indices. */
  lemma IdxInjective(width: int, p: Pos, q: Pos)
    requires 0 <= p.x < width && 0 <= q.x < width
    requires Idx(width, p) == Idx(width, q)
    ensures p == q
  {
    var k := p.y - q.y;
    assert k * width == q.x - p.x;
    if k >= 1 {
      MulMonotone(1, k, width);
    } else if k <= -1 {
      MulMonotone(1, -k, width);
    }
  }

  /** The quotient and remainder of a division are determined by any
      decomposition with a remainder in range. */
  lemma DivModUnique(a: int, d: int, q: int, r: int)
    requires d > 0 && 0 <= r < d && a == q * d + r
    ensures a / d == q && a % d == r
  {
    var k := q - a / d;
    assert a == (a / d) * d + a % d;
    assert k * d == a % d - r;
    if k >= 1 {
      MulMonotone(1, k, d);
    } else if k <= -1 {
      MulMonotone(1, -k, d);
    }
  }

  /** The position stored at flat index i of a row-major buffer. */
  function PosOf(width: nat, i: nat): Pos
    requires width > 0
  {
    Pos(i % width, i / width)
  }

  lemma PosOfIdx(width: nat, height: nat, i: nat)
    requires width > 0 && i < width * height
    ensures 0 <= PosOf(width, i).x < width && 0 <= PosOf(width, i).y < height
    ensures Idx(width, PosOf(width, i)) == i
  {
    var p := PosOf(width, i);
    assert i == p.y * width + p.x;
    if p.y >= height {
      MulMonotone(height, p.y, width);
    }
  }

  lemma IdxPosOf(width: nat, p: Pos)
    requires 0 <= p.x < width && 0 <= p.y
    ensures PosOf(width, Idx(width, p)) == p
  {
    DivModUnique(Idx(width, p), width, p.y, p.x);
  }

  /** The pixel of a valid image at a position inside it. */
  function At<C>(img: Image<C>, p: Pos): C
    requires img.Valid() && img.Contains(p)
  {
    IdxInRange(img.width, img.height, p);
    img.pixels[Idx(img.width, p)]
  }

  /** A buffer write at an in-range position: that pixel changes, no other. */
  function Put<C>(img: Image<C>, p: Pos, c: C): (out: Image<C>)
    requires img.Valid() && img.Contains(p)
    ensures out.width == img.width && out.height == img.height && out.Valid()
    ensures forall q :: img.Contains(q) ==> At(out, q) == if q == p then c else At(img, q)
  {
    IdxInRange(img.width, img.height, p);
    var k := Idx(img.width, p);
    var out := Image(img.width, img.height, img.pixels[k := c]);
    forall q | img.Contains(q)
      ensures At(out, q) == if q == p then c else At(img, q)
    {
      IdxInRange(img.width, img.height, q);
      if q != p && Idx(img.width, q) == k {
        IdxInjective(img.width, q, p);
      }
    }
    out
  }

  /** Chebyshev distance: the larger of the column and row differences. */
  function Chebyshev(p: Pos, q: Pos): nat {
    var dx := if p.x <= q.x then q.x - p.x else p.x - q.x;
    var dy := if p.y <= q.y then q.y - p.y else p.y - q.y;
    if dx >= dy then dx else dy
  }

  /** q lies in the 3x3 block centred on p (p itself included). */
  predicate Near(p: Pos, q: Pos) {
    -1 <= q.x - p.x <= 1 && -1 <= q.y - p.y <= 1
  }

  /** The eight-neighbourhood relation: near and different. */
  predicate Adjacent(p: Pos, q: Pos) {
    p != q && Near(p, q)
  }

  lemma NearSymmetric(p: Pos, q: Pos)
    ensures Near(p, q) <==> Near(q, p)
  {
  }

  /** `Mathf.Clamp` on integers. */
  function Clamp(v: int, lo: int, hi: int): int {
    if v < lo then lo else if v > hi then hi else v
  }

  /** The pixels in the order of a scan with x outer and y inner: the pixel at
      (x, y) lands at index x*height + y. */
  function ColumnMajor<C>(img: Image<C>): (cs: seq<C>)
    requires img.Valid()
    ensures |cs| == img.width * img.height
    ensures forall p :: img.Contains(p) ==> ColumnIndex(img.height, p) < |cs| && cs[ColumnIndex(img.height, p)] == At(img, p)
  {
    var cs := seq(img.width * img.height, i requires 0 <= i < img.width * img.height =>
      ColumnPosInRange(img.width, img.height, i);
      At(img, Pos(i / img.height, i % img.height)));
    forall p | img.Contains(p)
      ensures ColumnIndex(img.height, p) < |cs| && cs[ColumnIndex(img.height, p)] == At(img, p)
    {
      ColumnIndexInRange(img.width, img.height, p);
      DivModUnique(ColumnIndex(img.height, p), img.height, p.x, p.y);
    }
    cs
  }

  /** Entry k of the column-by-column scan is the pixel at column k / height
      and row k % height. */
  lemma ColumnMajorAt<C>(img: Image<C>, k: int)
    requires img.Valid() && 0 <= k < img.width * img.height
    ensures img.Contains(Pos(k / img.height, k % img.height))
    ensures ColumnMajor(img)[k] == At(img, Pos(k / img.height, k % img.height))
  {
    ColumnPosInRange(img.width, img.height, k);
  }

  /** Where a position lands in a column-by-column scan. */
  function ColumnIndex(height: int, p: Pos): int {
    p.x * height + p.y
  }

  lemma ColumnIndexInRange(width: nat, height: nat, p: Pos)
    requires 0 <= p.x < width && 0 <= p.y < height
    ensures 0 <= ColumnIndex(height, p) < width * height
  {
    IdxInRange(height, width, Pos(p.y, p.x));
  }

  lemma ColumnPosInRange(width: nat, height: nat, i: int)
    requires 0 <= i < width * height
    ensures height > 0 && 0 <= i / height < width && 0 <= i % height < height
  {
    PosOfIdx(height, width, i);
  }

  /** Writing a column-by-column list back with `SetPixel(x, y)` in the same
      scan order: the result in `GetPixels` order. */
  function FromColumnMajor<C>(width: nat, height: nat, cs: seq<C>): (pixels: seq<C>)
    requires |cs| == width * height
    ensures |pixels| == width * height
  {
    seq(width * height, i requires 0 <= i < width * height =>
      PosOfIdx(width, height, i);
      ColumnIndexInRange(width, height, PosOf(width, i));
      cs[ColumnIndex(height, PosOf(width, i))])
  }

  /** The pixel written for position p is the scan's entry for p. */
  lemma FromColumnMajorAt<C>(width: nat, height: nat, cs: seq<C>, p: Pos)
    requires |cs| == width * height && 0 <= p.x < width && 0 <= p.y < height
    ensures Idx(width, p) < width * height && ColumnIndex(height, p) < |cs|
    ensures FromColumnMajor(width, height, cs)[Idx(width, p)] == cs[ColumnIndex(height, p)]
  {
    IdxInRange(width, height, p);
    ColumnIndexInRange(width, height, p);
    IdxPosOf(width, p);
  }

  /** Scanning column by column and writing back in the same order is the
      identity on images: the two index orders cancel. */
  lemma ColumnMajorRoundTrip<C>(img: Image<C>)
    requires img.Valid()
    ensures FromColumnMajor(img.width, img.height, ColumnMajor(img)) == img.pixels
  {
    var back := FromColumnMajor(img.width, img.height, ColumnMajor(img));
    forall i | 0 <= i < |img.pixels|
      ensures back[i] == img.pixels[i]
    {
      PosOfIdx(img.width, img.height, i);
    }
  }
}

=== FILE: kmeans.dfy ===
/** Colour quantisation of `KAvarage.StartGeneration`: the pixels, listed
    column by column, are clustered by k-means (`KMeans`,
    `GetClosestCentroidIndex`), every pixel is replaced by its nearest
    centroid, and small particles are then removed twice. The shuffle that
    picks the initial centroids and the cancellation token are parameters. */
module KMeans {
  import opened Wrappers
  import opened Colors
  import opened Grid
  import opened Segmentation
  import Denoise

  /** `MaxKMeansIterations`. */
  const MaxIterations: nat := 100

  /** `MinGrayScale` and `MinGrayScale_2`, the size thresholds of the two
      small-particle passes, as fractions of the pixel count. */
  const FirstPassScale: real := 0.0000165
  const SecondPassScale: real := 0.00001

  /** The tolerances of the two passes. */
  const FirstPassTolerance: real := 0.1
  const SecondPassTolerance: real := 0.6

  /** Centroid idx is the first of the closest among the first n. */
  predicate FirstClosest(color: Color, centroids: seq<Color>, idx: nat, n: nat)
    requires idx < n <= |centroids|
  {
    && (forall j :: 0 <= j < n ==> ColorDistance(color, centroids[idx]) <= ColorDistance(color, centroids[j]))
    && (forall j :: 0 <= j < idx ==> ColorDistance(color, centroids[idx]) < ColorDistance(color, centroids[j]))
  }

  /** The loop of `GetClosestCentroidIndex` from index i on, `best` being the
      closest so far; only a strictly smaller distance replaces it. */
  function ClosestFrom(color: Color, centroids: seq<Color>, i: nat, best: nat): (idx: nat)
    requires best < i <= |centroids| && FirstClosest(color, centroids, best, i)
    ensures idx < |centroids| && FirstClosest(color, centroids, idx, |centroids|)
    decreases |centroids| - i
  {
    if i == |centroids| then best
    else if ColorDistance(color, centroids[i]) < ColorDistance(color, centroids[best]) then
      ClosestFrom(color, centroids, i + 1, i)
    else
      ClosestFrom(color, centroids, i + 1, best)
  }

  /** `GetClosestCentroidIndex`: the first centroid at the least distance, or
      0 when there are none. The first distance always beats the initial
      `double.MaxValue`, so the scan starts with centroid 0 in hand. */
  function Closest(color: Color, centroids: seq<Color>): (idx: nat)
    ensures |centroids| == 0 ==> idx == 0
    ensures |centroids| > 0 ==> idx < |centroids| && FirstClosest(color, centroids, idx, |centroids|)
  {
    if |centroids| == 0 then 0 else ClosestFrom(color, centroids, 1, 0)
  }

  /** The assignment step: every colour to its closest centroid. */
  function AssignAll(colors: seq<Color>, centroids: seq<Color>): (assignment: seq<nat>)
    ensures |assignment| == |colors|
    ensures forall i :: 0 <= i < |colors| ==> assignment[i] == Closest(colors[i], centroids)
  {
    seq(|colors|, i requires 0 <= i < |colors| => Closest(colors[i], centroids))
  }

  /** `colors.Where((_, i) => assignments[i] == cluster)`: the members of one
      cluster, in list order. */
  function Members(colors: seq<Color>, assignment: seq<nat>, cluster: nat): (ms: seq<Color>)
    requires |assignment| == |colors|
    ensures |ms| <= |colors|
    decreases |colors|
  {
    if |colors| == 0 then []
    else
      var n := |colors| - 1;
      var rest := Members(colors[..n], assignment[..n], cluster);
      if assignment[n] == cluster then rest + [colors[n]] else rest
  }

  /** A cluster has no members exactly when no colour is assigned to it. */
  lemma {:induction false} MembersEmptyIff(colors: seq<Color>, assignment: seq<nat>, cluster: nat)
    requires |assignment| == |colors|
    ensures |Members(colors, assignment, cluster)| == 0 <==> forall i :: 0 <= i < |colors| ==> assignment[i] != cluster
    decreases |colors|
  {
    if |colors| > 0 {
      var n := |colors| - 1;
      MembersEmptyIff(colors[..n], assignment[..n], cluster);
      assert forall i :: 0 <= i < n ==> assignment[..n][i] == assignment[i];
    }
  }

  /** Member m is a colour assigned to the cluster. */
  lemma {:induction false} MemberAssigned(colors: seq<Color>, assignment: seq<nat>, cluster: nat, m: nat)
    requires |assignment| == |colors| && m < |Members(colors, assignment, cluster)|
    ensures exists i :: 0 <= i < |colors| && assignment[i] == cluster && Members(colors, assignment, cluster)[m] == colors[i]
    decreases |colors|
  {
    var n := |colors| - 1;
    var rest := Members(colors[..n], assignment[..n], cluster);
    assert Members(colors, assignment, cluster) == if assignment[n] == cluster then rest + [colors[n]] else rest;
    if m < |rest| {
      MemberAssigned(colors[..n], assignment[..n], cluster, m);
      var i :| 0 <= i < n && assignment[..n][i] == cluster && rest[m] == colors[..n][i];
      assert assignment[i] == cluster && Members(colors, assignment, cluster)[m] == colors[i];
    } else {
      assert assignment[n] == cluster && Members(colors, assignment, cluster)[m] == colors[n];
    }
  }

  /** Every member is a colour assigned to the cluster. */
  lemma MembersAreAssigned(colors: seq<Color>, assignment: seq<nat>, cluster: nat)
    requires |assignment| == |colors|
    ensures forall m :: 0 <= m < |Members(colors, assignment, cluster)| ==>
      exists i :: 0 <= i < |colors| && assignment[i] == cluster && Members(colors, assignment, cluster)[m] == colors[i]
  {
    var ms := Members(colors, assignment, cluster);
    forall m | 0 <= m < |ms|
      ensures exists i :: 0 <= i < |colors| && assignment[i] == cluster && ms[m] == colors[i]
    {
      MemberAssigned(colors, assignment, cluster, m);
    }
  }

  /** Every colour assigned to the cluster is a member. */
  lemma {:induction false} AssignedAreMembers(colors: seq<Color>, assignment: seq<nat>, cluster: nat)
    requires |assignment| == |colors|
    ensures forall i :: 0 <= i < |colors| && assignment[i] == cluster ==> colors[i] in Members(colors, assignment, cluster)
    decreases |colors|
  {
    if |colors| > 0 {
      var n := |colors| - 1;
      AssignedAreMembers(colors[..n], assignment[..n], cluster);
      var rest := Members(colors[..n], assignment[..n], cluster);
      var ms := Members(colors, assignment, cluster);
      assert ms == if assignment[n] == cluster then rest + [colors[n]] else rest;
      forall i | 0 <= i < |colors| && assignment[i] == cluster
        ensures colors[i] in ms
      {
        if i < n {
          assert colors[..n][i] in rest;
        }
      }
    }
  }

  /** The new position of centroid j: the members' mean, or where it was when
      the cluster is empty. */
  function Moved(colors: seq<Color>, assignment: seq<nat>, centroids: seq<Color>, j: nat): Color
    requires |assignment| == |colors| && j < |centroids|
  {
    var ms := Members(colors, assignment, j);
    if |ms| == 0 then centroids[j] else AverageColor(ms).value
  }

  /** The update step of the first n centroids, built one cluster at a time. */
  function Recompute(colors: seq<Color>, assignment: seq<nat>, centroids: seq<Color>, n: nat := |centroids|): (next: seq<Color>)
    requires |assignment| == |colors| && n <= |centroids|
    ensures |next| == n
    ensures forall j :: 0 <= j < n ==> next[j] == Moved(colors, assignment, centroids, j)
  {
    if n == 0 then [] else Recompute(colors, assignment, centroids, n - 1) + [Moved(colors, assignment, centroids, n - 1)]
  }

  /** A cluster without members keeps its centroid; any other centroid moves
      to the members' mean (the channel-wise average, alpha 1). */
  lemma RecomputeMovesToMean(colors: seq<Color>, assignment: seq<nat>, centroids: seq<Color>, j: nat)
    requires |assignment| == |colors| && j < |centroids|
    ensures |Members(colors, assignment, j)| == 0 ==> Recompute(colors, assignment, centroids)[j] == centroids[j]
    ensures |Members(colors, assignment, j)| > 0 ==>
      Recompute(colors, assignment, centroids)[j] == AverageColor(Members(colors, assignment, j)).value
  {
    assert Recompute(colors, assignment, centroids)[j] == Moved(colors, assignment, centroids, j);
  }

  /** The least value a channel takes in a non-empty list. */
  function Lowest(colors: seq<Color>, ch: Channel): (lo: real)
    requires |colors| > 0
    ensures forall i :: 0 <= i < |colors| ==> lo <= Get(colors[i], ch)
  {
    if |colors| == 1 then Get(colors[0], ch)
    else
      var rest := Lowest(colors[1..], ch);
      assert forall i :: 1 <= i < |colors| ==> colors[i] == colors[1..][i - 1];
      if Get(colors[0], ch) <= rest then Get(colors[0], ch) else rest
  }

  /** The greatest value a channel takes in a non-empty list. */
  function Highest(colors: seq<Color>, ch: Channel): (hi: real)
    requires |colors| > 0
    ensures forall i :: 0 <= i < |colors| ==> Get(colors[i], ch) <= hi
  {
    if |colors| == 1 then Get(colors[0], ch)
    else
      var rest := Highest(colors[1..], ch);
      assert forall i :: 1 <= i < |colors| ==> colors[i] == colors[1..][i - 1];
      if Get(colors[0], ch) >= rest then Get(colors[0], ch) else rest
  }

  /** Every channel of c lies within the range that channel spans over the
      image's colours. */
  predicate InColorRange(colors: seq<Color>, c: Color)
    requires |colors| > 0
  {
    forall ch :: Lowest(colors, ch) <= Get(c, ch) <= Highest(colors, ch)
  }

  /** A mean of some of the colours stays within their range. */
  lemma MembersMeanInRange(colors: seq<Color>, assignment: seq<nat>, cluster: nat)
    requires |assignment| == |colors| && |Members(colors, assignment, cluster)| > 0
    ensures InColorRange(colors, AverageColor(Members(colors, assignment, cluster)).value)
  {
    var ms := Members(colors, assignment, cluster);
    forall ch
      ensures Lowest(colors, ch) <= Get(AverageColor(ms).value, ch) <= Highest(colors, ch)
    {
      forall m | 0 <= m < |ms|
        ensures Lowest(colors, ch) <= Get(ms[m], ch) <= Highest(colors, ch)
      {
        MembersAreAssigned(colors, assignment, cluster);
        var i :| 0 <= i < |colors| && assignment[i] == cluster && ms[m] == colors[i];
      }
      AverageWithinBounds(ms, ch, Lowest(colors, ch), Highest(colors, ch));
    }
  }

  /** The update step keeps every centroid within the colours' range. */
  lemma RecomputeInRange(colors: seq<Color>, assignment: seq<nat>, centroids: seq<Color>)
    requires |assignment| == |colors| && |colors| > 0
    requires forall j :: 0 <= j < |centroids| ==> InColorRange(colors, centroids[j])
    ensures forall j :: 0 <= j < |centroids| ==> InColorRange(colors, Recompute(colors, assignment, centroids)[j])
  {
    forall j | 0 <= j < |centroids|
      ensures InColorRange(colors, Recompute(colors, assignment, centroids)[j])
    {
      CentroidInRange(colors, assignment, centroids, j);
    }
  }

  /** Centroid j after the update step is in range. */
  lemma CentroidInRange(colors: seq<Color>, assignment: seq<nat>, centroids: seq<Color>, j: nat)
    requires |assignment| == |colors| && |colors| > 0 && j < |centroids|
    requires InColorRange(colors, centroids[j])
    ensures InColorRange(colors, Recompute(colors, assignment, centroids)[j])
  {
    RecomputeMovesToMean(colors, assignment, centroids, j);
    if |Members(colors, assignment, j)| > 0 {
      MembersMeanInRange(colors, assignment, j);
    }
  }

  /** Colours drawn from a shuffle of the list lie within its range. */
  lemma PickedInRange(colors: seq<Color>, shuffled: seq<Color>, take: nat)
    requires |colors| > 0 && take <= |shuffled| && multiset(shuffled) == multiset(colors)
    ensures forall j :: 0 <= j < take ==> InColorRange(colors, shuffled[j])
  {
    forall j | 0 <= j < take
      ensures InColorRange(colors, shuffled[j])
    {
      assert shuffled[j] in multiset(shuffled);
      var i :| 0 <= i < |colors| && colors[i] == shuffled[j];
    }
  }

  /** The initial centroids, taken from a shuffle of the colours, are
      colours of the image. */
  lemma PickedAreInputColors(colors: seq<Color>, shuffled: seq<Color>, take: nat)
    requires take <= |shuffled| && multiset(shuffled) == multiset(colors)
    ensures forall j :: 0 <= j < take ==> shuffled[j] in colors
  {
    forall j | 0 <= j < take
      ensures shuffled[j] in colors
    {
      assert shuffled[j] in multiset(shuffled);
    }
  }

  /** `Take(k)` on a list of n: how many initial centroids there are. */
  function TakeCount(k: int, n: nat): (t: nat)
    ensures t <= n
    ensures k >= 0 ==> t == if k < n then k else n
    ensures k < 0 ==> t == 0
  {
    if k <= 0 then 0 else if k < n then k else n
  }

  /** The centroids and the assignment after some number of passes. */
  datatype Pass = Pass(centroids: seq<Color>, assignment: seq<nat>)

  /** One pass: reassign every colour to its closest centroid, then move the
      centroids. */
  function Step(colors: seq<Color>, p: Pass): (q: Pass)
    ensures |q.centroids| == |p.centroids| && |q.assignment| == |colors|
  {
    var next := AssignAll(colors, p.centroids);
    Pass(Recompute(colors, next, p.centroids), next)
  }

  /** The state t passes after p. */
  function RunFrom(colors: seq<Color>, p: Pass, t: nat): (q: Pass)
    requires |p.assignment| == |colors|
    ensures |q.centroids| == |p.centroids| && |q.assignment| == |colors|
    decreases t
  {
    if t == 0 then p else RunFrom(colors, Step(colors, p), t - 1)
  }

  /** One more pass is one more step from where t passes end. */
  lemma {:induction false} RunFromStep(colors: seq<Color>, p: Pass, t: nat)
    requires |p.assignment| == |colors|
    ensures RunFrom(colors, p, t + 1) == Step(colors, RunFrom(colors, p, t))
    decreases t
  {
    if t > 0 {
      var q := Step(colors, p);
      RunFromStep(colors, q, t - 1);
      assert RunFrom(colors, p, t + 1) == RunFrom(colors, q, t);
      assert RunFrom(colors, p, t) == RunFrom(colors, q, t - 1);
    }
  }

  /** The reference run of the loop: the state after t passes from the
      initial centroids, every assignment starting at 0 as in
      `new int[colors.Count]`. A pass reassigns every colour, then moves the
      centroids. */
  function Run(colors: seq<Color>, initial: seq<Color>, t: nat): (p: Pass)
    ensures |p.centroids| == |initial| && |p.assignment| == |colors|
  {
    RunFrom(colors, Pass(initial, seq(|colors|, _ => 0)), t)
  }

  /** Pass t + 1 starts from the state pass t ended in. */
  lemma RunStep(colors: seq<Color>, initial: seq<Color>, t: nat)
    ensures Run(colors, initial, t + 1) == Step(colors, Run(colors, initial, t))
  {
    RunFromStep(colors, Pass(initial, seq(|colors|, _ => 0)), t);
  }

  /** Pass t (counting from 1) changed some colour's assignment. */
  predicate Changed(colors: seq<Color>, initial: seq<Color>, t: nat)
    requires t >= 1
  {
    Run(colors, initial, t).assignment != Run(colors, initial, t - 1).assignment
  }

  /** Moving the centroids twice for the same assignment moves them once:
      a cluster with members is already at their mean, and one without
      stays where it is. */
  lemma RecomputeIdempotent(colors: seq<Color>, assignment: seq<nat>, centroids: seq<Color>)
    requires |assignment| == |colors|
    ensures Recompute(colors, assignment, Recompute(colors, assignment, centroids)) == Recompute(colors, assignment, centroids)
  {
    var once := Recompute(colors, assignment, centroids);
    var twice := Recompute(colors, assignment, once);
    forall j | 0 <= j < |centroids|
      ensures twice[j] == once[j]
    {
      assert twice[j] == Moved(colors, assignment, once, j);
      assert once[j] == Moved(colors, assignment, centroids, j);
    }
  }

  /** Stopping when a pass changes nothing loses nothing: from the second
      pass on, a pass that keeps every assignment leaves the centroids where
      they were, so every further pass would repeat the same state. */
  lemma {:induction false} StableIsFixedPoint(colors: seq<Color>, initial: seq<Color>, t: nat)
    requires t >= 2 && !Changed(colors, initial, t)
    ensures Run(colors, initial, t).centroids == Run(colors, initial, t - 1).centroids
    ensures Run(colors, initial, t + 1) == Run(colors, initial, t)
  {
    RunStep(colors, initial, t - 2);
    RunStep(colors, initial, t - 1);
    RunStep(colors, initial, t);
    var a := Run(colors, initial, t).assignment;
    var c := Run(colors, initial, t - 2).centroids;
    assert Run(colors, initial, t - 1).assignment == a;
    assert Run(colors, initial, t - 1).centroids == Recompute(colors, a, c);
    RecomputeIdempotent(colors, a, c);
  }

  /** The state k-means ends in: the centroids, the last assignment, the
      number of completed passes and whether the last one changed any
      assignment. */
  datatype Clustering = Clustering(centroids: seq<Color>, assignment: seq<nat>, iterations: nat, changed: bool)

  /** One iteration: reassign every colour, then move the centroids. */
  method Iterate(colors: seq<Color>, centroids: seq<Color>) returns (moved: seq<Color>, next: seq<nat>)
    requires |colors| > 0 ==> forall j :: 0 <= j < |centroids| ==> InColorRange(colors, centroids[j])
    ensures next == AssignAll(colors, centroids) && |next| == |colors|
    ensures moved == Recompute(colors, next, centroids) && |moved| == |centroids|
    ensures |colors| > 0 ==> forall j :: 0 <= j < |moved| ==> InColorRange(colors, moved[j])
  {
    next := AssignAll(colors, centroids);
    moved := Recompute(colors, next, centroids);
    if |colors| > 0 {
      RecomputeInRange(colors, next, centroids);
    }
  }

  /** The loop's exit test once t passes are done: the cap is reached, the
      next pass sees the cancellation, or pass t changed no assignment.
      Before the first pass only a cancellation stops it, since the test of
      `changed` comes after the body of the `do` loop. */
  predicate Stops(colors: seq<Color>, initial: seq<Color>, cancelled: nat -> bool, t: nat) {
    t >= MaxIterations || cancelled(t) || (t >= 1 && !Changed(colors, initial, t))
  }

  /** The loop keeps going past n when it kept going past every earlier
      count and does not stop at n. */
  lemma GoesOn(colors: seq<Color>, initial: seq<Color>, cancelled: nat -> bool, n: nat)
    requires forall s :: 0 <= s < n ==> !Stops(colors, initial, cancelled, s)
    requires !Stops(colors, initial, cancelled, n)
    ensures forall s :: 0 <= s < n + 1 ==> !Stops(colors, initial, cancelled, s)
  {
  }

  /** At most one count is the first at which the loop stops. */
  lemma FirstStopUnique(colors: seq<Color>, initial: seq<Color>, cancelled: nat -> bool, n: nat, m: nat)
    requires Stops(colors, initial, cancelled, n) && forall s :: 0 <= s < n ==> !Stops(colors, initial, cancelled, s)
    requires Stops(colors, initial, cancelled, m) && forall s :: 0 <= s < m ==> !Stops(colors, initial, cancelled, s)
    ensures n == m
  {
  }

  /** What stopping first at n means: no pass before n was cancelled, every
      pass before n changed some assignment, and unless the cap was reached
      or the next pass was cancelled, pass n changed nothing. */
  lemma EarlyExitMeansStable(colors: seq<Color>, initial: seq<Color>, cancelled: nat -> bool, n: nat, s: nat)
    requires Stops(colors, initial, cancelled, n) && forall s :: 0 <= s < n ==> !Stops(colors, initial, cancelled, s)
    ensures s < n ==> !cancelled(s)
    ensures 1 <= s < n ==> Changed(colors, initial, s)
    ensures n < MaxIterations && !cancelled(n) ==> n >= 1 && !Changed(colors, initial, n)
  {
    if s < n {
      assert !Stops(colors, initial, cancelled, s);
    }
  }

  /** Pass t + 1 of the reference run, from the state after pass t, and
      whether it changed an assignment. */
  method Advance(colors: seq<Color>, initial: seq<Color>, centroids: seq<Color>, assignment: seq<nat>, t: nat)
    returns (moved: seq<Color>, next: seq<nat>, changed: bool)
    requires centroids == Run(colors, initial, t).centroids && assignment == Run(colors, initial, t).assignment
    requires |colors| > 0 ==> forall j :: 0 <= j < |centroids| ==> InColorRange(colors, centroids[j])
    ensures moved == Run(colors, initial, t + 1).centroids && next == Run(colors, initial, t + 1).assignment
    ensures changed <==> Changed(colors, initial, t + 1)
    ensures |colors| > 0 ==> forall j :: 0 <= j < |moved| ==> InColorRange(colors, moved[j])
  {
    moved, next := Iterate(colors, centroids);
    changed := next != assignment;
    RunStep(colors, initial, t);
  }

  /** The loop of `KMeans` from the given initial centroids: every iteration
      first checks for cancellation, then reassigns every colour, then moves
      the centroids; it repeats while an assignment changed and fewer than
      100 iterations ran. The result is the reference run after as many
      passes as the exit test allows. */
  method Converge(colors: seq<Color>, initial: seq<Color>, cancelled: nat -> bool) returns (res: Clustering)
    requires |colors| > 0 ==> forall j :: 0 <= j < |initial| ==> InColorRange(colors, initial[j])
    ensures Stops(colors, initial, cancelled, res.iterations)
    ensures forall s :: 0 <= s < res.iterations ==> !Stops(colors, initial, cancelled, s)
    ensures res.centroids == Run(colors, initial, res.iterations).centroids
    ensures res.assignment == Run(colors, initial, res.iterations).assignment
    ensures res.changed <==> res.iterations > 0 && Changed(colors, initial, res.iterations)
    ensures |colors| > 0 ==> forall j :: 0 <= j < |res.centroids| ==> InColorRange(colors, res.centroids[j])
  {
    if cancelled(0) {
      return Clustering(initial, seq(|colors|, _ => 0), 0, false);
    }
    var centroids, assignment, changed := Advance(colors, initial, initial, seq(|colors|, _ => 0), 0);
    var iterations: nat := 1;
    while changed && iterations < MaxIterations && !cancelled(iterations)
      invariant 1 <= iterations <= MaxIterations
      invariant forall s :: 0 <= s < iterations ==> !Stops(colors, initial, cancelled, s)
      invariant centroids == Run(colors, initial, iterations).centroids
      invariant assignment == Run(colors, initial, iterations).assignment
      invariant changed <==> Changed(colors, initial, iterations)
      invariant |colors| > 0 ==> forall j :: 0 <= j < |centroids| ==> InColorRange(colors, centroids[j])
      decreases MaxIterations - iterations
    {
      GoesOn(colors, initial, cancelled, iterations);
      centroids, assignment, changed := Advance(colors, initial, centroids, assignment, iterations);
      iterations := iterations + 1;
    }
    res := Clustering(centroids, assignment, iterations, changed);
  }

  /** `KMeans`: the initial centroids are the first k colours of a shuffle of
      the list (the random order is a parameter), then the loop runs. */
  method KMeans(colors: seq<Color>, k: int, shuffled: seq<Color>, cancelled: nat -> bool) returns (res: Clustering)
    requires |shuffled| == |colors| && multiset(shuffled) == multiset(colors)
    ensures |res.centroids| == TakeCount(k, |colors|) && |res.assignment| == |colors|
    ensures Stops(colors, shuffled[..TakeCount(k, |colors|)], cancelled, res.iterations)
    ensures forall s :: 0 <= s < res.iterations ==> !Stops(colors, shuffled[..TakeCount(k, |colors|)], cancelled, s)
    ensures res.centroids == Run(colors, shuffled[..TakeCount(k, |colors|)], res.iterations).centroids
    ensures res.assignment == Run(colors, shuffled[..TakeCount(k, |colors|)], res.iterations).assignment
    ensures |colors| > 0 ==> forall j :: 0 <= j < |res.centroids| ==> InColorRange(colors, res.centroids[j])
  {
    var take := TakeCount(k, |colors|);
    if |colors| > 0 {
      PickedInRange(colors, shuffled, take);
    }
    res := Converge(colors, shuffled[..take], cancelled);
  }

  /** The recolouring of `StartGeneration`: every pixel becomes the palette
      colour closest to it. The pixels are listed column by column, mapped,
      and written back with `SetPixel` in the same order. Indexing the palette
      fails when it is empty and there is a pixel. */
  function ApplyPalette(img: Image<Color>, palette: seq<Color>): (r: Result<Image<Color>>)
    requires img.Valid()
    ensures r.Err? <==> |palette| == 0 && |img.pixels| > 0
    ensures r.Ok? ==> r.value.width == img.width && r.value.height == img.height && r.value.Valid()
    ensures r.Ok? ==> forall p :: img.Contains(p) ==>
      && Closest(At(img, p), palette) < |palette|
      && At(r.value, p) == palette[Closest(At(img, p), palette)]
      && forall j :: 0 <= j < |palette| ==> ColorDistance(At(img, p), At(r.value, p)) <= ColorDistance(At(img, p), palette[j])
  {
    if |palette| == 0 && |img.pixels| > 0 then Err("pallet is empty")
    else
      var cs := ColumnMajor(img);
      var mapped := seq(|cs|, i requires 0 <= i < |cs| => palette[Closest(cs[i], palette)]);
      var out := Image(img.width, img.height, FromColumnMajor(img.width, img.height, mapped));
      assert forall p :: img.Contains(p) ==> At(out, p) == palette[Closest(At(img, p), palette)] by {
        forall p | img.Contains(p)
          ensures At(out, p) == palette[Closest(At(img, p), palette)]
        {
          FromColumnMajorAt(img.width, img.height, mapped, p);
          assert At(out, p) == mapped[ColumnIndex(img.height, p)];
        }
      }
      Ok(out)
  }

  /** Every pixel of a recoloured image has a palette colour. */
  ghost predicate UsesPalette(img: Image<Color>, palette: seq<Color>)
    requires img.Valid()
  {
    forall p :: img.Contains(p) ==> At(img, p) in palette
  }

  /** A recoloured image uses only palette colours. */
  lemma ApplyPaletteUsesPalette(img: Image<Color>, palette: seq<Color>)
    requires img.Valid() && ApplyPalette(img, palette).Ok?
    ensures UsesPalette(ApplyPalette(img, palette).value, palette)
  {
    var out := ApplyPalette(img, palette).value;
    forall p | out.Contains(p)
      ensures At(out, p) in palette
    {
      assert At(out, p) == palette[Closest(At(img, p), palette)];
    }
  }

  /** An image whose every pixel copies some pixel of a palette image is a
      palette image too. */
  lemma UsesPaletteTransfers(src: Image<Color>, dst: Image<Color>, palette: seq<Color>)
    requires src.Valid() && dst.Valid() && dst.width == src.width && dst.height == src.height
    requires UsesPalette(src, palette)
    requires forall p :: src.Contains(p) ==> exists q :: src.Contains(q) && At(dst, p) == At(src, q)
    ensures UsesPalette(dst, palette)
  {
    forall p | dst.Contains(p)
      ensures At(dst, p) in palette
    {
      assert src.Contains(p);
      var q :| src.Contains(q) && At(dst, p) == At(src, q);
    }
  }

  /** One `ReplaceSmallParticles` pass over a palette image: its outcome,
      whose image is again a palette image of the same size. */
  method CleanPass(img: Image<Color>, palette: seq<Color>, scale: real, tolerance: real,
                   dist: (nat, nat) -> real, cancelled: nat -> bool)
    returns (out: Image<Color>, small: seq<Chunk<Color>>, large: seq<Chunk<Color>>, done: nat)
    requires img.Valid() && UsesPalette(img, palette)
    ensures Denoise.Cleaned(img, out, small, large, done, scale, tolerance, dist, cancelled)
    ensures out.width == img.width && out.height == img.height && out.Valid()
    ensures UsesPalette(out, palette)
  {
    out, small, large, done := Denoise.ReplaceSmallParticles(img, scale, tolerance, dist, cancelled);
    assert Denoise.Cleaned(img, out, small, large, done, scale, tolerance, dist, cancelled);
    Denoise.ReplaceKeepsColors(img, out, small, large, done, tolerance, dist);
    UsesPaletteTransfers(img, out, palette);
  }

  /** `StartGeneration`: cluster the pixels, recolour with the centroids,
      then remove small particles twice, first below 0.0000165 of the pixel
      count at tolerance 0.1, then below 0.00001 at tolerance 0.6. The
      palette is the k-means result after `iterations` passes, and
      `quantized` is the recoloured image the two passes start from. */
  method StartGeneration(img: Image<Color>, k: int, shuffled: seq<Color>, cancelled: nat -> bool,
                         dist1: (nat, nat) -> real, cancelled1: nat -> bool,
                         dist2: (nat, nat) -> real, cancelled2: nat -> bool)
    returns (r: Result<Image<Color>>, palette: seq<Color>, iterations: nat, quantized: Image<Color>,
             first: Denoise.Cleaning, second: Denoise.Cleaning)
    requires img.Valid()
    requires |shuffled| == |img.pixels| && multiset(shuffled) == multiset(ColumnMajor(img))
    ensures |palette| == TakeCount(k, |img.pixels|)
    ensures Stops(ColumnMajor(img), shuffled[..TakeCount(k, |img.pixels|)], cancelled, iterations)
    ensures forall s :: 0 <= s < iterations ==> !Stops(ColumnMajor(img), shuffled[..TakeCount(k, |img.pixels|)], cancelled, s)
    ensures palette == Run(ColumnMajor(img), shuffled[..TakeCount(k, |img.pixels|)], iterations).centroids
    ensures r.Err? <==> ApplyPalette(img, palette).Err?
    ensures r.Err? <==> |palette| == 0 && |img.pixels| > 0
    ensures r.Ok? ==> quantized == ApplyPalette(img, palette).value
    ensures r.Ok? ==> quantized.Valid() && Denoise.Cleaned(quantized, first.out, first.small, first.large, first.done, FirstPassScale, FirstPassTolerance, dist1, cancelled1)
    ensures r.Ok? ==> first.out.Valid() && Denoise.Cleaned(first.out, second.out, second.small, second.large, second.done, SecondPassScale, SecondPassTolerance, dist2, cancelled2)
    ensures r.Ok? ==> r.value == second.out
    ensures r.Ok? ==> r.value.width == img.width && r.value.height == img.height && r.value.Valid()
    ensures r.Ok? ==> UsesPalette(r.value, palette)
  {
    var clustering := KMeans(ColumnMajor(img), k, shuffled, cancelled);
    palette, iterations := clustering.centroids, clustering.iterations;
    var applied := ApplyPalette(img, palette);
    if applied.Err? {
      var none := Denoise.Cleaning(img, [], [], 0);
      return Err(applied.message), palette, iterations, img, none, none;
    }
    quantized := applied.value;
    ApplyPaletteUsesPalette(img, palette);
    var out1, small1, large1, done1 := CleanPass(quantized, palette, FirstPassScale, FirstPassTolerance, dist1, cancelled1);
    first := Denoise.Cleaning(out1, small1, large1, done1);
    var out2, small2, large2, done2 := CleanPass(out1, palette, SecondPassScale, SecondPassTolerance, dist2, cancelled2);
    second := Denoise.Cleaning(out2, small2, large2, done2);
    r := Ok(second.out);
  }
}

=== FILE: labels.dfy ===
/** Where a chunk's number goes and which number it is: `FindChunkCenter`
    and the palette lookup of `DrawNumberOnTexture` in WriteNumber, with the
    decimal digits of `int.ToString`. */
module Labels {
  import opened Wrappers
  import opened Colors
  import opened Grid

  /** C#'s integer division by a positive divisor: the quotient is truncated
      toward zero, so a negative dividend rounds up, unlike Dafny's `/`. */
  function TruncDiv(a: int, b: int): (q: int)
    requires b > 0
    ensures a >= 0 ==> q * b <= a < q * b + b
    ensures a < 0 ==> q * b - b < a <= q * b
  {
    if a >= 0 then a / b else -((-a) / b)
  }

  lemma MulStep(q: int, lo: int, n: int)
    requires n > 0 && q > lo
    ensures q * n >= lo * n + n
  {
    MulMonotone(1, q - lo, n);
  }

  /** A truncated quotient of a value between n*lo and n*hi lies between lo
      and hi. */
  lemma TruncDivBetween(a: int, n: int, lo: int, hi: int)
    requires n > 0 && n * lo <= a <= n * hi
    ensures lo <= TruncDiv(a, n) <= hi
  {
    var q := TruncDiv(a, n);
    if q > hi {
      MulStep(q, hi, n);
    }
    if q < lo {
      MulStep(lo, q, n);
    }
  }

  /** The smallest rectangle holding a group: `minX`, `maxX`, `minY`, `maxY`. */
  datatype Box = Box(minX: int, maxX: int, minY: int, maxY: int) {
    predicate Holds(p: Pos) {
      minX <= p.x <= maxX && minY <= p.y <= maxY
    }
  }

  /** The first loop of `FindChunkCenter`: the extreme coordinates. */
  function BoundingBox(g: seq<Pos>): (b: Box)
    requires |g| > 0
    ensures forall p :: p in g ==> b.Holds(p)
    decreases |g|
  {
    if |g| == 1 then Box(g[0].x, g[0].x, g[0].y, g[0].y)
    else
      var b := BoundingBox(g[..|g| - 1]);
      var p := g[|g| - 1];
      assert forall q :: q in g ==> q in g[..|g| - 1] || q == p;
      Box(if p.x < b.minX then p.x else b.minX, if p.x > b.maxX then p.x else b.maxX,
          if p.y < b.minY then p.y else b.minY, if p.y > b.maxY then p.y else b.maxY)
  }

  /** The box is tight: each of its four edges touches a member. */
  lemma {:induction false} BoundingBoxTight(g: seq<Pos>)
    requires |g| > 0
    ensures exists p :: p in g && p.x == BoundingBox(g).minX
    ensures exists p :: p in g && p.x == BoundingBox(g).maxX
    ensures exists p :: p in g && p.y == BoundingBox(g).minY
    ensures exists p :: p in g && p.y == BoundingBox(g).maxY
    decreases |g|
  {
    if |g| > 1 {
      var init := g[..|g| - 1];
      BoundingBoxTight(init);
      assert forall q :: q in init ==> q in g;
      assert g[|g| - 1] in g;
    } else {
      assert g[0] in g;
    }
  }

  /** The midpoint of the box, each coordinate truncated toward zero. */
  function Midpoint(b: Box): Pos {
    Pos(TruncDiv(b.minX + b.maxX, 2), TruncDiv(b.minY + b.maxY, 2))
  }

  function SumX(g: seq<Pos>): int
    decreases |g|
  {
    if |g| == 0 then 0 else SumX(g[..|g| - 1]) + g[|g| - 1].x
  }

  function SumY(g: seq<Pos>): int
    decreases |g|
  {
    if |g| == 0 then 0 else SumY(g[..|g| - 1]) + g[|g| - 1].y
  }

  lemma {:induction false} SumXInBox(g: seq<Pos>, b: Box)
    requires forall p :: p in g ==> b.Holds(p)
    ensures |g| * b.minX <= SumX(g) <= |g| * b.maxX
    decreases |g|
  {
    if |g| > 0 {
      var n := |g| - 1;
      assert forall q :: q in g[..n] ==> q in g;
      SumXInBox(g[..n], b);
      assert g[n] in g;
      assert |g| * b.minX == n * b.minX + b.minX;
      assert |g| * b.maxX == n * b.maxX + b.maxX;
    }
  }

  lemma {:induction false} SumYInBox(g: seq<Pos>, b: Box)
    requires forall p :: p in g ==> b.Holds(p)
    ensures |g| * b.minY <= SumY(g) <= |g| * b.maxY
    decreases |g|
  {
    if |g| > 0 {
      var n := |g| - 1;
      assert forall q :: q in g[..n] ==> q in g;
      SumYInBox(g[..n], b);
      assert g[n] in g;
      assert |g| * b.minY == n * b.minY + b.minY;
      assert |g| * b.maxY == n * b.maxY + b.maxY;
    }
  }

  /** The fallback of `FindChunkCenter`: the mean position, each coordinate
      truncated toward zero. */
  function Mean(g: seq<Pos>): Pos
    requires |g| > 0
  {
    Pos(TruncDiv(SumX(g), |g|), TruncDiv(SumY(g), |g|))
  }

  /** The truncated mean lies in the bounding box, whatever the signs of the
      coordinates. */
  lemma MeanInBox(g: seq<Pos>)
    requires |g| > 0
    ensures BoundingBox(g).Holds(Mean(g))
  {
    var b := BoundingBox(g);
    SumXInBox(g, b);
    SumYInBox(g, b);
    TruncDivBetween(SumX(g), |g|, b.minX, b.maxX);
    TruncDivBetween(SumY(g), |g|, b.minY, b.maxY);
  }

  /* ---------- The mean as the code computes it, in 32-bit ints ---------- */

  const TwoTo31: int := 0x8000_0000
  const TwoTo32: int := 0x1_0000_0000

  /** An unchecked C# `int`: the value brought into [-2^31, 2^31) modulo 2^32. */
  function Wrap32(x: int): (w: int)
    ensures -TwoTo31 <= w < TwoTo31
    ensures -TwoTo31 <= x < TwoTo31 ==> w == x
  {
    (x + TwoTo31) % TwoTo32 - TwoTo31
  }

  /** Wrapping after every addition is wrapping once at the end. */
  lemma WrapAdd(a: int, b: int)
    ensures Wrap32(Wrap32(a) + b) == Wrap32(a + b)
  {
    var k := (a + TwoTo31) / TwoTo32;
    assert Wrap32(a) == a - k * TwoTo32;
    ShiftMod(a + b + TwoTo31, k);
  }

  lemma ShiftMod(x: int, k: int)
    ensures (x - k * TwoTo32) % TwoTo32 == x % TwoTo32
  {
    var q := x / TwoTo32;
    var r := x % TwoTo32;
    assert x - k * TwoTo32 == (q - k) * TwoTo32 + r;
  }

  /** `sumX += pixel.x` over the group in `int`, wrapping on overflow. */
  function SumX32(g: seq<Pos>): int
    decreases |g|
  {
    if |g| == 0 then 0 else Wrap32(SumX32(g[..|g| - 1]) + g[|g| - 1].x)
  }

  function SumY32(g: seq<Pos>): int
    decreases |g|
  {
    if |g| == 0 then 0 else Wrap32(SumY32(g[..|g| - 1]) + g[|g| - 1].y)
  }

  lemma {:induction false} SumX32Wraps(g: seq<Pos>)
    ensures SumX32(g) == Wrap32(SumX(g))
    decreases |g|
  {
    if |g| > 0 {
      SumX32Wraps(g[..|g| - 1]);
      WrapAdd(SumX(g[..|g| - 1]), g[|g| - 1].x);
    }
  }

  lemma {:induction false} SumY32Wraps(g: seq<Pos>)
    ensures SumY32(g) == Wrap32(SumY(g))
    decreases |g|
  {
    if |g| > 0 {
      SumY32Wraps(g[..|g| - 1]);
      WrapAdd(SumY(g[..|g| - 1]), g[|g| - 1].y);
    }
  }

  /** The fallback of `FindChunkCenter` as written: the sums are C# `int`s,
      so they wrap, and the wrapped sums are divided by the count. */
  function WrappedMean(g: seq<Pos>): Pos
    requires |g| > 0
  {
    Pos(TruncDiv(SumX32(g), |g|), TruncDiv(SumY32(g), |g|))
  }

  /** While both coordinate sums fit in an `int`, the code's mean is the
      mean. */
  lemma WrappedMeanAgrees(g: seq<Pos>)
    requires |g| > 0
    requires -TwoTo31 <= SumX(g) < TwoTo31 && -TwoTo31 <= SumY(g) < TwoTo31
    ensures WrappedMean(g) == Mean(g)
  {
    SumX32Wraps(g);
    SumY32Wraps(g);
  }

  /** A group of non-negative x coordinates whose x sum wraps to at most
      minus the pixel count gets a negative mean x: a point left of the
      image, outside the group's bounding box. */
  lemma WrappedMeanLeavesBox(g: seq<Pos>)
    requires |g| > 0 && forall p :: p in g ==> p.x >= 0
    requires Wrap32(SumX(g)) <= -|g|
    ensures WrappedMean(g).x < 0
    ensures !BoundingBox(g).Holds(WrappedMean(g))
  {
    SumX32Wraps(g);
    var q := TruncDiv(SumX32(g), |g|);
    if q >= 0 {
      MulMonotone(0, q, |g|);
      assert false;
    }
    BoundingBoxTight(g);
    var p :| p in g && p.x == BoundingBox(g).minX;
  }

  /** The numbers of a 3500 x 3500 image whose one chunk is everything but
      a central 1000 x 1000 square: the x coordinates sum to 19,681,875,000
      over 11,250,000 pixels. The `int` sum wraps to -1,792,961,480, so the
      mean x is -159 where the true mean is 1749. */
  lemma WholeImageChunkWraps()
    ensures Wrap32(19_681_875_000) == -1_792_961_480
    ensures TruncDiv(-1_792_961_480, 11_250_000) == -159
    ensures TruncDiv(19_681_875_000, 11_250_000) == 1749
  {
    assert 19_681_875_000 + TwoTo31 == 5 * TwoTo32 + 354_522_168;
  }

  /** `random.Next(-1, 2)`: a step of -1, 0 or 1. */
  type Step = d: int | -1 <= d <= 1

  /** The number of jittered attempts. */
  const Attempts: nat := 10

  /** Attempt i: the midpoint moved by the i-th random step and clamped back
      into the box. */
  function Candidate(b: Box, jitter: nat -> (Step, Step), i: nat): Pos {
    var mid := Midpoint(b);
    Pos(Clamp(mid.x + jitter(i).0, b.minX, b.maxX), Clamp(mid.y + jitter(i).1, b.minY, b.maxY))
  }

  /** The attempts from i on: the first candidate that is a member, else the
      mean. Each attempt first re-checks the midpoint, which is not a member
      once the first check failed, so only the candidates matter. */
  function Jittered(g: seq<Pos>, jitter: nat -> (Step, Step), i: nat): (c: Pos)
    requires |g| > 0 && i <= Attempts
    ensures c in g || c == Mean(g)
    decreases Attempts - i
  {
    if i == Attempts then Mean(g)
    else
      var c := Candidate(BoundingBox(g), jitter, i);
      if c in g then c else Jittered(g, jitter, i + 1)
  }

  /** `FindChunkCenter`: an empty group is an error; otherwise the midpoint
      of the bounding box when it is a member, else the first jittered
      candidate that is a member, else the truncated mean. The random steps
      are a parameter. */
  function FindChunkCenter(g: seq<Pos>, jitter: nat -> (Step, Step)): (r: Result<Pos>)
    ensures r.Err? <==> |g| == 0
    ensures r.Ok? ==> r.value in g || r.value == Mean(g)
    ensures r.Ok? && Midpoint(BoundingBox(g)) in g ==> r.value == Midpoint(BoundingBox(g))
    ensures r.Ok? ==> BoundingBox(g).Holds(r.value)
  {
    if |g| == 0 then Err("Group cannot be null or empty.")
    else
      var mid := Midpoint(BoundingBox(g));
      MeanInBox(g);
      if mid in g then Ok(mid) else Ok(Jittered(g, jitter, 0))
  }

  /** A centre outside the group is the mean, reached only after the
      midpoint and all ten clamped candidates missed the group. */
  lemma CenterOutsideIsMean(g: seq<Pos>, jitter: nat -> (Step, Step))
    requires |g| > 0 && FindChunkCenter(g, jitter).value !in g
    ensures FindChunkCenter(g, jitter).value == Mean(g)
    ensures Midpoint(BoundingBox(g)) !in g
    ensures forall i :: 0 <= i < Attempts ==> Candidate(BoundingBox(g), jitter, i) !in g
  {
    var b := BoundingBox(g);
    forall i | 0 <= i < Attempts
      ensures Candidate(b, jitter, i) !in g
    {
      if Candidate(b, jitter, i) in g {
        FirstMember(g, jitter, 0, i);
      }
    }
  }

  /** Attempt j lands on a member. */
  predicate Hits(g: seq<Pos>, jitter: nat -> (Step, Step), j: nat)
    requires |g| > 0
  {
    Candidate(BoundingBox(g), jitter, j) in g
  }

  /** If some attempt from `start` up to i hits, there is a first one. */
  lemma {:induction false} FirstHit(g: seq<Pos>, jitter: nat -> (Step, Step), start: nat, i: nat)
    returns (j: nat)
    requires |g| > 0 && start <= i && Hits(g, jitter, i)
    ensures start <= j <= i && Hits(g, jitter, j)
    ensures forall l :: start <= l < j ==> !Hits(g, jitter, l)
    decreases i - start
  {
    if Hits(g, jitter, start) {
      j := start;
    } else {
      j := FirstHit(g, jitter, start + 1, i);
    }
  }

  /** If a candidate at or after `start` is a member, the search from
      `start` returns a member. */
  lemma FirstMember(g: seq<Pos>, jitter: nat -> (Step, Step), start: nat, i: nat)
    requires |g| > 0 && start <= i < Attempts && Candidate(BoundingBox(g), jitter, i) in g
    ensures Jittered(g, jitter, start) in g
  {
    var j := FirstHit(g, jitter, start, i);
    JitteredTakesFirstHit(g, jitter, start, j);
  }

  /** The search returns the first attempt that hits. */
  lemma {:induction false} JitteredTakesFirstHit(g: seq<Pos>, jitter: nat -> (Step, Step), i: nat, j: nat)
    requires |g| > 0 && i <= j < Attempts && Hits(g, jitter, j)
    requires forall l :: i <= l < j ==> !Hits(g, jitter, l)
    ensures Jittered(g, jitter, i) == Candidate(BoundingBox(g), jitter, j)
    decreases j - i
  {
    if i < j {
      assert !Hits(g, jitter, i);
      JitteredTakesFirstHit(g, jitter, i + 1, j);
    }
  }

  /** When every attempt from i on misses, the search falls back to the
      mean. */
  lemma {:induction false} JitteredFallsBack(g: seq<Pos>, jitter: nat -> (Step, Step), i: nat)
    requires |g| > 0 && i <= Attempts
    requires forall l :: i <= l < Attempts ==> !Hits(g, jitter, l)
    ensures Jittered(g, jitter, i) == Mean(g)
    decreases Attempts - i
  {
    if i < Attempts {
      assert !Hits(g, jitter, i);
      JitteredFallsBack(g, jitter, i + 1);
    }
  }

  /** The first index holding a colour similar to `color`, if any. */
  function FirstSimilar(palette: seq<Color>, color: Color, tolerance: real): (r: Option<nat>)
    ensures r.Some? ==> r.value < |palette| && AreColorsSimilar(color, palette[r.value], tolerance)
    ensures r.Some? ==> forall j :: 0 <= j < r.value ==> !AreColorsSimilar(color, palette[j], tolerance)
    ensures r.None? <==> forall j :: 0 <= j < |palette| ==> !AreColorsSimilar(color, palette[j], tolerance)
    decreases |palette|
  {
    if |palette| == 0 then None
    else if AreColorsSimilar(color, palette[0], tolerance) then Some(0)
    else match FirstSimilar(palette[1..], color, tolerance)
      case None => None
      case Some(i) => Some(i + 1)
  }

  /** `List.IndexOf`: the first index of an equal colour, or -1. */
  function IndexOf(palette: seq<Color>, c: Color): (i: int)
    ensures -1 <= i < |palette|
    ensures i >= 0 ==> palette[i] == c && forall j :: 0 <= j < i ==> palette[j] != c
    ensures i == -1 <==> c !in palette
    decreases |palette|
  {
    if |palette| == 0 then -1
    else if palette[0] == c then 0
    else
      var i := IndexOf(palette[1..], c);
      assert c in palette[1..] ==> c in palette;
      assert c in palette && palette[0] != c ==> c in palette[1..];
      if i == -1 then -1 else i + 1
  }

  /** The tolerance of the palette lookup. */
  const LabelTolerance: real := 0.05

  /** The number `DrawNumberOnTexture` writes, as the code stands:
      `FirstOrDefault` yields `default(Color)`, the transparent black, when no
      palette colour is similar, and `clr == null` on a struct is never true,
      so the lookup goes on with `IndexOf(default) + 1`. */
  function AsWrittenNumber(palette: seq<Color>, color: Color): (n: int)
    ensures 0 <= n <= |palette|
    ensures FirstSimilar(palette, color, LabelTolerance).Some? ==> n == FirstSimilar(palette, color, LabelTolerance).value + 1
    ensures FirstSimilar(palette, color, LabelTolerance).None? ==> n == IndexOf(palette, Clear) + 1
  {
    match FirstSimilar(palette, color, LabelTolerance)
    case None => IndexOf(palette, Clear) + 1
    case Some(i) => IndexOf(palette, palette[i]) + 1
  }

  /** A colour similar to no palette entry is still labelled: with a palette
      of white alone, an opaque black chunk gets the number 0. */
  lemma MissIsLabelledZero()
    ensures AsWrittenNumber([White], Color(0.0, 0.0, 0.0, 1.0)) == 0
  {
    assert !AreColorsSimilar(Color(0.0, 0.0, 0.0, 1.0), White, LabelTolerance);
  }

  /** The number as intended: one more than the first similar palette index,
      and no number at all when nothing is similar. */
  function LabelNumber(palette: seq<Color>, color: Color): (n: Option<nat>)
    ensures n.None? <==> forall j :: 0 <= j < |palette| ==> !AreColorsSimilar(color, palette[j], LabelTolerance)
    ensures n.Some? ==> 1 <= n.value <= |palette| && AreColorsSimilar(color, palette[n.value - 1], LabelTolerance)
    ensures n.Some? ==> forall j :: 0 <= j < n.value - 1 ==> !AreColorsSimilar(color, palette[j], LabelTolerance)
  {
    match FirstSimilar(palette, color, LabelTolerance)
    case None => None
    case Some(i) => Some(i + 1)
  }

  /** Where a similar colour exists, the code and the intent agree. */
  lemma LabelNumberAgrees(palette: seq<Color>, color: Color)
    requires LabelNumber(palette, color).Some?
    ensures AsWrittenNumber(palette, color) == LabelNumber(palette, color).value
  {
  }

  /** A palette entry is labelled with its own position unless an earlier
      entry is similar to it; two different palette colours can therefore
      share a number: the second of these is similar to the first. */
  lemma SimilarEntriesShareNumber()
    ensures LabelNumber([Color(0.92, 0.95, 0.0, 1.0), Color(0.9, 0.2, 0.2, 1.0)], Color(0.92, 0.95, 0.0, 1.0)) == Some(1)
    ensures LabelNumber([Color(0.92, 0.95, 0.0, 1.0), Color(0.9, 0.2, 0.2, 1.0)], Color(0.9, 0.2, 0.2, 1.0)) == Some(1)
  {
  }

  /** The decimal digits of `int.ToString` for a non-negative number, most
      significant first. */
  function Digits(n: nat): (ds: seq<nat>)
    ensures |ds| > 0 && (ds[0] == 0 ==> n == 0)
    ensures forall i :: 0 <= i < |ds| ==> ds[i] < 10
    decreases n
  {
    if n < 10 then [n] else Digits(n / 10) + [n % 10]
  }

  /** The value a digit list denotes. */
  function FromDigits(ds: seq<nat>): nat
    decreases |ds|
  {
    if |ds| == 0 then 0 else 10 * FromDigits(ds[..|ds| - 1]) + ds[|ds| - 1]
  }

  /** Reading the digits back gives the number. */
  lemma {:induction false} DigitsRoundTrip(n: nat)
    ensures FromDigits(Digits(n)) == n
    decreases n
  {
    if n >= 10 {
      DigitsRoundTrip(n / 10);
      var ds := Digits(n);
      assert ds[..|ds| - 1] == Digits(n / 10);
    }
  }

  /** A canonical digit list (digits below 10, no leading zero) is the
      rendering of the number it denotes. */
  lemma {:induction false} DigitsCanonical(ds: seq<nat>)
    requires |ds| > 0 && (|ds| > 1 ==> ds[0] != 0)
    requires forall i :: 0 <= i < |ds| ==> ds[i] < 10
    ensures Digits(FromDigits(ds)) == ds
    decreases |ds|
  {
    if |ds| > 1 {
      var init := ds[..|ds| - 1];
      DigitsCanonical(init);
      LeadingDigitPositive(init);
      var n := FromDigits(ds);
      DivModUnique(n, 10, FromDigits(init), ds[|ds| - 1]);
    }
  }

  /** A digit list whose leading digit is not zero denotes a positive number. */
  lemma {:induction false} LeadingDigitPositive(ds: seq<nat>)
    requires |ds| > 0 && ds[0] != 0
    ensures FromDigits(ds) > 0
    decreases |ds|
  {
    if |ds| > 1 {
      LeadingDigitPositive(ds[..|ds| - 1]);
    }
  }
}

=== FILE: numbers.dfy ===
/** `WriteNumber`: the final picture. The flood fill finds the chunks of the
    quantised image larger than a threshold, and each gets its palette
    number stamped on the outline image at its centre. The font's digit
    textures, the bilinear sampling that fills the upscaled digit strip, and
    the random jitter of the centre search are parameters; the size of the
    upscaled strip is computed. */
module WriteNumber {
  import opened Wrappers
  import opened Colors
  import opened Grid
  import opened Segmentation
  import opened Labels
  import opened Glyphs
  import opened Filters

  /** `MinGrayScale`: the size threshold as a fraction of the pixel count. */
  const FinalScale: real := 0.0000165

  /** The spacing `DrawNumberOnTexture` asks for between digit glyphs. */
  const DigitSpacing: int := -180

  /** The digit glyphs of a number, one per decimal digit. */
  function GlyphList(n: nat, font: nat -> Image<Color>): (ts: seq<Image<Color>>)
    ensures |ts| == |Digits(n)| > 0
    ensures forall i :: 0 <= i < |ts| ==> ts[i] == font(Digits(n)[i])
  {
    seq(|Digits(n)|, i requires 0 <= i < |Digits(n)| => font(Digits(n)[i]))
  }

  /** Every digit has a well-formed glyph texture. */
  predicate FontValid(font: nat -> Image<Color>) {
    forall d: nat :: d < 10 ==> font(d).Valid()
  }

  /** The digit strip of n: its glyphs copied side by side onto a
      transparent texture, or an error when the strip has no area. */
  function StripOf(n: nat, spacing: int, font: nat -> Image<Color>): (r: Result<Image<Color>>)
    requires FontValid(font)
    ensures r.Err? <==> TotalWidth(GlyphList(n, font), spacing) <= 0 || MaxHeight(GlyphList(n, font)) == 0
    ensures r.Ok? ==> r.value.width == TotalWidth(GlyphList(n, font), spacing) && r.value.height == MaxHeight(GlyphList(n, font))
  {
    var ts := GlyphList(n, font);
    if TotalWidth(ts, spacing) <= 0 || MaxHeight(ts) == 0 then Err("invalid texture size")
    else Ok(StripUpTo(ts, spacing, |ts|))
  }

  /** `GenerateCombinedTexture`: the glyphs of the number's digits laid side
      by side. */
  method GenerateCombinedTexture(n: nat, spacing: int, font: nat -> Image<Color>) returns (r: Result<Image<Color>>)
    requires FontValid(font)
    ensures r.Err? <==> TotalWidth(GlyphList(n, font), spacing) <= 0 || MaxHeight(GlyphList(n, font)) == 0
    ensures r.Ok? ==> StripOf(n, spacing, font).Ok? && r.value == StripOf(n, spacing, font).value
    ensures r.Ok? ==> r.value.width == TotalWidth(GlyphList(n, font), spacing) && r.value.Valid()
    ensures r.Ok? ==> r.value.height == MaxHeight(GlyphList(n, font))
    ensures r.Ok? && AllFit(GlyphList(n, font), spacing) ==>
      forall q :: r.value.Contains(q) ==> At(r.value, q) == Layer(GlyphList(n, font), spacing, |Digits(n)|, q)
  {
    var ts := GlyphList(n, font);
    var strip := CombineTexturesHorizontally(ts, spacing);
    if strip.Err? {
      return Err(strip.message);
    }
    r := Ok(strip.value.value);
  }

  /** The size `UpscaleTexture` gives the digit strip of n: the strip's
      longer side scaled to `fontSize`. */
  function StampSize(n: nat, font: nat -> Image<Color>): (r: Result<Pos>)
    ensures TotalWidth(GlyphList(n, font), DigitSpacing) <= 0 ==> r.Err?
    ensures r.Ok? ==> r.value.x > 0 && r.value.y > 0
    ensures r.Ok? ==> MaxHeight(GlyphList(n, font)) > 0
  {
    var ts := GlyphList(n, font);
    if TotalWidth(ts, DigitSpacing) <= 0 then Err("Texture has out of range width / height")
    else UpscaleSize(TotalWidth(ts, DigitSpacing) as nat, MaxHeight(ts), Pos(FontSize, FontSize))
  }

  /** A chunk can be labelled: the digit strip of the number the code looks
      up for its colour can be created, and so can its upscaled copy. */
  predicate Labelable(palette: seq<Color>, font: nat -> Image<Color>, c: Chunk<Color>) {
    StampSize(AsWrittenNumber(palette, c.color), font).Ok?
  }

  /** The digit strip stamped for number n, which the stamp reads upscaled;
      an empty texture stands in when the strip cannot be created, where
      nothing is stamped. */
  function NumberStrip(n: nat, font: nat -> Image<Color>): (strip: Image<Color>)
    requires FontValid(font)
    ensures StripOf(n, DigitSpacing, font).Ok? ==> StripOf(n, DigitSpacing, font) == Ok(strip)
  {
    match StripOf(n, DigitSpacing, font)
    case Ok(strip) => strip
    case Err(_) => Blank(0, 0)
  }

  /** Chunk k's centre: where its number is stamped. An empty chunk has
      none and stops the loop first; the origin stands in for it. */
  function CenterOf(chunks: seq<Chunk<Color>>, jitters: nat -> nat -> (Step, Step), k: nat): Pos
    requires k < |chunks|
  {
    match FindChunkCenter(chunks[k].group, jitters(k))
    case Ok(center) => center
    case Err(_) => Pos(0, 0)
  }

  /** Index i lies under the stamp of chunk k. */
  predicate StampedBy(n: nat, width: int, chunks: seq<Chunk<Color>>,
                      jitters: nat -> nat -> (Step, Step), k: nat, i: nat)
    requires k < |chunks| && |chunks[k].group| > 0
  {
    Covered(n, width, CenterOf(chunks, jitters, k), i)
  }

  /** No chunk before k puts its stamp over index i. */
  ghost predicate Untouched(n: nat, width: int, chunks: seq<Chunk<Color>>,
                            jitters: nat -> nat -> (Step, Step), k: nat, i: nat)
    requires k <= |chunks|
  {
    forall j :: 0 <= j < k && |chunks[j].group| > 0 ==> !StampedBy(n, width, chunks, jitters, j, i)
  }

  lemma UntouchedStep(n: nat, width: int, chunks: seq<Chunk<Color>>,
                      jitters: nat -> nat -> (Step, Step), k: nat, i: nat)
    requires k < |chunks| && |chunks[k].group| > 0
    requires Untouched(n, width, chunks, jitters, k + 1, i)
    ensures Untouched(n, width, chunks, jitters, k, i)
    ensures !StampedBy(n, width, chunks, jitters, k, i)
  {
  }

  /** A chunk the loop of `WriteLargeChunks` gets past: it has pixels and
      can be labelled. */
  function Ready(palette: seq<Color>, font: nat -> Image<Color>): Chunk<Color> -> bool {
    (c: Chunk<Color>) => |c.group| > 0 && Labelable(palette, font, c)
  }

  /** The first k chunks all satisfy `ok`. */
  predicate AllHold(chunks: seq<Chunk<Color>>, ok: Chunk<Color> -> bool, k: nat)
    requires k <= |chunks|
    decreases k
  {
    k == 0 || (AllHold(chunks, ok, k - 1) && ok(chunks[k - 1]))
  }

  lemma {:induction false} AllHoldAt(chunks: seq<Chunk<Color>>, ok: Chunk<Color> -> bool, k: nat, j: nat)
    requires j < k <= |chunks| && AllHold(chunks, ok, k)
    ensures ok(chunks[j])
    decreases k
  {
    if j < k - 1 {
      AllHoldAt(chunks, ok, k - 1, j);
    }
  }

  /** One chunk among the first k that fails `ok` breaks `AllHold`. */
  lemma {:induction false} OneFails(chunks: seq<Chunk<Color>>, ok: Chunk<Color> -> bool, k: nat, j: nat)
    requires j < k <= |chunks| && !ok(chunks[j])
    ensures !AllHold(chunks, ok, k)
    decreases k
  {
    if j < k - 1 {
      OneFails(chunks, ok, k - 1, j);
    }
  }

  lemma {:induction false} FailWitness(chunks: seq<Chunk<Color>>, ok: Chunk<Color> -> bool, k: nat)
    requires k <= |chunks| && !AllHold(chunks, ok, k)
    ensures exists j :: 0 <= j < k && !ok(chunks[j])
    decreases k
  {
    if AllHold(chunks, ok, k - 1) {
      assert !ok(chunks[k - 1]);
    } else {
      FailWitness(chunks, ok, k - 1);
    }
  }

  /** `AllHold` of every chunk fails exactly when some chunk fails `ok`. */
  lemma AllHoldIff(chunks: seq<Chunk<Color>>, ok: Chunk<Color> -> bool)
    ensures !AllHold(chunks, ok, |chunks|) <==> exists j :: 0 <= j < |chunks| && !ok(chunks[j])
  {
    if !AllHold(chunks, ok, |chunks|) {
      FailWitness(chunks, ok, |chunks|);
    } else if j :| 0 <= j < |chunks| && !ok(chunks[j]) {
      AllHoldAt(chunks, ok, |chunks|, j);
      assert false;
    }
  }

  /** The centres of the first k chunks, in order. */
  function Centers(chunks: seq<Chunk<Color>>, jitters: nat -> nat -> (Step, Step), k: nat): (cs: seq<Pos>)
    requires k <= |chunks|
    ensures |cs| == k
    decreases k
  {
    if k == 0 then [] else Centers(chunks, jitters, k - 1) + [CenterOf(chunks, jitters, k - 1)]
  }

  lemma {:induction false} CentersAt(chunks: seq<Chunk<Color>>, jitters: nat -> nat -> (Step, Step), k: nat, j: nat)
    requires j < k <= |chunks|
    ensures Centers(chunks, jitters, k)[j] == CenterOf(chunks, jitters, j)
    decreases k
  {
    if j < k - 1 {
      CentersAt(chunks, jitters, k - 1, j);
    }
  }

  /** The digit strips of the first k chunks, in order: each that of the
      number the code looks up for the chunk's colour. */
  function NumberStrips(chunks: seq<Chunk<Color>>, palette: seq<Color>, font: nat -> Image<Color>, k: nat): (ss: seq<Image<Color>>)
    requires FontValid(font) && k <= |chunks|
    ensures |ss| == k
    decreases k
  {
    if k == 0 then [] else NumberStrips(chunks, palette, font, k - 1) + [NumberStrip(AsWrittenNumber(palette, chunks[k - 1].color), font)]
  }

  lemma {:induction false} NumberStripsAt(chunks: seq<Chunk<Color>>, palette: seq<Color>, font: nat -> Image<Color>, k: nat, j: nat)
    requires FontValid(font) && j < k <= |chunks|
    ensures NumberStrips(chunks, palette, font, k)[j] == NumberStrip(AsWrittenNumber(palette, chunks[j].color), font)
    decreases k
  {
    if j < k - 1 {
      NumberStripsAt(chunks, palette, font, k - 1, j);
    }
  }

  /** `DrawNumberOnTexture` for one chunk at its centre, as the code stands:
      the chunk is always stamped, with the number `AsWrittenNumber` gives,
      even when no palette colour is similar to it. The digit strip is
      upscaled to fit `fontSize` × `fontSize` (`sample` stands for reading
      that upscaled texture), and creating either texture can fail. */
  method LabelChunk(pixels: seq<Color>, width: int, palette: seq<Color>, font: nat -> Image<Color>,
                    sample: Image<Color> -> ((int, int) -> Color), center: Pos, color: Color)
    returns (r: Result<seq<Color>>)
    requires FontValid(font)
    ensures r.Err? <==> !Labelable(palette, font, Chunk(color, []))
    ensures r.Ok? ==> |r.value| == |pixels|
    ensures r.Ok? ==> forall i :: 0 <= i < |pixels| && !Covered(|pixels|, width, center, i) ==> r.value[i] == pixels[i]
    ensures r.Ok? ==> forall i :: 0 <= i < |pixels| && r.value[i] != pixels[i] ==> r.value[i].a > AlphaCutoff
    ensures r.Ok? ==> r.value == StampOver(pixels, width, center, sample(NumberStrip(AsWrittenNumber(palette, color), font)))
  {
    var number := AsWrittenNumber(palette, color);
    var strip := GenerateCombinedTexture(number, DigitSpacing, font);
    if strip.Err? {
      return Err(strip.message);
    }
    var size := UpscaleSize(strip.value.width, strip.value.height, Pos(FontSize, FontSize));
    if size.Err? {
      return Err(size.message);
    }
    var out := DrawNumber(pixels, width, center, sample(strip.value));
    r := Ok(out);
  }

  /** The intended `DrawNumberOnTexture`: a chunk whose colour is similar to
      no palette entry is left unstamped; any other chunk is stamped with the
      number `LabelNumber` gives it. */
  method LabelChunkIntended(pixels: seq<Color>, width: int, palette: seq<Color>, font: nat -> Image<Color>,
                            sample: Image<Color> -> ((int, int) -> Color), center: Pos, color: Color)
    returns (r: Result<seq<Color>>)
    requires FontValid(font)
    ensures LabelNumber(palette, color).None? ==> r == Ok(pixels)
    ensures LabelNumber(palette, color).Some? ==> (r.Err? <==> !Labelable(palette, font, Chunk(color, [])))
    ensures LabelNumber(palette, color).Some? && r.Ok? ==>
      && |r.value| == |pixels|
      && forall i :: 0 <= i < |pixels| && !Covered(|pixels|, width, center, i) ==> r.value[i] == pixels[i]
    ensures LabelNumber(palette, color).Some? && r.Ok? ==>
      && StampSize(LabelNumber(palette, color).value, font).Ok?
      && r.value == StampOver(pixels, width, center, sample(NumberStrip(LabelNumber(palette, color).value, font)))
  {
    if LabelNumber(palette, color).None? {
      return Ok(pixels);
    }
    LabelNumberAgrees(palette, color);
    r := LabelChunk(pixels, width, palette, font, sample, center, color);
  }

  /** `WriteLargeChunks`: every chunk in turn, its number stamped at its
      centre. An empty chunk has no centre and stops the loop with an error,
      as does a digit strip that cannot be created. */
  method WriteLargeChunks(pixels: seq<Color>, width: int, chunks: seq<Chunk<Color>>, palette: seq<Color>,
                          font: nat -> Image<Color>, sample: Image<Color> -> ((int, int) -> Color),
                          jitters: nat -> nat -> (Step, Step))
    returns (r: Result<seq<Color>>)
    requires FontValid(font)
    ensures r.Err? <==> exists k :: 0 <= k < |chunks| && (|chunks[k].group| == 0 || !Labelable(palette, font, chunks[k]))
    ensures r.Ok? ==> |r.value| == |pixels|
    ensures r.Ok? ==> forall i :: 0 <= i < |pixels| && Untouched(|pixels|, width, chunks, jitters, |chunks|, i)
                        ==> r.value[i] == pixels[i]
    ensures r.Ok? ==> forall i :: 0 <= i < |pixels| && r.value[i] != pixels[i] ==> r.value[i].a > AlphaCutoff
    ensures r.Ok? ==> r.value == StampAll(pixels, width, Centers(chunks, jitters, |chunks|), NumberStrips(chunks, palette, font, |chunks|), sample, |chunks|)
  {
    r := StampChunks(pixels, width, chunks, palette, font, sample, jitters);
    AllHoldIff(chunks, Ready(palette, font));
    if r.Ok? {
      StampsFrame(pixels, width, chunks, palette, font, sample, jitters);
    }
  }

  /** The loop of `WriteLargeChunks`. */
  method StampChunks(pixels: seq<Color>, width: int, chunks: seq<Chunk<Color>>, palette: seq<Color>,
                     font: nat -> Image<Color>, sample: Image<Color> -> ((int, int) -> Color),
                     jitters: nat -> nat -> (Step, Step))
    returns (r: Result<seq<Color>>)
    requires FontValid(font)
    ensures r.Err? <==> !AllHold(chunks, Ready(palette, font), |chunks|)
    ensures r.Ok? ==> r.value == StampAll(pixels, width, Centers(chunks, jitters, |chunks|), NumberStrips(chunks, palette, font, |chunks|), sample, |chunks|)
  {
    var out := pixels;
    var k := 0;
    while k < |chunks|
      invariant 0 <= k <= |chunks|
      invariant AllHold(chunks, Ready(palette, font), k)
      invariant out == StampAll(pixels, width, Centers(chunks, jitters, k), NumberStrips(chunks, palette, font, k), sample, k)
    {
      var next := StampChunk(pixels, out, width, chunks, palette, font, sample, jitters, k);
      if next.Err? {
        OneFails(chunks, Ready(palette, font), |chunks|, k);
        return Err(next.message);
      }
      out := next.value;
      k := k + 1;
    }
    r := Ok(out);
  }

  /** The stamps of all chunks leave every pixel outside their windows alone
      and write only glyph pixels whose alpha exceeds 0.1. */
  lemma StampsFrame(pixels: seq<Color>, width: int, chunks: seq<Chunk<Color>>, palette: seq<Color>,
                    font: nat -> Image<Color>, sample: Image<Color> -> ((int, int) -> Color),
                    jitters: nat -> nat -> (Step, Step))
    requires FontValid(font)
    requires forall j :: 0 <= j < |chunks| ==> |chunks[j].group| > 0
    ensures forall i :: 0 <= i < |pixels| && Untouched(|pixels|, width, chunks, jitters, |chunks|, i) ==>
      StampAll(pixels, width, Centers(chunks, jitters, |chunks|), NumberStrips(chunks, palette, font, |chunks|), sample, |chunks|)[i] == pixels[i]
    ensures forall i :: 0 <= i < |pixels| ==>
      var out := StampAll(pixels, width, Centers(chunks, jitters, |chunks|), NumberStrips(chunks, palette, font, |chunks|), sample, |chunks|);
      out[i] == pixels[i] || out[i].a > AlphaCutoff
  {
    var cs, ss := Centers(chunks, jitters, |chunks|), NumberStrips(chunks, palette, font, |chunks|);
    forall i | 0 <= i < |pixels|
      ensures Untouched(|pixels|, width, chunks, jitters, |chunks|, i) ==> StampAll(pixels, width, cs, ss, sample, |chunks|)[i] == pixels[i]
      ensures StampAll(pixels, width, cs, ss, sample, |chunks|)[i] == pixels[i] || StampAll(pixels, width, cs, ss, sample, |chunks|)[i].a > AlphaCutoff
    {
      StampAllInk(pixels, width, cs, ss, sample, |chunks|, i);
      if Untouched(|pixels|, width, chunks, jitters, |chunks|, i) {
        forall j | 0 <= j < |chunks|
          ensures !Inked(|pixels|, width, cs[j], sample(ss[j]), i)
        {
          CentersAt(chunks, jitters, |chunks|, j);
          NumberStripsAt(chunks, palette, font, |chunks|, j);
          assert !StampedBy(|pixels|, width, chunks, jitters, j, i);
        }
        UninkedKeeps(pixels, width, cs, ss, sample, |chunks|, i);
      }
    }
  }

  /** One pass of `WriteLargeChunks`: chunk k's number stamped at its
      centre, or the error that stops the loop. */
  method StampChunk(ghost pixels: seq<Color>, out: seq<Color>, width: int, chunks: seq<Chunk<Color>>, palette: seq<Color>,
                    font: nat -> Image<Color>, sample: Image<Color> -> ((int, int) -> Color),
                    jitters: nat -> nat -> (Step, Step), k: nat)
    returns (next: Result<seq<Color>>)
    requires FontValid(font) && k < |chunks|
    requires out == StampAll(pixels, width, Centers(chunks, jitters, k), NumberStrips(chunks, palette, font, k), sample, k)
    ensures next.Err? <==> !Ready(palette, font)(chunks[k])
    ensures next.Ok? ==> |chunks[k].group| > 0
    ensures next.Ok? ==>
      next.value == StampAll(pixels, width, Centers(chunks, jitters, k + 1), NumberStrips(chunks, palette, font, k + 1), sample, k + 1)
  {
    var center := FindChunkCenter(chunks[k].group, jitters(k));
    if center.Err? {
      return Err(center.message);
    }
    next := LabelChunk(out, width, palette, font, sample, center.value, chunks[k].color);
    if next.Ok? {
      StampAllPrefix(pixels, width, Centers(chunks, jitters, k), NumberStrips(chunks, palette, font, k),
                     Centers(chunks, jitters, k + 1), NumberStrips(chunks, palette, font, k + 1), sample, k);
    }
  }

  /** `FindLargeChunks`: the regions of the image with more than `minSize`
      pixels, in the row-major order of their first pixels, as the scan
      finds them. A pixel lies in one of them exactly when every region
      through it is larger than the threshold. */
  method FindLargeChunks(img: Image<Color>, minSize: int) returns (large: seq<Chunk<Color>>)
    requires img.Valid()
    ensures forall i :: 0 <= i < |large| ==> IsRegion(img, large[i]) && |large[i].group| > minSize
    ensures Disjoint(large)
    ensures SeedsOrdered(large) && SeedsFirst(large)
    ensures forall p :: img.Contains(p) ==>
      ((exists i :: 0 <= i < |large| && p in large[i].group) <==>
       (forall c :: IsRegion(img, c) && p in c.group ==> |c.group| > minSize))
  {
    var chunks := Segment(img);
    large := LargeOnly(chunks, minSize);
    LargeOnlyIsLargeHalf(chunks, minSize);
    ClassifyKeepsDisjoint(chunks, minSize + 1);
    ClassifyKeepsOrder(chunks, minSize + 1);
    forall p | img.Contains(p)
      ensures (exists i :: 0 <= i < |large| && p in large[i].group) <==>
              (forall c :: IsRegion(img, c) && p in c.group ==> |c.group| > minSize)
    {
      var j :| 0 <= j < |chunks| && p in chunks[j].group;
      if |chunks[j].group| > minSize {
        assert chunks[j] in large;
        forall c | IsRegion(img, c) && p in c.group
          ensures |c.group| > minSize
        {
          RegionSizeAgrees(img, chunks[j], c, p);
        }
      } else {
        forall i | 0 <= i < |large| && p in large[i].group
          ensures false
        {
          RegionSizeAgrees(img, large[i], chunks[j], p);
        }
      }
    }
  }

  /** `GenerateFinalImage`: the chunks of the quantised image larger than
      0.0000165 of its pixel count are numbered on the outline image. The
      stamps use the quantised image's width for the row length of the
      outline image's buffer. */
  method GenerateFinalImage(result: Image<Color>, lines: Image<Color>, palette: seq<Color>,
                            font: nat -> Image<Color>, sample: Image<Color> -> ((int, int) -> Color),
                            jitters: nat -> nat -> (Step, Step))
    returns (r: Result<Image<Color>>, large: seq<Chunk<Color>>)
    requires result.Valid() && lines.Valid() && FontValid(font)
    ensures forall i :: 0 <= i < |large| ==> IsRegion(result, large[i])
    ensures forall i :: 0 <= i < |large| ==> |large[i].group| > MinSize(FinalScale, result.width, result.height) >= 0
    ensures Disjoint(large)
    ensures SeedsOrdered(large) && SeedsFirst(large)
    ensures forall p :: result.Contains(p) ==>
      ((exists i :: 0 <= i < |large| && p in large[i].group) <==>
       (forall c :: IsRegion(result, c) && p in c.group ==> |c.group| > MinSize(FinalScale, result.width, result.height)))
    ensures r.Err? <==> exists k :: 0 <= k < |large| && !Labelable(palette, font, large[k])
    ensures r.Ok? ==> r.value.width == lines.width && r.value.height == lines.height && r.value.Valid()
    ensures r.Ok? ==> forall i :: 0 <= i < |lines.pixels| && Untouched(|lines.pixels|, result.width, large, jitters, |large|, i)
                        ==> r.value.pixels[i] == lines.pixels[i]
    ensures r.Ok? ==> forall i :: 0 <= i < |lines.pixels| && r.value.pixels[i] != lines.pixels[i] ==> r.value.pixels[i].a > AlphaCutoff
    ensures r.Ok? ==> r.value.pixels == StampAll(lines.pixels, result.width, Centers(large, jitters, |large|),
                                                 NumberStrips(large, palette, font, |large|), sample, |large|)
  {
    var minSize := MinSize(FinalScale, result.width, result.height);
    large := FindLargeChunks(result, minSize);
    var out := WriteLargeChunks(lines.pixels, result.width, large, palette, font, sample, jitters);
    if out.Err? {
      return Err(out.message), large;
    }
    r := Ok(Image(lines.width, lines.height, out.value));
  }
}

=== FILE: outline.dfy ===
/** The line-drawing stage of `MainViewModel`. It lists the palette of the
    quantised image, draws one outline layer per visible colour, and stacks
    layers into one texture. Scans run x outer and y inner, so "first
    occurrence" means first in column-by-column order. */
module Outline {
  import opened Wrappers
  import opened Colors
  import opened Grid
  import opened Segmentation
  import opened Labels
  import opened Glyphs

  /* ---------- Palette listing ---------- */

  /** The colours of a scan, each kept where it first occurs. */
  function FirstOccurrences(s: seq<Color>): (r: seq<Color>)
    ensures Distinct(r) && |r| <= |s|
    decreases |s|
  {
    if |s| == 0 then []
    else
      var rest := FirstOccurrences(s[..|s| - 1]);
      if s[|s| - 1] in rest then rest else rest + [s[|s| - 1]]
  }

  /** A colour is kept exactly when it occurs. */
  lemma {:induction false} FirstOccurrencesKeeps(s: seq<Color>, c: Color)
    ensures c in FirstOccurrences(s) <==> c in s
    decreases |s|
  {
    if |s| > 0 {
      var init := s[..|s| - 1];
      FirstOccurrencesKeeps(init, c);
      assert s == init + [s[|s| - 1]];
    }
  }

  /** Adding an element at the end keeps the first index of anything
      already present, and a new element's first index is the end. */
  lemma IndexOfExtend(init: seq<Color>, x: Color, c: Color)
    ensures c in init ==> IndexOf(init + [x], c) == IndexOf(init, c)
    ensures c !in init && c == x ==> IndexOf(init + [x], c) == |init|
  {
    var s := init + [x];
    var i := IndexOf(s, c);
    assert forall j :: 0 <= j < |init| ==> s[j] == init[j];
    if c in init {
      assert s[IndexOf(init, c)] == c;
    } else if c == x {
      assert s[|init|] == c;
    }
  }

  /** The kept colours come in the order of their first occurrence. */
  lemma {:induction false} FirstOccurrencesOrdered(s: seq<Color>)
    ensures forall i, j :: 0 <= i < j < |FirstOccurrences(s)| ==>
      IndexOf(s, FirstOccurrences(s)[i]) < IndexOf(s, FirstOccurrences(s)[j])
    decreases |s|
  {
    if |s| > 0 {
      var init := s[..|s| - 1];
      var last := s[|s| - 1];
      var rest := FirstOccurrences(init);
      FirstOccurrencesOrdered(init);
      assert s == init + [last];
      var r := FirstOccurrences(s);
      forall i | 0 <= i < |rest|
        ensures IndexOf(s, rest[i]) == IndexOf(init, rest[i]) < |init|
      {
        FirstOccurrencesKeeps(init, rest[i]);
        IndexOfExtend(init, last, rest[i]);
      }
      if last !in rest {
        FirstOccurrencesKeeps(init, last);
        IndexOfExtend(init, last, last);
        assert r == rest + [last];
      }
    }
  }

  /** One more scanned colour is kept exactly when it is new. */
  lemma FirstOccurrencesStep(s: seq<Color>, c: Color)
    ensures FirstOccurrences(s + [c]) == if c in FirstOccurrences(s) then FirstOccurrences(s) else FirstOccurrences(s) + [c]
  {
    assert (s + [c])[..|s|] == s;
  }

  /** The scan at (x, y) extends the prefix before it by that pixel. */
  lemma ScanStep(img: Image<Color>, x: int, y: int)
    requires img.Valid() && img.Contains(Pos(x, y))
    ensures x * img.height + y < |ColumnMajor(img)|
    ensures ColumnMajor(img)[..x * img.height + y + 1] == ColumnMajor(img)[..x * img.height + y] + [At(img, Pos(x, y))]
  {
    ColumnIndexInRange(img.width, img.height, Pos(x, y));
    var cs := ColumnMajor(img);
    assert cs[ColumnIndex(img.height, Pos(x, y))] == At(img, Pos(x, y));
  }

  /** Every entry of the column-by-column scan is the colour of some
      position of the image. */
  lemma ScannedColor(img: Image<Color>, c: Color)
    requires img.Valid() && c in ColumnMajor(img)
    ensures exists p :: img.Contains(p) && At(img, p) == c
  {
    var cs := ColumnMajor(img);
    var k :| 0 <= k < |cs| && cs[k] == c;
    ColumnMajorAt(img, k);
  }

  /** `AnalysePallet`: the distinct colours of the image, in the order a
      column-by-column scan first meets them. */
  method AnalysePallet(img: Image<Color>) returns (colors: seq<Color>)
    requires img.Valid()
    ensures colors == FirstOccurrences(ColumnMajor(img))
    ensures Distinct(colors)
    ensures forall p :: img.Contains(p) ==> At(img, p) in colors
    ensures forall c :: c in colors ==> exists p :: img.Contains(p) && At(img, p) == c
    ensures forall i, j :: 0 <= i < j < |colors| ==>
      IndexOf(ColumnMajor(img), colors[i]) < IndexOf(ColumnMajor(img), colors[j])
  {
    colors := CollectFirst(ColumnMajor(img));
    FirstOccurrencesOrdered(ColumnMajor(img));
    PalletCovers(img);
  }

  /** The loop of `AnalysePallet`: each colour is appended the first time
      the scan meets it. */
  method CollectFirst(cs: seq<Color>) returns (colors: seq<Color>)
    ensures colors == FirstOccurrences(cs)
  {
    colors := [];
    var k := 0;
    while k < |cs|
      invariant 0 <= k <= |cs|
      invariant colors == FirstOccurrences(cs[..k])
    {
      FirstOccurrencesStep(cs[..k], cs[k]);
      assert cs[..k + 1] == cs[..k] + [cs[k]];
      if cs[k] !in colors {
        colors := colors + [cs[k]];
      }
      k := k + 1;
    }
    assert cs[..k] == cs;
  }

  /** The first occurrences of the scan hold exactly the image's colours. */
  lemma PalletCovers(img: Image<Color>)
    requires img.Valid()
    ensures forall p :: img.Contains(p) ==> At(img, p) in FirstOccurrences(ColumnMajor(img))
    ensures forall c :: c in FirstOccurrences(ColumnMajor(img)) ==> exists p :: img.Contains(p) && At(img, p) == c
  {
    var cs := ColumnMajor(img);
    forall p | img.Contains(p)
      ensures At(img, p) in FirstOccurrences(cs)
    {
      ColumnIndexInRange(img.width, img.height, p);
      assert At(img, p) == cs[ColumnIndex(img.height, p)];
      FirstOccurrencesKeeps(cs, At(img, p));
    }
    forall c | c in FirstOccurrences(cs)
      ensures exists p :: img.Contains(p) && At(img, p) == c
    {
      FirstOccurrencesKeeps(cs, c);
      ScannedColor(img, c);
    }
  }

  /* ---------- One outline layer ---------- */

  /** q lies within `half` columns and `half` rows of p. */
  predicate InWindow(p: Pos, q: Pos, half: int) {
    -half <= p.x - q.x <= half && -half <= p.y - q.y <= half
  }

  /** Target pixel q greys pixel p: p is a visible pixel of another colour
      within q's window. */
  ghost predicate Greys(img: Image<Color>, target: Color, half: int, q: Pos, p: Pos)
    requires img.Valid()
  {
    img.Contains(q) && img.Contains(p) && At(img, q) == target && InWindow(p, q, half)
    && At(img, p) != target && At(img, p).a > 0.0
  }

  /** The outline layer of one colour: its own pixels white, visible pixels
      of other colours near it grey, the rest transparent. */
  ghost function OutlineRef(img: Image<Color>, target: Color, half: int, p: Pos): Color
    requires img.Valid() && img.Contains(p)
  {
    if At(img, p) == target then White
    else if exists q :: Greys(img, target, half, q, p) then Grey
    else Clear
  }

  /** q comes before (x, y) in the column-by-column scan. */
  predicate Before(q: Pos, x: int, y: int) {
    q.x < x || (q.x == x && q.y < y)
  }

  /** The layer once the scan has reached (x, y). */
  ghost function Partial(img: Image<Color>, target: Color, half: int, x: int, y: int, p: Pos): Color
    requires img.Valid() && img.Contains(p)
  {
    if At(img, p) == target && Before(p, x, y) then White
    else if exists q :: Before(q, x, y) && Greys(img, target, half, q, p) then Grey
    else Clear
  }

  ghost predicate PartialState(img: Image<Color>, out: Image<Color>, target: Color, half: int, x: int, y: int)
    requires img.Valid()
  {
    out.width == img.width && out.height == img.height && out.Valid()
    && forall p :: img.Contains(p) ==> At(out, p) == Partial(img, target, half, x, y, p)
  }

  /** Visiting (x, y) paints it white and greys its window when it has the
      target colour, and changes nothing otherwise. */
  lemma PartialStep(img: Image<Color>, target: Color, half: int, x: int, y: int, p: Pos)
    requires img.Valid() && img.Contains(Pos(x, y)) && img.Contains(p)
    ensures At(img, Pos(x, y)) == target ==>
      Partial(img, target, half, x, y + 1, p) ==
        (if p == Pos(x, y) then White
         else if Greys(img, target, half, Pos(x, y), p) then Grey
         else Partial(img, target, half, x, y, p))
    ensures At(img, Pos(x, y)) != target ==>
      Partial(img, target, half, x, y + 1, p) == Partial(img, target, half, x, y, p)
  {
    var q := Pos(x, y);
    if exists r :: Before(r, x, y + 1) && Greys(img, target, half, r, p) {
      var r :| Before(r, x, y + 1) && Greys(img, target, half, r, p);
      if r != q {
        assert Before(r, x, y);
      }
    }
    if exists r :: Before(r, x, y) && Greys(img, target, half, r, p) {
      var r :| Before(r, x, y) && Greys(img, target, half, r, p);
      assert Before(r, x, y + 1);
    }
    if At(img, q) == target && Greys(img, target, half, q, p) {
      assert Before(q, x, y + 1);
    }
  }

  /** The end of a column is the start of the next. */
  lemma PartialNextColumn(img: Image<Color>, target: Color, half: int, x: int, p: Pos)
    requires img.Valid() && img.Contains(p)
    ensures Partial(img, target, half, x, img.height, p) == Partial(img, target, half, x + 1, 0, p)
  {
    if exists r :: Before(r, x, img.height) && Greys(img, target, half, r, p) {
      var r :| Before(r, x, img.height) && Greys(img, target, half, r, p);
      assert Before(r, x + 1, 0);
    }
    if exists r :: Before(r, x + 1, 0) && Greys(img, target, half, r, p) {
      var r :| Before(r, x + 1, 0) && Greys(img, target, half, r, p);
      assert Before(r, x, img.height);
    }
  }

  /** After the last column the scan has seen every position. */
  lemma PartialDone(img: Image<Color>, target: Color, half: int, p: Pos)
    requires img.Valid() && img.Contains(p)
    ensures Partial(img, target, half, img.width, 0, p) == OutlineRef(img, target, half, p)
  {
    if exists r :: Greys(img, target, half, r, p) {
      var r :| Greys(img, target, half, r, p);
      assert Before(r, img.width, 0);
    }
  }

  /** The window loop around one target pixel. */
  method MarkTarget(img: Image<Color>, out: Image<Color>, target: Color, half: int, q: Pos)
    returns (next: Image<Color>)
    requires img.Valid() && img.Contains(q) && At(img, q) == target
    requires out.width == img.width && out.height == img.height && out.Valid()
    ensures next.width == img.width && next.height == img.height && next.Valid()
    ensures forall p :: img.Contains(p) ==>
      At(next, p) == (if p == q then White else if Greys(img, target, half, q, p) then Grey else At(out, p))
  {
    next := Put(out, q, White);
    if half < 0 {
      return;
    }
    var dx := -half;
    while dx <= half
      invariant -half <= dx <= half + 1
      invariant next.width == img.width && next.height == img.height && next.Valid()
      invariant forall p :: img.Contains(p) ==>
        At(next, p) == (if p == q then White
                        else if Greys(img, target, half, q, p) && p.x - q.x < dx then Grey
                        else At(out, p))
    {
      var dy := -half;
      while dy <= half
        invariant -half <= dy <= half + 1
        invariant next.width == img.width && next.height == img.height && next.Valid()
        invariant forall p :: img.Contains(p) ==>
          At(next, p) == (if p == q then White
                          else if Greys(img, target, half, q, p) && (p.x - q.x < dx || (p.x - q.x == dx && p.y - q.y < dy)) then Grey
                          else At(out, p))
      {
        if !(dx == 0 && dy == 0) {
          var nx := q.x + dx;
          var ny := q.y + dy;
          if 0 <= nx < img.width && 0 <= ny < img.height {
            var n := Pos(nx, ny);
            if At(img, n) != target && At(img, n).a > 0.0 {
              assert Greys(img, target, half, q, n);
              next := Put(next, n, Grey);
            }
          }
        }
        dy := dy + 1;
      }
      dx := dx + 1;
    }
  }

  /** `CreateOutlinedTextureAsync`: the outline layer of one colour, with a
      window of `outlineThickness / 2` (truncated) around each of its
      pixels. */
  method OutlinedTexture(img: Image<Color>, target: Color, thickness: int) returns (out: Image<Color>)
    requires img.Valid()
    ensures out.width == img.width && out.height == img.height && out.Valid()
    ensures forall p :: img.Contains(p) ==> At(out, p) == OutlineRef(img, target, TruncDiv(thickness, 2), p)
  {
    var half := TruncDiv(thickness, 2);
    out := Blank(img.width, img.height);
    var x := 0;
    while x < img.width
      invariant 0 <= x <= img.width
      invariant PartialState(img, out, target, half, x, 0)
    {
      var y := 0;
      while y < img.height
        invariant 0 <= y <= img.height
        invariant PartialState(img, out, target, half, x, y)
      {
        var q := Pos(x, y);
        var before := out;
        if At(img, q) == target {
          out := MarkTarget(img, out, target, half, q);
        }
        forall p | img.Contains(p)
          ensures At(out, p) == Partial(img, target, half, x, y + 1, p)
        {
          PartialStep(img, target, half, x, y, p);
        }
        y := y + 1;
      }
      forall p | img.Contains(p)
        ensures At(out, p) == Partial(img, target, half, x + 1, 0, p)
      {
        PartialNextColumn(img, target, half, x, p);
      }
      x := x + 1;
    }
    forall p | img.Contains(p)
      ensures At(out, p) == OutlineRef(img, target, half, p)
    {
      PartialDone(img, target, half, p);
    }
  }

  /** The outline layer keeps the target's pixels white and never greys one
      of them; a grey pixel is visible in the source. */
  lemma OutlineColors(img: Image<Color>, target: Color, half: int, p: Pos)
    requires img.Valid() && img.Contains(p)
    ensures OutlineRef(img, target, half, p) == White <==> At(img, p) == target
    ensures OutlineRef(img, target, half, p) == Grey ==> At(img, p) != target && At(img, p).a > 0.0
  {
  }

  /** With a thickness below 2 the window is empty and the layer has no grey
      pixel: only the colour's own pixels are drawn. */
  lemma ThinOutlineHasNoGrey(img: Image<Color>, target: Color, thickness: int, p: Pos)
    requires img.Valid() && img.Contains(p) && -2 < thickness < 2
    ensures OutlineRef(img, target, TruncDiv(thickness, 2), p) != Grey
  {
    assert TruncDiv(thickness, 2) == 0;
  }

  /** A visible pixel of another colour touching the target colour is grey
      once the thickness is at least 2: each region is outlined. */
  lemma BorderIsGrey(img: Image<Color>, target: Color, thickness: int, p: Pos, q: Pos)
    requires img.Valid() && img.Contains(p) && img.Contains(q) && thickness >= 2
    requires Adjacent(q, p) && At(img, q) == target && At(img, p) != target && At(img, p).a > 0.0
    ensures OutlineRef(img, target, TruncDiv(thickness, 2), p) == Grey
  {
    assert Greys(img, target, TruncDiv(thickness, 2), q, p);
  }

  /** The outline layer stated with the Chebyshev distance: a pixel is grey
      exactly when it is a visible pixel of another colour within `half` of
      some target pixel, and transparent exactly when it is neither white
      nor grey. */
  lemma OutlineByDistance(img: Image<Color>, target: Color, half: int, p: Pos)
    requires img.Valid() && img.Contains(p)
    ensures OutlineRef(img, target, half, p) == Grey <==>
      At(img, p) != target && At(img, p).a > 0.0
      && exists q :: img.Contains(q) && At(img, q) == target && Chebyshev(p, q) <= half
    ensures OutlineRef(img, target, half, p) == Clear <==>
      At(img, p) != target
      && !(At(img, p).a > 0.0 && exists q :: img.Contains(q) && At(img, q) == target && Chebyshev(p, q) <= half)
  {
    if exists q :: Greys(img, target, half, q, p) {
      var q :| Greys(img, target, half, q, p);
      assert Chebyshev(p, q) <= half;
    }
    if At(img, p) != target && At(img, p).a > 0.0
       && exists q :: img.Contains(q) && At(img, q) == target && Chebyshev(p, q) <= half {
      var q :| img.Contains(q) && At(img, q) == target && Chebyshev(p, q) <= half;
      assert Greys(img, target, half, q, p);
    }
  }

  /* ---------- All layers ---------- */

  /** The visible (alpha above zero) entries of a scan. */
  function Visible(s: seq<Color>): (r: seq<Color>)
    ensures |r| <= |s|
    decreases |s|
  {
    if |s| == 0 then []
    else if s[|s| - 1].a > 0.0 then Visible(s[..|s| - 1]) + [s[|s| - 1]]
    else Visible(s[..|s| - 1])
  }

  /** Exactly the visible colours survive. */
  lemma {:induction false} VisibleKeeps(s: seq<Color>, c: Color)
    ensures c in Visible(s) <==> c in s && c.a > 0.0
    decreases |s|
  {
    if |s| > 0 {
      var init := s[..|s| - 1];
      VisibleKeeps(init, c);
      assert s == init + [s[|s| - 1]];
    }
  }

  /** Layer i is the outline layer of key i. */
  ghost predicate Layered(img: Image<Color>, thickness: int, keys: seq<Color>, layers: seq<Image<Color>>)
    requires img.Valid()
  {
    |layers| == |keys| && forall i :: 0 <= i < |layers| ==> IsLayer(img, thickness, keys[i], layers[i])
  }

  /** `layer` is the outline layer of colour `key`. */
  ghost predicate IsLayer(img: Image<Color>, thickness: int, key: Color, layer: Image<Color>)
    requires img.Valid()
  {
    layer.width == img.width && layer.height == img.height && layer.Valid()
    && forall p :: img.Contains(p) ==> At(layer, p) == OutlineRef(img, key, TruncDiv(thickness, 2), p)
  }

  /** One more outline layer, for a new colour. */
  method AddLayer(img: Image<Color>, thickness: int, keys: seq<Color>, layers: seq<Image<Color>>, c: Color)
    returns (keys': seq<Color>, layers': seq<Image<Color>>)
    requires img.Valid() && Layered(img, thickness, keys, layers)
    ensures keys' == keys + [c] && Layered(img, thickness, keys', layers')
  {
    var layer := OutlinedTexture(img, c, thickness);
    keys', layers' := keys + [c], layers + [layer];
  }

  /** The keys after one more scanned colour: it joins them when it is
      visible and new. */
  lemma NextKeys(s: seq<Color>, k: nat, keys: seq<Color>)
    requires k < |s| && keys == FirstOccurrences(Visible(s[..k]))
    ensures FirstOccurrences(Visible(s[..k + 1])) == if s[k].a > 0.0 && s[k] !in keys then keys + [s[k]] else keys
  {
    assert s[..k + 1] == s[..k] + [s[k]];
    VisibleStep(s[..k], s[k]);
    if s[k].a > 0.0 {
      FirstOccurrencesStep(Visible(s[..k]), s[k]);
    }
  }

  lemma VisibleStep(s: seq<Color>, c: Color)
    ensures Visible(s + [c]) == if c.a > 0.0 then Visible(s) + [c] else Visible(s)
  {
    assert (s + [c])[..|s|] == s;
  }

  /** The distinct visible colours of a scan: each is visible, and every
      visible pixel's colour is among them. */
  lemma VisibleKeys(img: Image<Color>)
    requires img.Valid()
    ensures Distinct(FirstOccurrences(Visible(ColumnMajor(img))))
    ensures forall c :: c in FirstOccurrences(Visible(ColumnMajor(img))) ==> c.a > 0.0
    ensures forall p :: img.Contains(p) && At(img, p).a > 0.0 ==> At(img, p) in FirstOccurrences(Visible(ColumnMajor(img)))
  {
    var cs := ColumnMajor(img);
    var keys := FirstOccurrences(Visible(cs));
    forall c | c in keys
      ensures c.a > 0.0
    {
      FirstOccurrencesKeeps(Visible(cs), c);
      VisibleKeeps(cs, c);
    }
    forall p | img.Contains(p) && At(img, p).a > 0.0
      ensures At(img, p) in keys
    {
      ColumnIndexInRange(img.width, img.height, p);
      assert At(img, p) == cs[ColumnIndex(img.height, p)];
      VisibleKeeps(cs, At(img, p));
      FirstOccurrencesKeeps(Visible(cs), At(img, p));
    }
  }

  /** The loop of `CreateLinesAsync` over a scan `cs`: a visible colour not
      met before gets its layer. */
  method LayersOf(img: Image<Color>, thickness: int, cs: seq<Color>) returns (keys: seq<Color>, layers: seq<Image<Color>>)
    requires img.Valid()
    ensures keys == FirstOccurrences(Visible(cs))
    ensures Layered(img, thickness, keys, layers)
  {
    keys := [];
    layers := [];
    var k := 0;
    while k < |cs|
      invariant 0 <= k <= |cs|
      invariant keys == FirstOccurrences(Visible(cs[..k]))
      invariant Layered(img, thickness, keys, layers)
    {
      var c := cs[k];
      NextKeys(cs, k, keys);
      ghost var next := FirstOccurrences(Visible(cs[..k + 1]));
      if c.a > 0.0 && c !in keys {
        assert next == keys + [c];
        keys, layers := AddLayer(img, thickness, keys, layers, c);
      } else {
        assert next == keys;
      }
      assert keys == next;
      k := k + 1;
    }
    assert cs[..k] == cs;
  }

  /** `CreateLinesAsync`: one outline layer per distinct visible colour, in
      the order a column-by-column scan first meets them. */
  method CreateLines(img: Image<Color>, thickness: int) returns (keys: seq<Color>, layers: seq<Image<Color>>)
    requires img.Valid()
    ensures keys == FirstOccurrences(Visible(ColumnMajor(img)))
    ensures Distinct(keys)
    ensures forall c :: c in keys ==> c.a > 0.0
    ensures forall p :: img.Contains(p) && At(img, p).a > 0.0 ==> At(img, p) in keys
    ensures Layered(img, thickness, keys, layers)
  {
    keys, layers := LayersOf(img, thickness, ColumnMajor(img));
    VisibleKeys(img);
  }

  /* ---------- Stacking layers ---------- */

  /** Index i of the stack of the first n layers: the last of them with a
      visible pixel there wins; with none, the pixel stays transparent. */
  function Top(layers: seq<Image<Color>>, n: nat, i: nat): Color
    requires n <= |layers|
  {
    if n == 0 then Clear
    else if i < |layers[n - 1].pixels| && layers[n - 1].pixels[i].a > 0.0 then layers[n - 1].pixels[i]
    else Top(layers, n - 1, i)
  }

  /** The pixel of the last layer visible at i shows through. */
  lemma {:induction false} TopIsLastVisible(layers: seq<Image<Color>>, n: nat, i: nat, k: nat)
    requires k < n <= |layers|
    requires i < |layers[k].pixels| && layers[k].pixels[i].a > 0.0
    requires forall j :: k < j < n ==> !(i < |layers[j].pixels| && layers[j].pixels[i].a > 0.0)
    ensures Top(layers, n, i) == layers[k].pixels[i]
    decreases n
  {
    if n - 1 != k {
      TopIsLastVisible(layers, n - 1, i, k);
    }
  }

  /** Where no layer is visible the stack is transparent. */
  lemma {:induction false} TopOfInvisible(layers: seq<Image<Color>>, n: nat, i: nat)
    requires n <= |layers|
    requires forall j :: 0 <= j < n ==> !(i < |layers[j].pixels| && layers[j].pixels[i].a > 0.0)
    ensures Top(layers, n, i) == Clear
    decreases n
  {
    if n > 0 {
      TopOfInvisible(layers, n - 1, i);
    }
  }

  /** A layer has a visible pixel at or past index `size`: a pixel the
      canvas has no room for. */
  predicate Overruns(layer: Image<Color>, size: int) {
    exists i :: 0 <= i < |layer.pixels| && size <= i && layer.pixels[i].a > 0.0
  }

  /** `CombineTextures`: the layers stacked over a transparent canvas of the
      first layer's size. An empty list gives no texture. Only visible layer
      pixels are written, so a layer longer than the canvas fails only when
      it has a visible pixel past the canvas's end; a canvas without pixels
      cannot become a texture either. */
  method CombineTextures(layers: seq<Image<Color>>) returns (r: Result<Option<Image<Color>>>)
    ensures |layers| == 0 ==> r == Ok(None)
    ensures |layers| > 0 ==> (r.Err? <==>
      layers[0].width == 0 || layers[0].height == 0
      || exists k :: 0 <= k < |layers| && Overruns(layers[k], layers[0].width * layers[0].height))
    ensures |layers| > 0 && r.Ok? ==> r.value.Some?
    ensures r.Ok? && r.value.Some? ==>
      r.value.value.width == layers[0].width && r.value.value.height == layers[0].height && r.value.value.Valid()
    ensures r.Ok? && r.value.Some? ==>
      forall i :: 0 <= i < |r.value.value.pixels| ==> r.value.value.pixels[i] == Top(layers, |layers|, i)
  {
    if |layers| == 0 {
      return Ok(None);
    }
    var width := layers[0].width;
    var height := layers[0].height;
    var combined := Blank(width, height).pixels;
    var k := 0;
    while k < |layers|
      invariant 0 <= k <= |layers| && |combined| == width * height
      invariant forall j :: 0 <= j < k ==> !Overruns(layers[j], width * height)
      invariant forall i :: 0 <= i < |combined| ==> combined[i] == Top(layers, k, i)
    {
      var next := LayOver(combined, layers, k);
      if next.Err? {
        return Err(next.message);
      }
      combined := next.value;
      k := k + 1;
    }
    if width == 0 || height == 0 {
      return Err("Texture has out of range width / height");
    }
    r := Ok(Some(Image(width, height, combined)));
  }

  /** The inner loop of `CombineTextures`: layer k's visible pixels written
      over the canvas, failing at the first visible pixel past its end. */
  method LayOver(combined: seq<Color>, layers: seq<Image<Color>>, k: nat) returns (r: Result<seq<Color>>)
    requires k < |layers|
    requires forall i :: 0 <= i < |combined| ==> combined[i] == Top(layers, k, i)
    ensures r.Err? <==> Overruns(layers[k], |combined|)
    ensures r.Ok? ==> |r.value| == |combined|
    ensures r.Ok? ==> forall i :: 0 <= i < |combined| ==> r.value[i] == Top(layers, k + 1, i)
  {
    var pixels := layers[k].pixels;
    var out := combined;
    var i := 0;
    while i < |pixels|
      invariant 0 <= i <= |pixels| && |out| == |combined|
      invariant forall j :: 0 <= j < i && |combined| <= j ==> pixels[j].a <= 0.0
      invariant forall j :: 0 <= j < i && j < |out| ==> out[j] == Top(layers, k + 1, j)
      invariant forall j :: i <= j < |out| ==> out[j] == combined[j]
    {
      if pixels[i].a > 0.0 {
        if i >= |out| {
          return Err("Index was outside the bounds of the array.");
        }
        out := out[i := pixels[i]];
      }
      i := i + 1;
    }
    r := Ok(out);
  }

  /** A pixel of the draft: a visible line pixel other than white, else a
      visible colour pixel, else transparent. */
  function DraftPixel(color: Image<Color>, lines: Image<Color>, i: nat): Color
    requires i < |color.pixels|
  {
    if i < |lines.pixels| && lines.pixels[i] != White && lines.pixels[i].a > 0.0 then lines.pixels[i]
    else if color.pixels[i].a > 0.0 then color.pixels[i]
    else Clear
  }

  /** `DraftCombineResult`: the line drawing with its white pixels made
      transparent, laid over the quantised image. A visible non-white line
      pixel shows; elsewhere the visible colour pixel shows; elsewhere the
      result is transparent. A visible non-white line pixel past the end of
      the quantised image has no place to go. */
  method DraftCombineResult(color: Image<Color>, lines: Image<Color>) returns (r: Result<Option<Image<Color>>>)
    requires color.Valid() && lines.Valid()
    ensures r.Err? <==> (color.width == 0 || color.height == 0
      || exists i :: |color.pixels| <= i < |lines.pixels| && lines.pixels[i] != White && lines.pixels[i].a > 0.0)
    ensures r.Ok? ==> r.value.Some?
    ensures r.Ok? ==> r.value.value.width == color.width && r.value.value.height == color.height && r.value.value.Valid()
    ensures r.Ok? ==> forall i :: 0 <= i < |color.pixels| ==> r.value.value.pixels[i] == DraftPixel(color, lines, i)
  {
    var cleared := seq(|lines.pixels|, i requires 0 <= i < |lines.pixels| =>
      if lines.pixels[i] == White then Clear else lines.pixels[i]);
    var layers := [color, Image(lines.width, lines.height, cleared)];
    r := CombineTextures(layers);
    assert !Overruns(color, |color.pixels|);
    assert Overruns(layers[1], |color.pixels|) <==>
      exists i :: |color.pixels| <= i < |lines.pixels| && lines.pixels[i] != White && lines.pixels[i].a > 0.0 by {
      if Overruns(layers[1], |color.pixels|) {
        var i :| 0 <= i < |cleared| && |color.pixels| <= i && cleared[i].a > 0.0;
        assert lines.pixels[i] != White && lines.pixels[i].a > 0.0;
      }
      if exists i :: |color.pixels| <= i < |lines.pixels| && lines.pixels[i] != White && lines.pixels[i].a > 0.0 {
        var i :| |color.pixels| <= i < |lines.pixels| && lines.pixels[i] != White && lines.pixels[i].a > 0.0;
        assert cleared[i].a > 0.0;
      }
    }
    if r.Ok? {
      forall i | 0 <= i < |color.pixels|
        ensures r.value.value.pixels[i] == DraftPixel(color, lines, i)
      {
        assert Top(layers, 0, i) == Clear;
        assert Top(layers, 1, i) == (if color.pixels[i].a > 0.0 then color.pixels[i] else Clear);
      }
    }
  }
}

=== FILE: segmentation.dfy ===
/** Connected-region segmentation, the flood fill shared by
    `KAvarage.AsyncReplaceSmallParticles` and `WriteNumber.FindLargeChunks`:
    a row-major scan starts a breadth-first fill at every unvisited pixel; the
    fill spreads to the eight neighbours of exactly the same colour, marking a
    pixel visited when it is queued. Colours are compared only for equality,
    so the fill is generic in the colour type. */
module Segmentation {
  import opened Grid

  /** `ChunkGroup`: the colour of a group and its pixels in the order the fill
      dequeued them. */
  datatype Chunk<C> = Chunk(color: C, group: seq<Pos>)

  function Elems<T>(s: seq<T>): set<T> {
    set x | x in s
  }

  predicate Distinct<T(==)>(s: seq<T>) {
    forall i, j :: 0 <= i < j < |s| ==> s[i] != s[j]
  }

  /** Row-major scan order: p is scanned before q. */
  predicate ScannedBefore(p: Pos, q: Pos) {
    p.y < q.y || (p.y == q.y && p.x < q.x)
  }

  /** Every member after the first is adjacent to an earlier member: the group
      grows from its first pixel one neighbour at a time. */
  ghost predicate GrownFromFirst(g: seq<Pos>) {
    forall k :: 0 < k < |g| ==> exists j :: 0 <= j < k && Adjacent(g[j], g[k])
  }

  /** Every member lies in the image and has the given colour. */
  ghost predicate Monochrome<C>(img: Image<C>, g: seq<Pos>, color: C)
    requires img.Valid()
  {
    forall p :: p in g ==> img.Contains(p) && At(img, p) == color
  }

  /** No pixel of the group's colour next to a member lies outside it. */
  ghost predicate Maximal<C>(img: Image<C>, g: seq<Pos>, color: C)
    requires img.Valid()
  {
    forall p, q :: p in g && img.Contains(q) && Near(p, q) && At(img, q) == color ==> q in g
  }

  /** A chunk is a maximal, eight-connected, single-coloured region listed
      without repetition. */
  ghost predicate IsRegion<C>(img: Image<C>, c: Chunk<C>)
    requires img.Valid()
  {
    && |c.group| > 0
    && Distinct(c.group)
    && Monochrome(img, c.group, c.color)
    && GrownFromFirst(c.group)
    && Maximal(img, c.group, c.color)
  }

  /** A set of pixels that no same-coloured neighbour leaves. */
  ghost predicate Closed<C>(img: Image<C>, s: set<Pos>)
    requires img.Valid()
  {
    forall p, q :: p in s && img.Contains(p) && img.Contains(q) && Near(p, q) && At(img, q) == At(img, p) ==> q in s
  }

  /** Every pixel of the image, as a set. */
  function AllPos<C>(img: Image<C>): set<Pos> {
    set x, y | 0 <= x < img.width && 0 <= y < img.height :: Pos(x, y)
  }

  /** The invariant of one breadth-first fill: `group` lists the queued pixels
      (those before `head` already dequeued), `parent` records for each which
      earlier pixel queued it, and `seen` is the visited set. */
  ghost predicate FillState<C>(img: Image<C>, visited: set<Pos>, seed: Pos, color: C,
                                group: seq<Pos>, parent: seq<int>, seen: set<Pos>)
    requires img.Valid()
  {
    && |group| > 0 && group[0] == seed
    && |parent| == |group|
    && (forall k :: 0 < k < |group| ==> 0 <= parent[k] < k && Adjacent(group[parent[k]], group[k]))
    && Distinct(group)
    && (forall p :: p in group ==> img.Contains(p) && At(img, p) == color && p !in visited)
    && seen == visited + Elems(group)
  }

  /** Every same-coloured neighbour of the first `head` members is visited. */
  ghost predicate Explored<C>(img: Image<C>, group: seq<Pos>, head: int, color: C, seen: set<Pos>)
    requires img.Valid() && 0 <= head <= |group|
  {
    forall k, q :: 0 <= k < head && img.Contains(q) && Near(group[k], q) && At(img, q) == color ==> q in seen
  }

  /** One neighbour n of `group[head]`: queued and marked visited when it
      lies in the image, is unvisited and has the fill's colour. */
  method Enqueue<C(==)>(img: Image<C>, visited: set<Pos>, seed: Pos, color: C,
                        group: seq<Pos>, ghost parent: seq<int>, seen: set<Pos>, head: nat, n: Pos)
    returns (group': seq<Pos>, ghost parent': seq<int>, seen': set<Pos>)
    requires img.Valid() && head < |group| && Near(group[head], n)
    requires FillState(img, visited, seed, color, group, parent, seen)
    requires seen <= AllPos(img)
    ensures FillState(img, visited, seed, color, group', parent', seen')
    ensures seen' <= AllPos(img)
    ensures img.Contains(n) && At(img, n) == color ==> n in seen'
    ensures (group' == group && seen' == seen)
         || (n !in seen && group' == group + [n] && seen' == seen + {n})
  {
    group', parent', seen' := group, parent, seen;
    if img.Contains(n) && n !in seen {
      if At(img, n) == color {
        assert n in AllPos(img);
        group', parent', seen' := group + [n], parent + [head], seen + {n};
      }
    }
  }

  /** The neighbours of `group[head]` in column offset dx, dy from -1 to 1. */
  method VisitColumn<C(==)>(img: Image<C>, visited: set<Pos>, seed: Pos, color: C,
                            group: seq<Pos>, ghost parent: seq<int>, seen: set<Pos>, head: nat, dx: int)
    returns (group': seq<Pos>, ghost parent': seq<int>, seen': set<Pos>)
    requires img.Valid() && head < |group| && -1 <= dx <= 1
    requires FillState(img, visited, seed, color, group, parent, seen)
    requires seen <= AllPos(img)
    ensures FillState(img, visited, seed, color, group', parent', seen')
    ensures |group| <= |group'| && group'[..|group|] == group
    ensures forall q :: img.Contains(q) && Near(group[head], q) && q.x - group[head].x == dx && At(img, q) == color ==> q in seen'
    ensures seen <= seen' <= AllPos(img)
    ensures |group'| == |group| ==> seen' == seen
    ensures |group'| > |group| ==> group'[|group|] in seen' - seen
  {
    var p := group[head];
    group', parent', seen' := group, parent, seen;
    var dy := -1;
    while dy <= 1
      invariant -1 <= dy <= 2
      invariant FillState(img, visited, seed, color, group', parent', seen')
      invariant |group| <= |group'| && group'[..|group|] == group
      invariant forall q :: img.Contains(q) && Near(p, q) && q.x - p.x == dx && q.y - p.y < dy && At(img, q) == color ==> q in seen'
      invariant seen <= seen' <= AllPos(img)
      invariant |group'| == |group| ==> seen' == seen
      invariant |group'| > |group| ==> group'[|group|] in seen' - seen
    {
      assert group'[head] == p;
      ghost var before := group';
      group', parent', seen' := Enqueue(img, visited, seed, color, group', parent', seen', head, Pos(p.x + dx, p.y + dy));
      assert group'[..|group|] == group by {
        assert group'[..|before|] == before;
      }
      dy := dy + 1;
    }
  }

  /** The eight neighbours of `group[head]`, visited with dx outer and dy
      inner as in the source: an in-image, unvisited neighbour of `color` is
      marked visited and queued. */
  method VisitNeighbours<C(==)>(img: Image<C>, visited: set<Pos>, seed: Pos, color: C,
                                group: seq<Pos>, ghost parent: seq<int>, seen: set<Pos>, head: nat)
    returns (group': seq<Pos>, ghost parent': seq<int>, seen': set<Pos>)
    requires img.Valid() && head < |group|
    requires FillState(img, visited, seed, color, group, parent, seen)
    requires seen <= AllPos(img)
    ensures FillState(img, visited, seed, color, group', parent', seen')
    ensures |group| <= |group'| && group'[..|group|] == group
    ensures forall q :: img.Contains(q) && Near(group[head], q) && At(img, q) == color ==> q in seen'
    ensures seen <= seen' <= AllPos(img)
    ensures |group'| == |group| ==> seen' == seen
    ensures |group'| > |group| ==> group'[|group|] in seen' - seen
  {
    var p := group[head];
    group', parent', seen' := group, parent, seen;
    var dx := -1;
    while dx <= 1
      invariant -1 <= dx <= 2
      invariant FillState(img, visited, seed, color, group', parent', seen')
      invariant |group| <= |group'| && group'[..|group|] == group
      invariant forall q :: img.Contains(q) && Near(p, q) && q.x - p.x < dx && At(img, q) == color ==> q in seen'
      invariant seen <= seen' <= AllPos(img)
      invariant |group'| == |group| ==> seen' == seen
      invariant |group'| > |group| ==> group'[|group|] in seen' - seen
    {
      assert group'[head] == p;
      ghost var before := group';
      group', parent', seen' := VisitColumn(img, visited, seed, color, group', parent', seen', head, dx);
      assert group'[..|group|] == group by {
        assert group'[..|before|] == before;
      }
      dx := dx + 1;
    }
  }

  /** One fill from `seed`: the same-coloured region around it, in dequeue
      order, and the visited set grown by exactly that region. */
  method Fill<C(==)>(img: Image<C>, seed: Pos, visited: set<Pos>) returns (group: seq<Pos>, seen: set<Pos>)
    requires img.Valid() && img.Contains(seed) && seed !in visited
    requires forall p :: p in visited ==> img.Contains(p)
    requires Closed(img, visited)
    ensures IsRegion(img, Chunk(At(img, seed), group)) && group[0] == seed
    ensures forall p :: p in group ==> p !in visited
    ensures seen == visited + Elems(group)
  {
    var color := At(img, seed);
    group := [seed];
    ghost var parent: seq<int> := [0];
    seen := visited + {seed};
    assert seed in AllPos(img);
    var head := 0;
    while head < |group|
      invariant 0 <= head <= |group|
      invariant FillState(img, visited, seed, color, group, parent, seen)
      invariant Explored(img, group, head, color, seen)
      invariant seen <= AllPos(img)
      decreases AllPos(img) - seen, |group| - head
    {
      ghost var before := group;
      ghost var seenBefore := seen;
      group, parent, seen := VisitNeighbours(img, visited, seed, color, group, parent, seen, head);
      forall k, q | 0 <= k < head + 1 && img.Contains(q) && Near(group[k], q) && At(img, q) == color
        ensures q in seen
      {
        assert group[k] == before[k];
      }
      head := head + 1;
    }
    forall k | 0 < k < |group|
      ensures exists j :: 0 <= j < k && Adjacent(group[j], group[k])
    {
      assert Adjacent(group[parent[k]], group[k]);
    }
    forall p, q | p in group && img.Contains(q) && Near(p, q) && At(img, q) == color
      ensures q in group
    {
      NearSymmetric(p, q);
    }
  }

  /** Adding a maximal region to a closed set keeps it closed. */
  lemma ClosedUnion<C>(img: Image<C>, s: set<Pos>, c: Chunk<C>)
    requires img.Valid() && Closed(img, s) && IsRegion(img, c)
    ensures Closed(img, s + Elems(c.group))
  {
  }

  /** No pixel belongs to two chunks of the list. */
  ghost predicate Disjoint<C>(chunks: seq<Chunk<C>>) {
    forall i, j, p :: 0 <= i < j < |chunks| && p in chunks[i].group ==> p !in chunks[j].group
  }

  /** The chunks found so far are in row-major order of their first pixels. */
  predicate SeedsOrdered<C>(chunks: seq<Chunk<C>>) {
    forall i, j :: 0 <= i < j < |chunks| ==>
      |chunks[i].group| > 0 && |chunks[j].group| > 0 && ScannedBefore(chunks[i].group[0], chunks[j].group[0])
  }

  /** The chunks of a scan: regions, pairwise disjoint, together covering
      exactly `seen`, each starting at its own row-major-first pixel. */
  ghost predicate ScanState<C>(img: Image<C>, chunks: seq<Chunk<C>>, seen: set<Pos>)
    requires img.Valid()
  {
    && (forall i :: 0 <= i < |chunks| ==> IsRegion(img, chunks[i]))
    && Disjoint(chunks)
    && (forall p :: p in seen <==> exists i :: 0 <= i < |chunks| && p in chunks[i].group)
    && (forall p :: p in seen ==> img.Contains(p))
    && Closed(img, seen)
    && (forall i, p :: 0 <= i < |chunks| && p in chunks[i].group ==> !ScannedBefore(p, chunks[i].group[0]))
    && SeedsOrdered(chunks)
  }

  /** Appending the region found from a new, later seed keeps the scan state. */
  lemma ScanStep<C>(img: Image<C>, chunks: seq<Chunk<C>>, seen: set<Pos>, c: Chunk<C>)
    requires img.Valid() && ScanState(img, chunks, seen) && IsRegion(img, c)
    requires forall p :: p in c.group ==> p !in seen && !ScannedBefore(p, c.group[0])
    requires forall i :: 0 <= i < |chunks| ==> ScannedBefore(chunks[i].group[0], c.group[0])
    ensures ScanState(img, chunks + [c], seen + Elems(c.group))
  {
    var chunks' := chunks + [c];
    var seen' := seen + Elems(c.group);
    ClosedUnion(img, seen, c);
    forall p
      ensures p in seen' <==> exists i :: 0 <= i < |chunks'| && p in chunks'[i].group
    {
      if p in c.group {
        assert p in chunks'[|chunks|].group;
      }
      if p in seen {
        var i :| 0 <= i < |chunks| && p in chunks[i].group;
        assert p in chunks'[i].group;
      }
    }
    forall i, j, p | 0 <= i < j < |chunks'| && p in chunks'[i].group
      ensures p !in chunks'[j].group
    {
      if j == |chunks| {
        assert p in seen;
      }
    }
  }

  /** One step of the scan at `s`: a pixel not yet visited seeds a new chunk. */
  method ScanPixel<C(==)>(img: Image<C>, chunks: seq<Chunk<C>>, seen: set<Pos>, s: Pos)
    returns (chunks': seq<Chunk<C>>, seen': set<Pos>)
    requires img.Valid() && img.Contains(s) && ScanState(img, chunks, seen)
    requires forall p :: img.Contains(p) && ScannedBefore(p, s) ==> p in seen
    requires forall i :: 0 <= i < |chunks| ==> ScannedBefore(chunks[i].group[0], s)
    ensures ScanState(img, chunks', seen')
    ensures seen <= seen' && s in seen'
    ensures forall i :: 0 <= i < |chunks'| ==> |chunks'[i].group| > 0 && (ScannedBefore(chunks'[i].group[0], s) || chunks'[i].group[0] == s)
  {
    if s in seen {
      return chunks, seen;
    }
    var group;
    group, seen' := Fill(img, s, seen);
    var c := Chunk(At(img, s), group);
    forall p | p in group
      ensures !ScannedBefore(p, s)
    {
      assert img.Contains(p);
    }
    ScanStep(img, chunks, seen, c);
    chunks' := chunks + [c];
  }

  /** The whole flood fill: every pixel lands in exactly one chunk; every chunk
      is a maximal eight-connected region of one colour; chunks come in the
      row-major order of their first pixel, which is the region's first pixel
      in that order. */
  method Segment<C(==)>(img: Image<C>) returns (chunks: seq<Chunk<C>>)
    requires img.Valid()
    ensures forall i :: 0 <= i < |chunks| ==> IsRegion(img, chunks[i])
    ensures Disjoint(chunks)
    ensures forall p :: img.Contains(p) ==> exists i :: 0 <= i < |chunks| && p in chunks[i].group
    ensures forall i, p :: 0 <= i < |chunks| && p in chunks[i].group ==> !ScannedBefore(p, chunks[i].group[0])
    ensures SeedsOrdered(chunks)
  {
    var seen: set<Pos> := {};
    chunks := [];
    var y := 0;
    while y < img.height
      invariant 0 <= y <= img.height
      invariant ScanState(img, chunks, seen)
      invariant forall p :: img.Contains(p) && p.y < y ==> p in seen
      invariant forall i :: 0 <= i < |chunks| ==> chunks[i].group[0].y < y
    {
      var x := 0;
      while x < img.width
        invariant 0 <= x <= img.width
        invariant ScanState(img, chunks, seen)
        invariant forall p :: img.Contains(p) && ScannedBefore(p, Pos(x, y)) ==> p in seen
        invariant forall i :: 0 <= i < |chunks| ==> ScannedBefore(chunks[i].group[0], Pos(x, y))
      {
        ghost var before := seen;
        chunks, seen := ScanPixel(img, chunks, seen, Pos(x, y));
        forall p | img.Contains(p) && ScannedBefore(p, Pos(x + 1, y))
          ensures p in seen
        {
          if p != Pos(x, y) {
            assert p in before;
          }
        }
        x := x + 1;
      }
      y := y + 1;
    }
    forall p | img.Contains(p)
      ensures exists i :: 0 <= i < |chunks| && p in chunks[i].group
    {
      assert p in seen;
    }
  }

  /** A walk through the group: consecutive pixels are eight-neighbours. */
  ghost predicate IsWalkIn(w: seq<Pos>, g: seq<Pos>) {
    && |w| > 0
    && (forall i :: 0 <= i < |w| ==> w[i] in g)
    && (forall i :: 0 < i < |w| ==> Adjacent(w[i - 1], w[i]))
  }

  lemma {:induction false} WalkFromFirst(g: seq<Pos>, k: nat) returns (w: seq<Pos>)
    requires GrownFromFirst(g) && k < |g|
    ensures IsWalkIn(w, g) && w[0] == g[0] && w[|w| - 1] == g[k]
    decreases k
  {
    if k == 0 {
      w := [g[0]];
    } else {
      var j :| 0 <= j < k && Adjacent(g[j], g[k]);
      var w' := WalkFromFirst(g, j);
      w := w' + [g[k]];
    }
  }

  lemma ReverseWalk(w: seq<Pos>, g: seq<Pos>) returns (r: seq<Pos>)
    requires IsWalkIn(w, g)
    ensures IsWalkIn(r, g) && r[0] == w[|w| - 1] && r[|r| - 1] == w[0]
  {
    r := seq(|w|, i requires 0 <= i < |w| => w[|w| - 1 - i]);
    forall i | 0 < i < |r|
      ensures Adjacent(r[i - 1], r[i])
    {
      assert Adjacent(w[|w| - 1 - i], w[|w| - i]);
    }
  }

  /** Eight-connectivity: any two members of a region are joined by a walk
      that stays inside the region. */
  lemma RegionConnected(g: seq<Pos>, p: Pos, q: Pos) returns (w: seq<Pos>)
    requires GrownFromFirst(g) && p in g && q in g
    ensures IsWalkIn(w, g) && w[0] == p && w[|w| - 1] == q
  {
    var i :| 0 <= i < |g| && g[i] == p;
    var j :| 0 <= j < |g| && g[j] == q;
    var toP := WalkFromFirst(g, i);
    var fromP := ReverseWalk(toP, g);
    var toQ := WalkFromFirst(g, j);
    w := fromP + toQ[1..];
    forall k | 0 < k < |w|
      ensures Adjacent(w[k - 1], w[k])
    {
      if k >= |fromP| {
        assert w[k] == toQ[k - |fromP| + 1];
      }
    }
  }

  /** A walk that starts inside a maximal group and runs over pixels of the
      group's colour never leaves it. */
  lemma {:induction false} WalkStaysIn<C>(img: Image<C>, w: seq<Pos>, k: nat, b: seq<Pos>, a: seq<Pos>, color: C)
    requires img.Valid() && IsWalkIn(w, b) && k < |w|
    requires Monochrome(img, b, color) && Maximal(img, a, color) && w[0] in a
    ensures w[k] in a
    decreases k
  {
    if k > 0 {
      WalkStaysIn(img, w, k - 1, b, a, color);
      assert Adjacent(w[k - 1], w[k]) && w[k] in b;
    }
  }

  /** Regions are determined by any one of their pixels: two regions that
      share a pixel have the same colour and the same pixels. */
  lemma RegionsAgree<C>(img: Image<C>, a: Chunk<C>, b: Chunk<C>, p: Pos)
    requires img.Valid() && IsRegion(img, a) && IsRegion(img, b) && p in a.group && p in b.group
    ensures a.color == b.color && Elems(a.group) == Elems(b.group)
  {
    assert a.color == At(img, p) == b.color;
    forall q | q in b.group
      ensures q in a.group
    {
      var w := RegionConnected(b.group, p, q);
      WalkStaysIn(img, w, |w| - 1, b.group, a.group, a.color);
    }
    forall q | q in a.group
      ensures q in b.group
    {
      var w := RegionConnected(a.group, p, q);
      WalkStaysIn(img, w, |w| - 1, a.group, b.group, b.color);
    }
  }

  /** A list without repetition has as many elements as its set. */
  lemma {:induction false} DistinctSize<T>(s: seq<T>)
    requires Distinct(s)
    ensures |Elems(s)| == |s|
    decreases |s|
  {
    if |s| > 0 {
      var n := |s| - 1;
      assert Distinct(s[..n]);
      DistinctSize(s[..n]);
      assert Elems(s) == Elems(s[..n]) + {s[n]};
      assert s[n] !in Elems(s[..n]);
    }
  }

  /** Two regions that share a pixel have the same size. */
  lemma RegionSizeAgrees<C>(img: Image<C>, a: Chunk<C>, b: Chunk<C>, p: Pos)
    requires img.Valid() && IsRegion(img, a) && IsRegion(img, b) && p in a.group && p in b.group
    ensures |a.group| == |b.group|
  {
    RegionsAgree(img, a, b, p);
    DistinctSize(a.group);
    DistinctSize(b.group);
  }

  /** Classification of `AsyncReplaceSmallParticles`: a chunk with fewer than
      `minSize` pixels is small, any other is large; both lists keep scan
      order. */
  function Classify<C>(chunks: seq<Chunk<C>>, minSize: int): (split: (seq<Chunk<C>>, seq<Chunk<C>>))
    ensures |split.0| + |split.1| == |chunks|
    decreases |chunks|
  {
    if |chunks| == 0 then ([], [])
    else
      var last := chunks[|chunks| - 1];
      var rest := Classify(chunks[..|chunks| - 1], minSize);
      if |last.group| < minSize then (rest.0 + [last], rest.1) else (rest.0, rest.1 + [last])
  }

  /** The small list holds only chunks below `minSize`, the large list only
      the others. */
  lemma {:induction false} ClassifySizes<C>(chunks: seq<Chunk<C>>, minSize: int)
    ensures forall i :: 0 <= i < |Classify(chunks, minSize).0| ==> |Classify(chunks, minSize).0[i].group| < minSize
    ensures forall i :: 0 <= i < |Classify(chunks, minSize).1| ==> |Classify(chunks, minSize).1[i].group| >= minSize
    decreases |chunks|
  {
    if |chunks| > 0 {
      ClassifySizes(chunks[..|chunks| - 1], minSize);
    }
  }

  /** Each list holds chunks of the input, and each input chunk is in one of
      them. */
  lemma ClassifyMembers<C>(chunks: seq<Chunk<C>>, minSize: int)
    ensures forall c :: c in Classify(chunks, minSize).0 ==> c in chunks
    ensures forall c :: c in Classify(chunks, minSize).1 ==> c in chunks
    ensures forall c :: c in chunks ==> c in Classify(chunks, minSize).0 || c in Classify(chunks, minSize).1
  {
    var split := Classify(chunks, minSize);
    ClassifyPartitions(chunks, minSize);
    forall c
      ensures c in split.0 || c in split.1 <==> c in chunks
    {
      assert c in split.0 <==> c in multiset(split.0);
      assert c in split.1 <==> c in multiset(split.1);
      assert c in chunks <==> c in multiset(chunks);
    }
  }

  /** Appending one more element to either half of a partition partitions
      the extended list. */
  lemma PartitionStep<T>(r0: seq<T>, r1: seq<T>, init: seq<T>, x: T, s0: seq<T>, s1: seq<T>)
    requires multiset(r0) + multiset(r1) == multiset(init)
    requires (s0 == r0 + [x] && s1 == r1) || (s0 == r0 && s1 == r1 + [x])
    ensures multiset(s0) + multiset(s1) == multiset(init + [x])
  {
  }

  /** The split is a partition: every chunk lands in exactly one list, as
      often as it occurs. */
  lemma {:induction false} ClassifyPartitions<C>(chunks: seq<Chunk<C>>, minSize: int)
    ensures multiset(Classify(chunks, minSize).0) + multiset(Classify(chunks, minSize).1) == multiset(chunks)
    decreases |chunks|
  {
    if |chunks| > 0 {
      var init := chunks[..|chunks| - 1];
      var last := chunks[|chunks| - 1];
      ClassifyPartitions(init, minSize);
      var rest := Classify(init, minSize);
      var split := Classify(chunks, minSize);
      assert chunks == init + [last];
      PartitionStep(rest.0, rest.1, init, last, split.0, split.1);
    }
  }

  /** The filter of `FindLargeChunks`: only chunks with more than `minSize`
      pixels are kept, in scan order. */
  function LargeOnly<C>(chunks: seq<Chunk<C>>, minSize: int): (large: seq<Chunk<C>>)
    ensures forall i :: 0 <= i < |large| ==> large[i] in chunks && |large[i].group| > minSize
    ensures forall i :: 0 <= i < |chunks| && |chunks[i].group| > minSize ==> chunks[i] in large
    ensures |large| <= |chunks|
    decreases |chunks|
  {
    if |chunks| == 0 then []
    else
      var last := chunks[|chunks| - 1];
      var rest := LargeOnly(chunks[..|chunks| - 1], minSize);
      assert chunks == chunks[..|chunks| - 1] + [last];
      if |last.group| > minSize then rest + [last] else rest
  }

  /** Every chunk of the list starts at its own row-major-first pixel. */
  ghost predicate SeedsFirst<C>(chunks: seq<Chunk<C>>) {
    forall i, p :: 0 <= i < |chunks| && p in chunks[i].group ==> !ScannedBefore(p, chunks[i].group[0])
  }

  /** A chunk whose seed comes after every seed of an ordered list extends it. */
  lemma AppendOrdered<C>(s: seq<Chunk<C>>, c: Chunk<C>)
    requires SeedsOrdered(s)
    requires forall d :: d in s ==> |d.group| > 0 && |c.group| > 0 && ScannedBefore(d.group[0], c.group[0])
    ensures SeedsOrdered(s + [c])
  {
    forall i, j | 0 <= i < j < |s + [c]|
      ensures |(s + [c])[i].group| > 0 && |(s + [c])[j].group| > 0
      ensures ScannedBefore((s + [c])[i].group[0], (s + [c])[j].group[0])
    {
      assert s[i] in s;
    }
  }

  /** Both halves of a split list the input's chunks in the input's seed
      order, each still starting at its first pixel. */
  lemma {:induction false} ClassifyKeepsOrder<C>(chunks: seq<Chunk<C>>, minSize: int)
    requires SeedsOrdered(chunks) && SeedsFirst(chunks)
    ensures SeedsOrdered(Classify(chunks, minSize).0) && SeedsOrdered(Classify(chunks, minSize).1)
    ensures SeedsFirst(Classify(chunks, minSize).0) && SeedsFirst(Classify(chunks, minSize).1)
    decreases |chunks|
  {
    if |chunks| > 0 {
      var init := chunks[..|chunks| - 1];
      var last := chunks[|chunks| - 1];
      assert forall j :: 0 <= j < |init| ==> init[j] == chunks[j];
      ClassifyKeepsOrder(init, minSize);
      ClassifyMembers(init, minSize);
      var rest := Classify(init, minSize);
      forall c | c in rest.0 || c in rest.1
        ensures |c.group| > 0 && |last.group| > 0 && ScannedBefore(c.group[0], last.group[0])
      {
        var j :| 0 <= j < |init| && init[j] == c;
      }
      AppendOrdered(rest.0, last);
      AppendOrdered(rest.1, last);
    }
    ClassifyMembers(chunks, minSize);
    var split := Classify(chunks, minSize);
    forall i, p | 0 <= i < |split.0| && p in split.0[i].group
      ensures !ScannedBefore(p, split.0[i].group[0])
    {
      assert split.0[i] in split.0;
      var j :| 0 <= j < |chunks| && chunks[j] == split.0[i];
    }
    forall i, p | 0 <= i < |split.1| && p in split.1[i].group
      ensures !ScannedBefore(p, split.1[i].group[0])
    {
      assert split.1[i] in split.1;
      var j :| 0 <= j < |chunks| && chunks[j] == split.1[i];
    }
  }

  /** The two copies of the classification agree: keeping chunks larger than
      m is keeping the large half of a split at m + 1. */
  lemma {:induction false} LargeOnlyIsLargeHalf<C>(chunks: seq<Chunk<C>>, m: int)
    ensures LargeOnly(chunks, m) == Classify(chunks, m + 1).1
    decreases |chunks|
  {
    if |chunks| > 0 {
      LargeOnlyIsLargeHalf(chunks[..|chunks| - 1], m);
    }
  }

  /** `(int)(scale * (width * height))`: the float product cast to int, which
      truncates toward zero. */
  function MinSize(scale: real, width: nat, height: nat): (m: int)
    ensures scale >= 0.0 ==> 0 <= m && m as real <= scale * ((width * height) as real) < m as real + 1.0
    ensures scale < 0.0 ==> m <= 0 && m as real - 1.0 < scale * ((width * height) as real) <= m as real
  {
    var v := scale * ((width * height) as real);
    if v >= 0.0 then v.Floor else -((-v).Floor)
  }

  /** No pixel belongs to a chunk of both lists. */
  ghost predicate Apart<C>(a: seq<Chunk<C>>, b: seq<Chunk<C>>) {
    forall i, j, p :: 0 <= i < |a| && 0 <= j < |b| && p in a[i].group ==> p !in b[j].group
  }

  lemma DisjointAppend<C>(a: seq<Chunk<C>>, c: Chunk<C>)
    requires Disjoint(a) && Apart(a, [c])
    ensures Disjoint(a + [c])
  {
    forall i, j, p | 0 <= i < j < |a + [c]| && p in (a + [c])[i].group
      ensures p !in (a + [c])[j].group
    {
      if j == |a| {
        assert (a + [c])[j] == [c][0];
      }
    }
  }

  lemma ApartAppendLeft<C>(a: seq<Chunk<C>>, b: seq<Chunk<C>>, c: Chunk<C>)
    requires Apart(a, b) && Apart(b, [c])
    ensures Apart(a + [c], b)
  {
    forall i, j, p | 0 <= i < |a + [c]| && 0 <= j < |b| && p in (a + [c])[i].group
      ensures p !in b[j].group
    {
      if i == |a| {
        assert (a + [c])[i] == [c][0];
      }
    }
  }

  lemma ApartAppendRight<C>(a: seq<Chunk<C>>, b: seq<Chunk<C>>, c: Chunk<C>)
    requires Apart(a, b) && Apart(a, [c])
    ensures Apart(a, b + [c])
  {
    forall i, j, p | 0 <= i < |a| && 0 <= j < |b + [c]| && p in a[i].group
      ensures p !in (b + [c])[j].group
    {
      if j == |b| {
        assert (b + [c])[j] == [c][0];
      }
    }
  }

  /** Splitting a list of pairwise disjoint chunks gives two lists that are
      each pairwise disjoint and share no pixel. */
  lemma {:induction false} ClassifyKeepsDisjoint<C>(chunks: seq<Chunk<C>>, minSize: int)
    requires Disjoint(chunks)
    ensures Disjoint(Classify(chunks, minSize).0) && Disjoint(Classify(chunks, minSize).1)
    ensures Apart(Classify(chunks, minSize).0, Classify(chunks, minSize).1)
    decreases |chunks|
  {
    if |chunks| > 0 {
      var init := chunks[..|chunks| - 1];
      var last := chunks[|chunks| - 1];
      assert Disjoint(init);
      ClassifyKeepsDisjoint(init, minSize);
      ClassifyMembers(init, minSize);
      var rest := Classify(init, minSize);
      assert Apart(rest.0, [last]) by {
        forall i, p | 0 <= i < |rest.0| && p in rest.0[i].group
          ensures p !in last.group
        {
          assert rest.0[i] in rest.0;
          var k :| 0 <= k < |init| && init[k] == rest.0[i];
          assert chunks[k] == init[k];
        }
      }
      assert Apart(rest.1, [last]) by {
        forall i, p | 0 <= i < |rest.1| && p in rest.1[i].group
          ensures p !in last.group
        {
          assert rest.1[i] in rest.1;
          var k :| 0 <= k < |init| && init[k] == rest.1[i];
          assert chunks[k] == init[k];
        }
      }
      if |last.group| < minSize {
        DisjointAppend(rest.0, last);
        ApartAppendLeft(rest.0, rest.1, last);
        assert Classify(chunks, minSize) == (rest.0 + [last], rest.1);
      } else {
        DisjointAppend(rest.1, last);
        ApartAppendRight(rest.0, rest.1, last);
        assert Classify(chunks, minSize) == (rest.0, rest.1 + [last]);
      }
    }
  }
}

=== FILE: services.dfy ===
/** `ServiceLocator`: a static registry of services keyed by the simple
    name of their type. The registry is passed in and handed back, and a
    failing call hands it back unchanged. */
module Services {
  import opened Wrappers

  /** A `System.Type`: its namespace and its simple name. */
  datatype TypeRef = TypeRef(space: string, name: string)

  /** A registered object: `null`, or an instance of a runtime type. */
  datatype Obj = Null | Instance(runtime: TypeRef, id: nat)

  /** The dictionary from a type's simple name to its service. */
  type Registry = map<string, Obj>

  /** The dictionary key of a type: `typeof(T).Name`, without namespace. */
  function Key(t: TypeRef): string {
    t.name
  }

  /** The cast `(T)obj` succeeds: `null` casts to any reference type, an
      instance only to its own type. */
  predicate CastsTo(o: Obj, t: TypeRef) {
    o.Null? || o.runtime == t
  }

  function IsRegistered(s: Registry, t: TypeRef): bool {
    Key(t) in s
  }

  /** `Get<T>`: the service stored under T's name, cast to T. A missing key
      and a failing cast are errors. */
  function Get(s: Registry, t: TypeRef): (r: Result<Obj>)
    ensures r.Ok? <==> IsRegistered(s, t) && CastsTo(s[Key(t)], t)
    ensures r.Ok? ==> CastsTo(r.value, t)
    ensures !IsRegistered(s, t) ==> r == Err("[ServiceError] " + Key(t) + " not registered")
  {
    if Key(t) !in s then Err("[ServiceError] " + Key(t) + " not registered")
    else if CastsTo(s[Key(t)], t) then Ok(s[Key(t)])
    else Err("Specified cast is not valid.")
  }

  /** The registry after a call, with the call's outcome. */
  datatype Step<T> = Step(next: Registry, outcome: Result<T>)

  /** `Register<T>`: stores the service under T's name and announces T to
      the `ServiceRegistered` listeners; a name already present is an
      error. The argument is statically a T. */
  function Register(s: Registry, t: TypeRef, service: Obj): (r: Step<TypeRef>)
    requires CastsTo(service, t)
    ensures r.outcome.Err? <==> IsRegistered(s, t)
    ensures r.outcome.Err? ==> r.next == s
    ensures r.outcome.Ok? ==> r.outcome.value == t && r.next.Keys == s.Keys + {Key(t)}
    ensures forall k :: k in s && k != Key(t) ==> k in r.next && r.next[k] == s[k]
  {
    var key := Key(t);
    if key in s then Step(s, Err("Attempted to register service of type " + key + " which is already registered"))
    else Step(s[key := service], Ok(t))
  }

  /** `Unregister<T>`: removes T's name; a name not present is an error. */
  function Unregister(s: Registry, t: TypeRef): (r: Step<()>)
    ensures r.outcome.Err? <==> !IsRegistered(s, t)
    ensures r.outcome.Err? ==> r.next == s
    ensures r.outcome.Ok? ==> r.next.Keys == s.Keys - {Key(t)}
    ensures forall k :: k in r.next ==> k in s && r.next[k] == s[k]
  {
    var key := Key(t);
    if key !in s then Step(s, Err("Attempted to unregister service of type " + key + " which is not registered"))
    else Step(s - {key}, Ok(()))
  }

  /** A registered service comes back from `Get` of its own type. */
  lemma RegisterThenGet(s: Registry, t: TypeRef, service: Obj)
    requires CastsTo(service, t) && !IsRegistered(s, t)
    ensures IsRegistered(Register(s, t, service).next, t)
    ensures Get(Register(s, t, service).next, t) == Ok(service)
  {
  }

  /** Registering and then unregistering the same type restores the
      registry. */
  lemma UnregisterUndoesRegister(s: Registry, t: TypeRef, service: Obj)
    requires CastsTo(service, t) && !IsRegistered(s, t)
    ensures Unregister(Register(s, t, service).next, t) == Step(s, Ok(()))
  {
    var mid := Register(s, t, service).next;
    assert mid - {Key(t)} == s;
  }

  /** A registration answers `Get` only for its own name: other names keep
      their answers. */
  lemma RegisterKeepsOthers(s: Registry, t: TypeRef, service: Obj, u: TypeRef)
    requires CastsTo(service, t) && Key(u) != Key(t)
    ensures Get(Register(s, t, service).next, u) == Get(s, u)
  {
  }

  /** Two types of the same simple name in different namespaces share a
      key: once one is registered the other counts as registered, cannot
      be registered, and its `Get` fails on the cast of an instance. */
  lemma SameNameCollides(s: Registry, t: TypeRef, u: TypeRef, id: nat)
    requires t.name == u.name && t.space != u.space && !IsRegistered(s, t)
    ensures IsRegistered(Register(s, t, Instance(t, id)).next, u)
    ensures Register(Register(s, t, Instance(t, id)).next, u, Instance(u, id)).outcome.Err?
    ensures Get(Register(s, t, Instance(t, id)).next, u).Err?
  {
  }

  /** A failed call leaves the registry as it was, so a duplicate
      registration keeps the first service. */
  lemma DuplicateKeepsFirst(s: Registry, t: TypeRef, first: Obj, second: Obj)
    requires CastsTo(first, t) && CastsTo(second, t) && !IsRegistered(s, t)
    ensures Get(Register(Register(s, t, first).next, t, second).next, t) == Ok(first)
  {
  }
}

=== FILE: wrappers.dfy ===
/** Failure-carrying result types shared by the model. The source signals most
    failures by throwing or by returning null; the model returns one of these. */
module Wrappers {

  /** A value that may be absent, standing for a C# reference that may be null. */
  datatype Option<+T> = None | Some(value: T)

  /** A value or the message of the exception the source would throw instead. */
  datatype Result<+T> = Ok(value: T) | Err(message: string)
}
